=== FILE: README.md ===
# Filter Design App — a Dafny model of its filter arithmetic and bookkeeping

The Filter Design App places the zeros and poles of a digital filter on a z-plane. It derives the transfer-function coefficients from them. It draws direct form II and cascade structure diagrams, exports C code that runs the filter, labels the phase plot in multiples of π, and keeps a list of all-pass sections.

This project models the logic under that user interface as pure Dafny functions over immutable data, and proves what that logic promises:

- complex numbers are pairs of exact reals;
- `np.poly` is repeated multiplication by a linear factor;
- the emitted C routines are state machines over their delay lines;
- an access the emitted C makes outside an array, or a Python `IndexError`/`ValueError`, is `None`;
- editor lists and history snapshots are immutable values, so the copies `save_state`, `undo` and `redo` make are implicit and no later edit can alter a stored snapshot.

Modules, one per file:

| file | module | models |
|---|---|---|
| wrappers.dfy | Wrappers | `Option` |
| complex_arith.dfy | ComplexArith | complex arithmetic on real pairs |
| text.dfy | Text | `split`, `rsplit`, `strip`, `upper`, `str(int)`, `float` of a plain decimal, `.3f` |
| poly.dfy | Poly | `np.poly` |
| filter_model.dfy | FilterModel | `Filter.py` |
| zplane.dfy | ZPlane | element pairing, drag and release, screen mapping, guideline labels (`ZPlaneWidget.py`) |
| zplane_history.dfy | ZPlaneHistory | editor state and undo/redo history (`ZPlaneWidget.py`) |
| direct_form.dfy | DirectForm | direct form II code generation and the emitted `init`/`process` |
| cascade_form.dfy | CascadeForm | `generate_cascade_form` and its emitted `process` |
| export_steps.dfy | ExportSteps | the fixed-shape C of `export.py` |
| code_files.dfy | CodeFiles | output paths, header guard, include line |
| delays.dfy | Delays | delay-count sizing of the structure diagrams |
| pi_ticks.dfy | PiTicks | `format_pi_ticks` from the quarter-π count on |
| all_pass.dfy | AllPass | the all-pass descriptor list and its preview |

## Model

| member | source | states |
|---|---|---|
| Text.Split | AllPassFilter.py:104-106 | `str.split` gives at least one part; no part holds the separator; joining the parts with it gives the text back |
| Text.SplitJoin | AllPassFilter.py:104-106 | splitting a join of separator-free parts gives exactly those parts |
| Text.LastSegment | FilterCodeGenerator.py:34 | `split('/')[-1]` is a separator-free suffix, either the whole text or preceded by the separator |
| Text.BeforeLast | FilterCodeGenerator.py:33 | `rsplit('.', 1)[0]` is the prefix up to the last dot, or the whole text if it has no dot |
| Text.Strip | AllPassFilter.py:105-106 | the stripped text is a slice of the input with only whitespace (the `str.isspace` set, Unicode separators included) cut from either end, and it neither starts nor ends with whitespace |
| Text.StripUnpadded | AllPassFilter.py:105-106 | text that neither starts nor ends with whitespace is left unchanged by `strip` |
| Text.Upper | FilterCodeGenerator.py:124 | `upper` keeps the length, turns every lower-case ASCII letter upper case, and leaves every other character alone |
| Text.NatToString | PlotsWidget.py:90-96 | `str(n)` is a non-empty digit string denoting `n` |
| Text.IntToString | PlotsWidget.py:80 | `str(i)` is the digits of `abs(i)`, with a minus sign exactly when `i < 0` |
| Text.ParseIntToString | PlotsWidget.py:80 | `int(str(i)) == i` for every integer |
| Text.Fixed3Shape | AllPassFilter.py:55 | a `.3f` rendering contains no `,` or `:` and is not padded with whitespace |
| Text.ParseFixed3 | AllPassFilter.py:55 | `float` of the `.3f` rendering of `k/1000` gives back `k/1000`, negatives included |
| Poly.Expand | Filter.py:53-54 | `np.poly` of `n` roots is monic with `n + 1` coefficients |
| Poly.ExpandSingle | Filter.py:53-54 | a single root `r` expands to `[1, -r]` |
| Poly.MulLinearCommute | Filter.py:53-54 | multiplying by `(z - a)` then `(z - b)` equals multiplying in the other order |
| Poly.ExpandPermutation | Filter.py:53-54 | root lists with the same multiset expand to the same coefficients |
| Poly.ExpandConj | Filter.py:53-54 | conjugating the coefficients equals expanding the conjugated roots |
| Poly.ConjugateClosedExpandsReal | Filter.py:53-54 | a root multiset closed under conjugation gives coefficients with zero imaginary part |
| FilterModel.NewFilter | Filter.py:8-17 | a new filter has no zeros, no poles, gain 1 and no subscribers |
| FilterModel.Subscribe | Filter.py:19-20 | `subscribe` appends the callback and changes nothing else |
| FilterModel.Notify | Filter.py:22-24 | one call per callback, in order, each given the same filter |
| FilterModel.NotifySubscribers | Filter.py:22-24 | every registered callback is called exactly once, in registration order, with the filter itself |
| FilterModel.ScaleAll | Filter.py:53 | `np.poly(...) * gain` scales every coefficient by the gain |
| FilterModel.TransferFunction | Filter.py:50-55 | numerator `[gain]` without zeros, denominator `[1]` without poles; otherwise one coefficient more than roots, numerator led by `gain`, denominator monic |
| FilterModel.SingleRootTransferFunction | Filter.py:53-54 | one zero `z` gives `[gain, -gain·z]`; one pole `p` gives `[1, -p]` |
| FilterModel.TransferFunctionOrderFree | Filter.py:53-54 | the coefficients do not depend on the order the zeros and poles are listed in |
| FilterModel.RealCoefficients | Filter.py:53-54 | conjugate-closed zeros and poles give real numerator and denominator |
| FilterModel.ToPairs | Filter.py:75-76 | each complex value becomes `(re, im)`, in list order |
| FilterModel.FromPairs | Filter.py:90-91 | each `(re, im)` becomes `complex(re, im)`, in list order |
| FilterModel.Save | Filter.py:72-78 | the file holds one pair per zero and per pole and the gain verbatim |
| FilterModel.Load | Filter.py:84-93 | loading replaces zeros, poles and gain, keeps the subscribers, then notifies them once with the loaded filter |
| FilterModel.SaveLoadRoundTrip | Filter.py:72-93 | save then load restores zeros, poles and gain exactly; each subscriber of the loading filter is called once |
| FilterModel.LoadSaveRoundTrip | Filter.py:72-93 | load then save writes the same data |
| FilterModel.UpdateFromZPlane | Filter.py:26-30 | every element's position is copied in order, phantoms included; gain and subscribers are kept; then one notification |
| FilterModel.PairedPositionsClosed | Filter.py:28-29 | the positions of an editor list are closed under conjugation |
| FilterModel.ConjPairClosed | ZPlaneWidget.py:383-387 | appending a value and its conjugate keeps a list conjugate-closed |
| FilterModel.EditorFilterIsReal | Filter.py:26-30 | a filter fed from editor lists in the paired layout has real transfer-function coefficients; adding, drag steps, undo/redo, the toggle and the corrected release keep that layout, the release as written does not |
| FilterModel.AsWrittenReleaseFeedsComplexFilter | ZPlaneWidget.py:356-362 | one zero placed at `p` and released at `q` as written feeds `update_from_zplane` the zeros `q` and `conj(p)`, so the numerator ends in `gain·q·conj(p)` rather than the `gain·|q|²` a synced phantom would give |
| FilterModel.StaleProduct | ZPlaneWidget.py:356-362 | for a zero placed at `i` and released at `1 + i`, that coefficient is `gain·(1 - i)` |
| FilterModel.TwoZeroNumerator | Filter.py:53 | with two zeros, `np.poly(zeros) * gain` ends in the gain times the product of the zeros |
| FilterModel.ReleasedPositions | ZPlaneWidget.py:356-362 | that release leaves the positions `[q, conj(p)]`: the moved zero and its stale phantom |
| FilterModel.ExpandPair | Filter.py:53 | `np.poly([a, b])` ends in the product `a·b` of the two roots |
| ZPlane.PairedLayoutIsSynced | ZPlaneWidget.py:377-387 | in the paired layout every phantom's parent exists and sits at the conjugate position |
| ZPlane.AddElement | ZPlaneWidget.py:377-387 | `add_element` appends exactly two entries, the element at `p` and then its phantom, keeps the earlier entries, and keeps the paired layout |
| ZPlane.AddKeepsLayout | ZPlaneWidget.py:383-387 | the appended pair is well placed: the phantom points at index `n` and sits at `conj(p)` |
| ZPlane.PyIndex | ZPlaneWidget.py:327 | Python list indexing: defined exactly for `-n <= i < n`, with negative indices counting from the end |
| ZPlane.FirstPhantomOf | ZPlaneWidget.py:336-339 | the loop finds the first phantom whose parent is the dragged index, or reports that there is none |
| ZPlane.DragTo | ZPlaneWidget.py:322-339 | a drag step puts the dragged element at `p`, keeps the length, the flags and the parent links; `None` is the `IndexError` of a bad parent index |
| ZPlane.DragKeepsLayout | ZPlaneWidget.py:326-339 | a drag step of either twin keeps every phantom at the conjugate of its parent |
| ZPlane.DragKeepsLayoutWhenPaired | ZPlaneWidget.py:326-339 | the same, stated for every list |
| ZPlane.PairedPrefixFacts | ZPlaneWidget.py:336-339 | in the paired layout the twin the loop finds is the next entry |
| ZPlane.FirstPhantomAt | ZPlaneWidget.py:336-339 | the loop stops at the first matching entry |
| ZPlane.ReleaseAsWritten | ZPlaneWidget.py:352-362 | releasing a phantom acts as a drag step; releasing an ordinary element moves only that element |
| ZPlane.ReleaseLeavesPhantomBehind | ZPlaneWidget.py:356-362 | one zero placed at `i` and released at `1 + i` leaves its phantom at `-i`, out of sync |
| ZPlane.Release | ZPlaneWidget.py:352-362 | release with the phantom re-synchronised puts the element at `p` and keeps the paired layout |
| ZPlane.Positions | Filter.py:28-29 | the positions of all elements, in list order |
| ZPlane.PointToComplex | ZPlaneWidget.py:396-401 | `point_to_complex` is defined exactly when the radius is non-zero |
| ZPlane.PointToComplexToPoint | ZPlaneWidget.py:389-401 | `point_to_complex(complex_to_point(z)) == z` whenever width and height are positive |
| ZPlane.ComplexToPointToComplex | ZPlaneWidget.py:389-401 | `complex_to_point(point_to_complex(p)) == p` whenever width and height are positive |
| ZPlane.EmptyViewportHasNoMapping | ZPlaneWidget.py:396-401 | a widget with no width or no height has no mapping (division by zero) |
| ZPlane.NamedLabelExactly | ZPlaneWidget.py:231-253 | a whole-degree angle gets a named label exactly when it is a multiple of 45° in [0°, 360°] |
| ZPlane.GuidelineLabelsAreNamed | ZPlaneWidget.py:170-195 | every guideline angle in `range(0, 360, 15)` that is a multiple of 45 gets a named label, never the `%.2fπ` fallback |
| ZPlaneHistory.WithList | ZPlaneWidget.py:380 | replacing the chosen list leaves the other list, the flag and the history alone |
| ZPlaneHistory.PyPrefix | ZPlaneWidget.py:407 | Python's `s[:k]` for any integer `k`, negative bounds counting from the end |
| ZPlaneHistory.SaveState | ZPlaneWidget.py:406-417 | `save_state` drops the entries after the cursor, appends the current state and points at it; undo is possible iff there was an earlier entry, redo is not |
| ZPlaneHistory.NewEditor | ZPlaneWidget.py:19-37 | the constructor's single snapshot is empty lists with conjugates on; neither undo nor redo is possible |
| ZPlaneHistory.Restore | ZPlaneWidget.py:422-427 | copying snapshot `i` back makes the editor show exactly that snapshot |
| ZPlaneHistory.Undo | ZPlaneWidget.py:419-430 | `undo` moves the cursor back and shows that snapshot only when the cursor is above 0; otherwise it changes nothing |
| ZPlaneHistory.Redo | ZPlaneWidget.py:432-443 | `redo` moves the cursor forward only when it is below the last entry; otherwise it changes nothing |
| ZPlaneHistory.UndoThenRedo | ZPlaneWidget.py:419-443 | undo then redo returns to the same cursor and snapshot; a synced editor comes back unchanged |
| ZPlaneHistory.RedoThenUndo | ZPlaneWidget.py:419-443 | redo then undo returns to the same cursor and snapshot |
| ZPlaneHistory.SaveThenUndo | ZPlaneWidget.py:406-430 | after edits and a save, undo shows the state saved before and redo shows the edit |
| ZPlaneHistory.DragStep | ZPlaneWidget.py:311-341 | a mouse-move step replaces the held list by the drag step's result and saves nothing |
| ZPlaneHistory.ReleaseItemAsWritten | ZPlaneWidget.py:352-367 | releasing a held ordinary element moves that element alone to `p` and leaves the rest of its list as it was; the other list is kept and the saved snapshot is synced with the editor |
| ZPlaneHistory.ReleaseItemCorrected | ZPlaneWidget.py:352-367 | the release with the twin re-synchronised puts the held element at `p`, keeps the other list, saves a synced snapshot, and on a phantom is exactly the release as written |
| ZPlaneHistory.ReleaseNew | ZPlaneWidget.py:344-351 | releasing a new element adds it to the chosen list only, then saves |
| ZPlaneHistory.ToggleConjugate | ZPlaneWidget.py:372-375 | toggling takes the check box state, keeps both lists, then saves |
| ZPlaneHistory.NewEditorGood | ZPlaneWidget.py:19-37 | the new editor has a valid cursor and the paired layout everywhere |
| ZPlaneHistory.SaveStateGood | ZPlaneWidget.py:406-417 | saving keeps a valid cursor and the paired layout in the lists and in every snapshot |
| ZPlaneHistory.UndoRedoGood | ZPlaneWidget.py:419-443 | undo and redo keep a valid cursor and the paired layout |
| ZPlaneHistory.DragStepGood | ZPlaneWidget.py:311-341 | a drag step never fails on an editor list and keeps the paired layout |
| ZPlaneHistory.ReleaseItemCorrectedGood | ZPlaneWidget.py:352-367 | the corrected release never fails on an editor list and keeps the paired layout |
| ZPlaneHistory.ReleaseItemAsWrittenBreaksPairing | ZPlaneWidget.py:344-367 | a zero added at `i` and released at `1 + i` as written turns an editor with the paired layout into one without it |
| ZPlaneHistory.ReleaseNewGood | ZPlaneWidget.py:344-351 | adding a new element keeps the paired layout |
| ZPlaneHistory.ToggleConjugateGood | ZPlaneWidget.py:372-375 | toggling keeps the paired layout |
| DirectForm.Tail | FilterCodeGenerator.py:75 | Python's `a[1:]`, empty for an empty list |
| DirectForm.GenerateCodeParts | FilterCodeGenerator.py:49-75 | given a `(b, a)` pair, `order = max(len(a), len(b)) - 1`; `_num` is all of `b`; `_den` is `a` without `a0` |
| DirectForm.GenerateDirectForm2 | filter_code_generator.py:28-54 | the second generator, given the denominator first, makes the same decisions |
| DirectForm.Init | FilterCodeGenerator.py:62-68 | `init` zeroes all `order` delay-line entries and the output |
| DirectForm.Step | FilterCodeGenerator.py:79-101 | `state[0]` becomes `w = input - Σ den[i]·state[i]`, the other entries shift down by one, the length is kept, and the output `num[0]·w + Σ num[i + 1]·state[i]` is stored and returned |
| DirectForm.FeedbackLoop | FilterCodeGenerator.py:80-86 | the feedback loop leaves `input - Σ den[i]·state[i]` in `new_state` |
| DirectForm.OutputLoop | FilterCodeGenerator.py:88-92 | the output loop computes `num[0]·new_state + Σ num[i + 1]·state[i]` |
| DirectForm.ShiftLoop | FilterCodeGenerator.py:94-98 | the state loop shifts every entry down by one and puts `new_state` at index 0 |
| DirectForm.Process | FilterCodeGenerator.py:79-101 | the three emitted loops compute exactly one `Step` |
| DirectForm.ProcessAsWritten | FilterCodeGenerator.py:84-98 | when no access leaves its array, the emitted code has order at least 1 and keeps the delay-line length |
| DirectForm.AsWrittenDefinedIff | FilterCodeGenerator.py:51-98 | the emitted code stays inside its arrays iff numerator and denominator have equal length, at least 2 |
| DirectForm.MismatchedLengthsReadPastEnd | FilterCodeGenerator.py:84-92 | `b = [g]`, `a = [1, -p]` makes `process` read `_num[1]` of a one-element array |
| DirectForm.OrderZeroWritesPastEnd | FilterCodeGenerator.py:95-98 | a pure gain has order 0, and `process` writes `state[0]` of an empty delay line |
| DirectForm.GenerateCorrected | FilterCodeGenerator.py:51-75 | both arrays padded with zeros to the declared order; the given coefficients come first |
| DirectForm.ProcessCorrected | FilterCodeGenerator.py:79-101 | the corrected step is always defined and keeps the delay-line length |
| DirectForm.AsWrittenAgreesWithCorrected | FilterCodeGenerator.py:48-101 | wherever the emitted code is defined it equals the corrected realization |
| DirectForm.Window | FilterCodeGenerator.py:95-98 | the delay line holds the last `n` values of `w`, newest first, zero before the start |
| DirectForm.StepOnWindow | FilterCodeGenerator.py:81-98 | one step on a window computes the next `w` and output and pushes `w` into the window |
| DirectForm.RunFollowsDifferenceEquation | FilterCodeGenerator.py:62-101 | from `init`, the outputs of successive `process` calls are the direct form II difference equation `w[k] = x[k] - Σ a_j w[k-j]`, `y[k] = Σ b_j w[k-j]` |
| DirectForm.ImpulseResponseExample | FilterCodeGenerator.py:72-101 | for the shipped low-pass coefficients `[0.5, 0.5]`, `[1, -0.5]`, an impulse gives 0.5 then 0.75 |
| CascadeForm.MaxOrder | filter_code_generator.py:96 | `max_order` bounds every section's order and is one of them; `max` of no sections is an error |
| CascadeForm.GenerateLayout | filter_code_generator.py:93-96 | `total_sections = len(sections)`, the sections kept, every order at most `max_order`; no sections is an error |
| CascadeForm.InitRows | filter_code_generator.py:107-115 | `init` makes `total_sections` rows of `max_order` zeros |
| CascadeForm.InitRowsZero | filter_code_generator.py:107-115 | every row after `init` is zero |
| CascadeForm.ShiftIn | filter_code_generator.py:143-146 | the first `order` entries of a row shift by one, the new state enters at 0, the rest of the row stays |
| CascadeForm.SectionStep | filter_code_generator.py:129-147 | one section's code is defined exactly when its accesses stay inside its arrays, and keeps the row length |
| CascadeForm.SectionInsideIff | filter_code_generator.py:130-146 | a section stays inside iff it has a numerator, a column to write, and a denominator as long as the numerator (or none for a pure gain) |
| CascadeForm.Chain | filter_code_generator.py:150-157 | the sections run in order, each output feeding the next section; rows not yet reached are untouched |
| CascadeForm.ChainSnoc | filter_code_generator.py:150-157 | running one more section applies it to its own row and to the previous output |
| CascadeForm.ProcessCascade | filter_code_generator.py:150-158 | the returned value is the last section's output and is also stored in `f->output` |
| CascadeForm.SectionTouchesOwnRow | filter_code_generator.py:130-146 | section `k` changes row `k` only, by its own section step |
| CascadeForm.SingleSectionIsDirectForm | filter_code_generator.py:129-147 | a one-section cascade computes what the direct form II code for that section computes |
| CascadeForm.SectionOnZeroRow | filter_code_generator.py:138-141 | on a zero row a section outputs `num[0]` times its input |
| CascadeForm.FirstOutputFromZero | filter_code_generator.py:107-157 | from the zeroed state, the first output is the input times the product of every section's `num[0]` |
| CascadeForm.ChainIsScaled | filter_code_generator.py:107-157 | from the zeroed state every section, one after the other, only multiplies what reaches it by its `num[0]` |
| CascadeForm.ZeroRowStep | filter_code_generator.py:138-146 | a section whose row is still zero multiplies what the earlier sections hand it by its own `num[0]` |
| CascadeForm.ScaledIsProduct | filter_code_generator.py:150-157 | multiplying by each section's `num[0]` in turn is multiplying by their product |
| ExportSteps.InitW | export.py:26-30 | `filter_init` gives `len(b)` zeros |
| ExportSteps.Df2Step | export.py:32-38 | the step is defined iff `len(a) >= 2` and `len(b) >= 2`; it sets `w[1]` to the new `w[0]` and leaves the higher entries alone |
| ExportSteps.Df2StepIsOrderOne | export.py:32-38 | the step is the order-1 direct form II step on `b[0..2]` and `a[1]`; higher coefficients are ignored |
| ExportSteps.Df2Run | export.py:32-38 | successive calls give one output per input and keep the length of `w` |
| ExportSteps.Df2Example | export.py:123 | for `b = [1, -1]` and `a = [1, -0.5]` from zero state, inputs 1 then 0 give 1 then -0.5 |
| ExportSteps.Row3 | export.py:51-53 | a row of a width-3 array: the section's values in order, zero filled; more than three do not fit |
| ExportSteps.Rows | export.py:51-57 | one row per section, in order |
| ExportSteps.GenerateArrays | export.py:43-57 | `NUM_SECTIONS = len(sections)`; row `i` starts with section `i`'s `b` (and `a`) values; it is defined iff every list fits in 3 |
| ExportSteps.Biquad3 | export.py:70-72 | one transposed biquad keeps two state cells |
| ExportSteps.BiquadChain | export.py:68-76 | after `k` sections the rows from `k` on are untouched |
| ExportSteps.CascadeProcess | export.py:68-76 | the emitted loop computes the chained sections and returns the last output |
| ExportSteps.BiquadTouchesOwnRow | export.py:70-73 | section `k` reads and writes only `w[k]` |
| ExportSteps.FirstCascadeOutput | export.py:59-75 | from the zero state of `filter_init`, the first output is `x · Π b[i][0]` |
| ExportSteps.ChainIsScaled | export.py:68-76 | from the zero state every section, one after the other, only multiplies what reaches it by its `b[i][0]` |
| ExportSteps.ChainScales | export.py:70-72 | a section whose state row is still zero outputs its input times its `b[0]` |
| ExportSteps.BiquadRun | export.py:68-76 | one section fed sample by sample gives one output per input |
| ExportSteps.BiquadStepFollows | export.py:70-73 | one step keeps the state cells matching the signal history and outputs the biquad difference equation |
| ExportSteps.BiquadDifferenceEquation | export.py:68-76 | from zero state every output is `b0 x[n] + b1 x[n-1] + b2 x[n-2] - a1 y[n-1] - a2 y[n-2]` |
| CodeFiles.PathsOf | FilterCodeGenerator.py:32-46 | `base_name` is the path before its last `.`; `base_filename` is the separator-free end of `base_name`; the outputs are `base_name + ".h"` and `base_name + ".c"` |
| CodeFiles.PathsOfNamedFile | FilterCodeGenerator.py:33-44 | for `dir/stem.ext` the files are `dir/stem.h` and `dir/stem.c`, and `base_filename` is `stem` |
| CodeFiles.DotInDirectoryOnly | FilterCodeGenerator.py:33-34 | a path whose only dot is in a directory name loses everything from that dot on |
| CodeFiles.LastSegmentAfterSeparator | FilterCodeGenerator.py:34 | the last segment of `dir/stem` is `stem` |
| CodeFiles.FilesContent | FilterCodeGenerator.py:123-135 | the guard is `upper(base_filename) + "_H"`, every lower-case ASCII letter of the stem becoming the letter 32 code points below; the include names `base_filename + ".h"`, the order field is `N/A`, and the filter type is passed through |
| CodeFiles.UpperIdempotent | FilterCodeGenerator.py:124 | upper-casing twice is upper-casing once; text without lower case is its own guard stem |
| CodeFiles.IncludeNamesWrittenHeader | FilterCodeGenerator.py:127 | the header the source includes is the end of the header path actually written |
| CodeFiles.SampleHeaderGuard | filter_code_generator.py:177-189 | for `digital_filter` the guard is `DIGITAL_FILTER_H`, matching the shipped header, and the include is `digital_filter.h` |
| Delays.TrimLen | FilterVisualizer.py:27-28 | one less than the length exactly when the list ends in zero |
| Delays.DrawnDelays | FilterVisualizer.py:56-71 | the reference count the drawing shows, trimming at most one trailing zero from each list: the larger of the trimmed denominator length and the trimmed numerator length minus one (so `den = [0.5, 0, 0]` still gives at least 2) |
| Delays.CalculateDelays | FilterVisualizer.py:22-33 | fails iff the denominator is empty and the numerator has at most one entry; otherwise lies in `[M-1, M]` for `M = max(len(den), len(num) - 1)`, one less exactly when the dominant list ends in zero |
| Delays.DrawElementsDelays | FilterVisualizer.py:51-71 | the `n_delays` choice of `_draw_elements` fails on the same inputs as `_calculate_delays` |
| Delays.DrawElements | FilterVisualizer.py:51-136 | `_draw_elements` fails iff the numerator is empty (`numerator_coeffs[0]`) or its `n_delays` choice fails; otherwise it draws that choice |
| Delays.DrawElementsOnFilter | FilterVisualizer.py:146-156 | on a filter's transfer function the drawing fails only where its `n_delays` choice does, since the numerator is never empty |
| Delays.DrawElementsIsDrawnDelays | FilterVisualizer.py:56-71 | whenever `_draw_elements` succeeds it draws exactly `DrawnDelays` delays |
| Delays.CalculateVersusDraw | FilterVisualizer.py:22-71 | the two counts agree iff not in the tie case; in the tie case `_calculate_delays` is one less |
| Delays.DirectFormDelays | FilterVisualizer.py:146-155 | sizing fails exactly for a filter with no zeros and no poles; otherwise the count lies in `[M-1, M]` with `M` the larger of the pole and zero counts |
| Delays.PureGainHasNoDiagram | FilterVisualizer.py:151-154 | a pure gain makes `den[-1]` fail although no delay is needed |
| Delays.TieCaseUndercounts | FilterVisualizer.py:151-158 | one non-zero zero, a pole at 0 and a non-zero gain: the plot is sized for 0 delays while the section draws 1, and 1 is needed |
| Delays.TieCounts | FilterVisualizer.py:26-71 | for `den = [0]` and a numerator of two entries ending non-zero, the counts are 0, 1 and 1 |
| Delays.DirectFormDelaysCorrected | FilterVisualizer.py:151-155 | the corrected sizing is total and lies within one below the larger of the pole and zero counts |
| Delays.CorrectedSizingMatchesDrawing | FilterVisualizer.py:151-158 | the corrected sizing equals the drawing's count whenever the drawing succeeds |
| Delays.CalculateDelayInfo | filter_visualizer.py:21-30 | `den_dominant` iff `len(den) >= len(num) - 1`; `trimmed` iff the dominant list ends in zero; `n` is the dominant length minus `trimmed` |
| Delays.InfoCountIsCalculateDelays | filter_visualizer.py:21-30 | the newer count is the older `_calculate_delays` on every input, failure included |
| Delays.DrawSectionDelays | filter_visualizer.py:48-66 | the `n_delays` choice of `_draw_direct_form_2_section` fails on the same inputs as `_calculate_delays` |
| Delays.DrawSectionMatchesInfo | filter_visualizer.py:51-66 | the `n_delays` choice of the section drawing is the first component of `_calculate_delays` on every input |
| Delays.DrawSection | filter_visualizer.py:48-128 | the section drawing fails iff the denominator is empty (`denominator_coeffs[-1]` at the last feedback junction) or the numerator is empty (`numerator_coeffs[0]`); otherwise it draws its `n_delays` choice |
| Delays.SectionFailsBeyondSizing | filter_visualizer.py:138-147 | `create_direct_form_2` fails wherever the sizing does, and beyond it exactly for an empty denominator with two or more numerator entries, or an empty numerator |
| Delays.FirSectionFails | filter_visualizer.py:138-147 | `create_direct_form_2([], [1.0, 0.3])` is sized for one delay and then fails in the drawing |
| Delays.TrimOnce | FilterVisualizer.py:173-174 | one guarded trim drops one trailing zero; `IndexError` on an empty part |
| Delays.From | FilterVisualizer.py:172 | Python's `s[lo:]` length |
| Delays.UpTo | FilterVisualizer.py:171 | Python's `s[:hi]` is a prefix of length `min(hi, len(s))` |
| Delays.TrailingZeros | FilterVisualizer.py:173-180 | the number of trailing zeros, with a non-zero entry before them |
| Delays.SplitSectionSpec | FilterVisualizer.py:170-181 | a section splits iff it is long enough to have a denominator left to test; each part is a prefix of what was cut, with `min(2, trailing zeros)` entries removed |
| Delays.TrimTwice | FilterVisualizer.py:173-180 | two guarded trims drop `min(2, trailing zeros)` entries, failing only on a single zero |
| Delays.CascadeSectionBounds | FilterVisualizer.py:168-190 | a six-entry section fails in `_draw_elements` iff it reduces to a pure gain; otherwise at most 2 delays, within the plot's `max_delays` |
| Delays.CascadeSectionNeeded | FilterVisualizer.py:170-185 | every six-entry section splits, and the corrected count is at most 2 |
| PiTicks.Gcd | PlotsWidget.py:85 | `gcd(a, b)` is positive when `b` is |
| PiTicks.GcdWithFour | PlotsWidget.py:85 | for `k` not a multiple of 4, `gcd(abs(k), 4)` is 2 for even `k` and 1 for odd `k` |
| PiTicks.ReducedFraction | PlotsWidget.py:83-90 | the reduced denominator is 2 or 4, so the `denominator == 1` branch is unreachable |
| PiTicks.QuarterParts | PlotsWidget.py:83-87 | the reduced coefficient and denominator still denote `m` quarters |
| PiTicks.PiLabel | PlotsWidget.py:73-96 | every label is non-empty |
| PiTicks.LabelShape | PlotsWidget.py:73-96 | every label but "0" is an optional minus, the coefficient unless it is 1, `π`, and `/d` unless `d` is 1 |
| PiTicks.WholeLabelShape | PlotsWidget.py:79-80 | multiples of 4 are labelled `<k/4>π`, with 1 and -1 written as `π` and `-π` |
| PiTicks.FractionLabelShape | PlotsWidget.py:83-96 | other `k` are labelled `π/d`, `-π/d` or `nπ/d` |
| PiTicks.FractionPositive | PlotsWidget.py:91-96 | a positive reduced fraction drops a coefficient of 1 |
| PiTicks.FractionNegative | PlotsWidget.py:91-96 | a negative reduced fraction is a minus and the positive label |
| PiTicks.PiLabelOdd | PlotsWidget.py:73-96 | the label of `-k` is the label of `k` with a leading `-` |
| PiTicks.MagnitudeReads | PlotsWidget.py:90-96 | the unsigned label text splits at `π` into a coefficient and a denominator that read back |
| PiTicks.ParsePiLabelRoundTrip | PlotsWidget.py:73-96 | every label reads back as the quarter count it was made from, so distinct ticks never share a label |
| PiTicks.QuarterValue | PlotsWidget.py:86-87 | the reduced parts still denote `m` quarters |
| PiTicks.SpecialLabels | PlotsWidget.py:73-96 | 0 gives "0", 4 gives "π", -4 gives "-π", 8 gives "2π", 2 gives "π/2", -1 gives "-π/4", 3 gives "3π/4" |
| AllPass.MissingSeparator | AllPassFilter.py:101-109 | a text without `,` or without `:` yields no pair, never a partial result |
| AllPass.FieldSplits | AllPassFilter.py:105 | a field splits at its `:` into the name and the spaced value |
| AllPass.StripSpaced | AllPassFilter.py:105 | `strip` takes off the space after the `:` |
| AllPass.FieldReads | AllPassFilter.py:105-106 | the text after `:` in a field reads back as its value |
| AllPass.EntrySplits | AllPassFilter.py:104 | an entry splits at its comma into its two fields |
| AllPass.ReadsFromParts | AllPassFilter.py:103-107 | two readable comma parts give the pair |
| AllPass.EntryReads | AllPassFilter.py:101-107 | `parse_apf("a: X, θ: Y")` returns `(X, Y)` |
| AllPass.Fixed3Readable | AllPassFilter.py:55 | a `.3f` value text fits the entry format and reads back as its value |
| AllPass.Collect | AllPassFilter.py:57-65 | at most one section per entry; a readable first entry gives the first section |
| AllPass.CollectAllRead | AllPassFilter.py:59-64 | when every entry reads, there is one section per entry, each the reading of the entry at the same position |
| AllPass.CollectSound | AllPassFilter.py:59-64 | every section built comes from an entry that reads as it |
| AllPass.CollectNone | AllPassFilter.py:59-64 | entries none of which reads build the empty list |
| AllPass.CollectAppend | AllPassFilter.py:59-64 | entries are read in display order, each on its own |
| AllPass.Shown | AllPassFilter.py:53-55 | one entry text per section, in order |
| AllPass.Readings | AllPassFilter.py:105-106 | the values `float` reads from the shown texts |
| AllPass.ShowCollectRoundTrip | AllPassFilter.py:51-64 | showing a list and reading the entries back gives the list, nothing skipped or reordered |
| AllPass.Without | AllPassFilter.py:90-93 | no survivor equals the target, and every survivor was stored |
| AllPass.DeleteStored | AllPassFilter.py:85-93 | an unreadable entry leaves the list alone; otherwise the pair it reads as is gone and nothing is added |
| AllPass.WithoutCounts | AllPassFilter.py:90-93 | exactly the sections different from the target survive, each as often as stored |
| AllPass.WithoutAppend | AllPassFilter.py:90-93 | removal works piece by piece, so survivors keep their relative order |
| AllPass.WithoutAbsent | AllPassFilter.py:90-93 | a list without the target is unchanged |
| AllPass.WithoutIdempotent | AllPassFilter.py:90-93 | deleting twice is deleting once |
| AllPass.TakeRow | AllPassFilter.py:97-98 | `takeItem(row)` removes that row and keeps the others in order |
| AllPass.CollectAround | AllPassFilter.py:59-64 | reading the entries around one entry is reading each part |
| AllPass.DeleteRebuilds | AllPassFilter.py:96-99 | after removing a row, the rebuilt list is what the rows before and after it read as |
| AllPass.CollectSplitsAt | AllPassFilter.py:59-64 | the full list is the rows before, the row, and the rows after |
| AllPass.PreviewRoots | AllPassFilter.py:244-253 | nothing is drawn iff `a == 0`; otherwise the pole is `a·u` and `a` times the zero is `u` |
| AllPass.PreviewMirror | AllPassFilter.py:244-253 | for a unit direction the zero is the pole mirrored in the unit circle: `zero · conj(pole) == 1`, radius product 1 |

## Left out

- User interface: Qt widgets, painting, tooltips, dialogs, check boxes and hit-testing are not modelled. The held item and its index are parameters.
- matplotlib drawing: arrows, boxes and plot limits are not modelled. Only the delay counts that size the diagrams are.
- scipy/numpy numerics: `freqz`, `lfilter`, `zpk2tf`, `unwrap`, `log10` and `angle` are library floating point.
- Floating point everywhere: exact reals replace Python floats and C `float`. Rounding and overflow are not modelled.
- `snap_to_guidelines`: it needs trigonometry and rounding. The snapped point is a parameter of the drag and release steps.
- The rounding step of `format_pi_ticks` (`round(x / π * 4)`) is left out. The labels are modelled from the integer quarter count `k` on.
- `np.exp(1j * angle)` in `update_plot` is a parameter `u`. PreviewMirror assumes it lies on the unit circle.
- The slider and spin-box conversions of the all-pass dialog and `_normalize_gain` are float-only. `_normalize_gain` is never called.
- File and directory I/O, JSON, `open`, `mkdir`, `_write_files` and the file dialogs are not modelled. Only the saved data mapping and the path strings are.
- The generation timestamp and the literal template text around the generated fields are not modelled. `str(float)` of coefficients and the `f` suffix on each C literal are not modelled either, so coefficients are kept as values.
- The `name` parameter of the generators only prefixes C identifiers, so it is not modelled.
- `get_cascade_form`, `update_all_pass_filters`, `all_pass_filters` and the two-argument `subscribe`/`notify_subscribers` are called but not defined in `Filter.py`. They are not part of this model. The stored all-pass list is a plain parameter.
- ElementsListWidget.py is not part of this model.
- Delays.DirectFormDelays: FilterVisualizer.py:151 passes `self` to `get_transfer_function`, which takes no argument (Filter.py:50), so `draw_direct_form_2` raises `TypeError` on every call. The model sizes the diagram as if line 151 passed no argument.
- The editor members ZPlaneHistory.DragStep, ReleaseNew and ToggleConjugate are modelled as written. The release is modelled twice: ZPlaneHistory.ReleaseItemAsWritten as written, and ZPlaneHistory.ReleaseItemCorrected, on which the layout-keeping lemma ReleaseItemCorrectedGood is proved.
- Text.ParseDecimal models `float` only for plain decimal literals with optional sign and fraction. Exponents, `inf`, `nan`, underscores and surrounding whitespace are read as `None`.
- DirectForm.GenerateCodeParts: the application builds the generator as `FilterCodeGenerator(self.filter)` (MainWindow.py:31), passing the `Filter` object where a transfer function is expected. `Filter` defines no indexing (Filter.py:7-94), so `self.tf[1]` at FilterCodeGenerator.py:49 raises `TypeError` on every export from the window, and MainWindow.py:263-269 reports "Failed to generate code". The model takes the `(b, a)` pair that the parameter name promises, as a caller passing `get_transfer_function()` would.
- FilterModel.EditorFilterIsReal: real coefficients are proved only for editor lists in the paired layout. The release as written (ZPlaneWidget.py:356-362) can leave that layout, and then the numerator need not be real; AsWrittenReleaseFeedsComplexFilter and StaleProduct give such a case.
- Text.Upper models `str.upper` on ASCII letters only.
- AllPass.ShowCollectRoundTrip is stated over value texts that `float` reads back. Fixed3Readable connects it to the `.3f` rendering. No single lemma composes the two for thousandths.
- The C exporters' syntax errors before Python 3.12 (the `'\n'` inside an f-string expression in export.py) are not modelled. Only the computed values are.
- The concurrency of Qt signals is not modelled. Every gesture is one atomic function.

## Findings

| source | as written | input that shows it | evidently intended | confidence | as-written member | corrected member |
|---|---|---|---|---|---|---|
| FilterCodeGenerator.py:84-92 | the feedback loop reads `_den[i]` and the output loop reads `_num[i + 1]` for every `i < order`, although one array is shorter when `len(b) != len(a)` | when the generator is given a `(b, a)` pair (MainWindow.py:31 passes the `Filter`), `b = [g]`, `a = [1, -p]` (one pole, no zeros): `_num[1]` is read past a one-element array | missing coefficients are zero | high (not executed) | DirectForm.MismatchedLengthsReadPastEnd | DirectForm.AsWrittenAgreesWithCorrected |
| FilterCodeGenerator.py:95-98 | `state[0]` is written unconditionally | when the generator is given a `(b, a)` pair (MainWindow.py:31 passes the `Filter`), a pure gain `b = [g]`, `a = [1]`: order 0 declares `float state[0]` and writes `state[0]` | an order-0 filter keeps no state | high (not executed) | DirectForm.OrderZeroWritesPastEnd | DirectForm.ProcessCorrected |
| FilterVisualizer.py:26-27 | `den[-1]` is read whenever `len(den) >= len(num) - 1`, even when `den` is empty | once line 151 passes no argument, a filter with no zeros and no poles: after `a0` is removed, `den == []` and the `IndexError` escapes | a pure gain needs 0 delays | high (not executed) | Delays.PureGainHasNoDiagram | Delays.DirectFormDelaysCorrected |
| FilterVisualizer.py:26-28 | in the tie `len(den) == len(num) - 1` with `den[-1] == 0` and `num[-1] != 0`, `_calculate_delays` gives `len(den) - 1` | once line 151 passes no argument, one zero at 1, one pole at 0, gain 1: the plot is sized for 0 delays while `_draw_elements` draws 1; the delay box drawn from y = -2.3 to -1.7 still lies above the lower y-limit of -3 (FilterVisualizer.py:39), so only margin is lost | the count `_draw_elements` uses | low (not executed) | Delays.TieCaseUndercounts | Delays.CorrectedSizingMatchesDrawing |
| ZPlaneWidget.py:356-362 | releasing an ordinary element moves only that element | a zero placed at `i`, dragged and released at `1 + i` without a final move event: its phantom stays at `-i` | release re-synchronises the phantom as the drag step does | medium (not executed) | ZPlane.ReleaseLeavesPhantomBehind, ZPlaneHistory.ReleaseItemAsWrittenBreaksPairing, FilterModel.AsWrittenReleaseFeedsComplexFilter | ZPlane.Release, ZPlaneHistory.ReleaseItemCorrectedGood |

=== FILE: all_pass.dfy ===
/** The all-pass descriptor list: each entry is shown as the text
    `a: <a>, θ: <θ>` with three decimals, read back from that text, and
    removed by value. The dialog's pole and zero placement is modelled with
    the unit vector `e^{iθ}` as a parameter. */
module AllPass {
  import opened Wrappers
  import opened Text
  import opened ComplexArith

  /** One stored all-pass section: coefficient `a` and angle `theta`. */
  datatype Apf = Apf(a: real, theta: real)

  /** `float(part.split(':')[1].strip())`: `None` for the `IndexError` of a
      part without `:` and for the `ValueError` of a text that is no number. */
  function FieldValue(part: string): Option<real> {
    var halves := Split(part, ':');
    if |halves| < 2 then None else ParseDecimal(Strip(halves[1]))
  }

  /** `parse_apf`: split on `,`, read the value after `:` in each of the first
      two parts. Every failure gives `None` for both values. */
  function ParseApf(text: string): (r: Option<Apf>)
  {
    var parts := Split(text, ',');
    if |parts| < 2 then None
    else
      match (FieldValue(parts[0]), FieldValue(parts[1]))
      case (Some(a), Some(theta)) => Some(Apf(a, theta))
      case _ => None
  }

  /** One `name: value` half of an entry. */
  function Field(name: string, x: string): string {
    name + ": " + x
  }

  /** The text of one entry, `a: x, θ: y`, from the texts of its two values. */
  function EntryText(x: string, y: string): string {
    Field("a", x) + "," + Field(" θ", y)
  }

  // ---------------------------------------------------------------------------
  // Reading a shown entry back

  /** Whatever the first part of a split holds, the text holds. */
  lemma FirstPartIsPrefix(text: string, sep: char, c: char)
    requires c in Split(text, sep)[0]
    ensures c in text
  {
    var parts := Split(text, sep);
    if |parts| >= 2 {
      assert text == parts[0] + [sep] + Join(parts[1..], sep);
    } else {
      assert text == parts[0];
    }
    var j :| 0 <= j < |parts[0]| && parts[0][j] == c;
    assert text[j] == c;
  }

  /** A text without `,`, or without `:`, is never read as a section. */
  lemma MissingSeparator(text: string)
    requires ',' !in text || ':' !in text
    ensures ParseApf(text) == None
  {
    var parts := Split(text, ',');
    if |parts| >= 2 && ':' !in text {
      if ':' in parts[0] {
        FirstPartIsPrefix(text, ',', ':');
      }
    }
  }

  /** A value text fit to stand between separators: no `,` or `:` in it,
      no whitespace at either end. */
  predicate Unpadded(x: string) {
    ',' !in x && ':' !in x && |x| > 0 && !IsSpace(x[0]) && !IsSpace(x[|x| - 1])
  }

  /** A field splits at its `:` into the name and the spaced value. */
  lemma FieldSplits(name: string, x: string)
    requires ':' !in name && Unpadded(x)
    ensures Split(Field(name, x), ':') == [name, " " + x]
  {
    assert [name, " " + x][1..] == [" " + x];
    assert Join([name, " " + x], ':') == Field(name, x);
    assert ':' !in " " + x;
    SplitJoin([name, " " + x], ':');
  }

  /** `strip` takes off the space after the `:`. */
  lemma StripSpaced(x: string)
    requires Unpadded(x)
    ensures Strip(" " + x) == x
  {
    assert (" " + x)[1..] == x;
    StripUnpadded(x);
  }

  /** A value text behind `: ` reads back as the value. */
  lemma FieldReads(name: string, x: string, v: real)
    requires ':' !in name && Unpadded(x) && ParseDecimal(x) == Some(v)
    ensures FieldValue(Field(name, x)) == Some(v)
  {
    FieldSplits(name, x);
    StripSpaced(x);
  }

  /** An entry splits at its comma into its two fields. */
  lemma EntrySplits(x: string, y: string)
    requires Unpadded(x) && Unpadded(y)
    ensures Split(EntryText(x, y), ',') == [Field("a", x), Field(" θ", y)]
  {
    var p0, p1 := Field("a", x), Field(" θ", y);
    assert ',' !in p0 && ',' !in p1;
    assert [p0, p1][1..] == [p1];
    assert Join([p0, p1], ',') == EntryText(x, y);
    SplitJoin([p0, p1], ',');
  }

  /** A text whose two comma parts read as values reads as the pair. */
  lemma ReadsFromParts(text: string, p0: string, p1: string, va: real, vt: real)
    requires Split(text, ',') == [p0, p1]
    requires FieldValue(p0) == Some(va) && FieldValue(p1) == Some(vt)
    ensures ParseApf(text) == Some(Apf(va, vt))
  {
  }

  /** An entry whose value texts read reads as the pair of values. */
  lemma EntryReads(x: string, y: string, va: real, vt: real)
    requires Unpadded(x) && Unpadded(y)
    requires ParseDecimal(x) == Some(va) && ParseDecimal(y) == Some(vt)
    ensures ParseApf(EntryText(x, y)) == Some(Apf(va, vt))
  {
    EntrySplits(x, y);
    FieldReads("a", x, va);
    FieldReads(" θ", y, vt);
    ReadsFromParts(EntryText(x, y), Field("a", x), Field(" θ", y), va, vt);
  }

  /** A value text the entry format can carry and `float` reads. */
  predicate Readable(x: string) {
    Unpadded(x) && ParseDecimal(x).Some?
  }

  /** What `update_from_filter` and the add dialog write for a value,
      `f"{v:.3f}"`, is readable and reads back as the value when the value is
      a whole number of thousandths. */
  lemma Fixed3Readable(k: int)
    ensures Readable(Fixed3(k)) && ParseDecimal(Fixed3(k)) == Some(k as real / 1000.0)
  {
    Fixed3Shape(k);
    ParseFixed3(k);
  }

  // ---------------------------------------------------------------------------
  // Rebuilding the list from the shown entries

  /** `notify_filter_change`: the sections read from the shown entries, in
      display order, leaving out entries that do not read. */
  function Collect(texts: seq<string>): (r: seq<Apf>)
    ensures |r| <= |texts|
    ensures |texts| > 0 && ParseApf(texts[0]).Some? ==> |r| > 0 && Some(r[0]) == ParseApf(texts[0])
  {
    if |texts| == 0 then []
    else
      var rest := Collect(texts[1..]);
      match ParseApf(texts[0])
      case Some(x) => [x] + rest
      case None => rest
  }

  /** Every section built comes from an entry that reads as it. */
  lemma {:induction false} CollectSound(texts: seq<string>)
    ensures forall x :: x in Collect(texts) ==> exists t :: t in texts && ParseApf(t) == Some(x)
    decreases |texts|
  {
    if |texts| > 0 {
      CollectSound(texts[1..]);
      forall x | x in Collect(texts)
        ensures exists t :: t in texts && ParseApf(t) == Some(x)
      {
        if ParseApf(texts[0]) == Some(x) {
          assert texts[0] in texts;
        } else {
          assert x in Collect(texts[1..]);
          var t :| t in texts[1..] && ParseApf(t) == Some(x);
          assert t in texts;
        }
      }
    }
  }

  /** Entries that all read build one section per entry, each the reading of
      the entry at the same position. */
  lemma {:induction false} CollectAllRead(texts: seq<string>)
    requires forall j :: 0 <= j < |texts| ==> ParseApf(texts[j]).Some?
    ensures |Collect(texts)| == |texts|
    ensures forall i :: 0 <= i < |texts| ==> Some(Collect(texts)[i]) == ParseApf(texts[i])
    decreases |texts|
  {
    if |texts| > 0 {
      var rest := texts[1..];
      forall j | 0 <= j < |rest|
        ensures ParseApf(rest[j]).Some?
      {
        assert rest[j] == texts[j + 1];
      }
      CollectAllRead(rest);
      CollectConsRead(texts, ParseApf(texts[0]).value);
    }
  }

  /** A readable first entry in front of entries read position by position
      keeps the reading position by position. */
  lemma CollectConsRead(texts: seq<string>, x: Apf)
    requires |texts| > 0 && ParseApf(texts[0]) == Some(x)
    requires |Collect(texts[1..])| == |texts| - 1
    requires forall j :: 0 <= j < |texts| - 1 ==> Some(Collect(texts[1..])[j]) == ParseApf(texts[1..][j])
    ensures |Collect(texts)| == |texts|
    ensures forall i :: 0 <= i < |texts| ==> Some(Collect(texts)[i]) == ParseApf(texts[i])
  {
    var rest := texts[1..];
    CollectHead(texts, x);
    forall i | 1 <= i < |texts|
      ensures Some(Collect(texts)[i]) == ParseApf(texts[i])
    {
      ConsAt(x, Collect(rest), i);
      assert rest[i - 1] == texts[i];
    }
  }

  lemma ConsAt<T>(x: T, s: seq<T>, i: int)
    requires 1 <= i <= |s|
    ensures ([x] + s)[i] == s[i - 1]
  {
  }

  lemma CollectHead(texts: seq<string>, x: Apf)
    requires |texts| > 0 && ParseApf(texts[0]) == Some(x)
    ensures Collect(texts) == [x] + Collect(texts[1..])
  {
  }

  /** Entries none of which reads build the empty list. */
  lemma {:induction false} CollectNone(texts: seq<string>)
    requires forall j :: 0 <= j < |texts| ==> ParseApf(texts[j]) == None
    ensures Collect(texts) == []
    decreases |texts|
  {
    if |texts| > 0 {
      assert ParseApf(texts[0]) == None;
      CollectNone(texts[1..]);
    }
  }

  /** Reading the entries of two lists is reading each and concatenating. */
  lemma {:induction false} CollectAppend(u: seq<string>, v: seq<string>)
    ensures Collect(u + v) == Collect(u) + Collect(v)
    decreases |u|
  {
    if |u| == 0 {
      assert u + v == v;
    } else {
      assert (u + v)[0] == u[0];
      assert (u + v)[1..] == u[1..] + v;
      CollectAppend(u[1..], v);
    }
  }

  /** The entries shown for a list of sections, from the texts of their
      values. */
  function Shown(vs: seq<(string, string)>): (r: seq<string>)
    ensures |r| == |vs|
    ensures forall i :: 0 <= i < |vs| ==> r[i] == EntryText(vs[i].0, vs[i].1)
  {
    if |vs| == 0 then [] else [EntryText(vs[0].0, vs[0].1)] + Shown(vs[1..])
  }

  /** The sections the value texts stand for. */
  function Readings(vs: seq<(string, string)>): (r: seq<Apf>)
    requires forall i :: 0 <= i < |vs| ==> Readable(vs[i].0) && Readable(vs[i].1)
    ensures |r| == |vs|
    ensures forall i :: 0 <= i < |vs| ==> Some(r[i].a) == ParseDecimal(vs[i].0) && Some(r[i].theta) == ParseDecimal(vs[i].1)
  {
    if |vs| == 0 then []
    else
      var h := vs[0];
      assert Readable(h.0) && Readable(h.1);
      [Apf(ParseDecimal(h.0).value, ParseDecimal(h.1).value)] + Readings(vs[1..])
  }

  /** Showing a list and reading the shown entries back gives the list: no
      entry is lost, added or reordered. */
  lemma {:induction false} ShowCollectRoundTrip(vs: seq<(string, string)>)
    requires forall i :: 0 <= i < |vs| ==> Readable(vs[i].0) && Readable(vs[i].1)
    ensures Collect(Shown(vs)) == Readings(vs)
    decreases |vs|
  {
    if |vs| > 0 {
      var s := Shown(vs);
      assert s[1..] == Shown(vs[1..]);
      EntryReads(vs[0].0, vs[0].1, ParseDecimal(vs[0].0).value, ParseDecimal(vs[0].1).value);
      ShowCollectRoundTrip(vs[1..]);
    }
  }

  // ---------------------------------------------------------------------------
  // Deleting a section

  /** The list comprehension of `delete_apf`: every stored section equal to
      `target` in both values goes, the rest stay in order. */
  function Without(stored: seq<Apf>, target: Apf): (r: seq<Apf>)
    ensures |r| <= |stored|
    ensures forall i :: 0 <= i < |r| ==> r[i] != target && r[i] in stored
  {
    if |stored| == 0 then []
    else
      var rest := Without(stored[1..], target);
      assert forall x :: x in rest ==> x in stored;
      (if stored[0] == target then [] else [stored[0]]) + rest
  }

  /** `delete_apf` on the stored list: the sections the entry reads as are
      removed; an entry that does not read leaves the list as it is. */
  function DeleteStored(stored: seq<Apf>, entry: string): (r: seq<Apf>)
    ensures ParseApf(entry) == None ==> r == stored
    ensures ParseApf(entry).Some? ==> ParseApf(entry).value !in r
    ensures forall x :: x in r ==> x in stored
  {
    match ParseApf(entry)
    case Some(t) => Without(stored, t)
    case None => stored
  }

  /** Exactly the sections different from `target` survive, each as often as
      it was stored. */
  lemma {:induction false} WithoutCounts(stored: seq<Apf>, target: Apf)
    ensures multiset(Without(stored, target)) == multiset(stored)[target := 0]
    decreases |stored|
  {
    if |stored| > 0 {
      WithoutCounts(stored[1..], target);
      assert stored == [stored[0]] + stored[1..];
    }
  }

  /** Removal works piece by piece, so the survivors keep their relative
      order. */
  lemma {:induction false} WithoutAppend(u: seq<Apf>, v: seq<Apf>, target: Apf)
    ensures Without(u + v, target) == Without(u, target) + Without(v, target)
    decreases |u|
  {
    if |u| == 0 {
      assert u + v == v;
    } else {
      var h := if u[0] == target then [] else [u[0]];
      assert (u + v)[0] == u[0];
      assert (u + v)[1..] == u[1..] + v;
      WithoutCons(u + v, target);
      WithoutCons(u, target);
      WithoutAppend(u[1..], v, target);
      AppendAssoc(h, Without(u[1..], target), Without(v, target));
    }
  }

  lemma WithoutCons(s: seq<Apf>, target: Apf)
    requires |s| > 0
    ensures Without(s, target) == (if s[0] == target then [] else [s[0]]) + Without(s[1..], target)
  {
  }

  lemma AppendAssoc(a: seq<Apf>, b: seq<Apf>, c: seq<Apf>)
    ensures a + (b + c) == (a + b) + c
  {
  }

  /** A list without the target is untouched, so deleting twice is deleting
      once. */
  lemma {:induction false} WithoutAbsent(stored: seq<Apf>, target: Apf)
    requires target !in stored
    ensures Without(stored, target) == stored
    decreases |stored|
  {
    if |stored| > 0 {
      assert target !in stored[1..] by {
        forall x | x in stored[1..] ensures x != target { assert x in stored; }
      }
      WithoutAbsent(stored[1..], target);
    }
  }

  lemma WithoutIdempotent(stored: seq<Apf>, target: Apf)
    ensures Without(Without(stored, target), target) == Without(stored, target)
  {
    WithoutAbsent(Without(stored, target), target);
  }

  /** The entry list after the double-clicked row is taken out. */
  function TakeRow(items: seq<string>, row: nat): (r: seq<string>)
    requires row < |items|
    ensures |r| == |items| - 1
    ensures forall i :: 0 <= i < |r| ==> r[i] == (if i < row then items[i] else items[i + 1])
  {
    items[..row] + items[row + 1..]
  }

  lemma AroundIndex<T>(s: seq<T>, i: nat)
    requires i < |s|
    ensures s == s[..i] + [s[i]] + s[i + 1..]
  {
  }

  /** Reading the entries around one entry. */
  lemma CollectAround(u: seq<string>, x: string, v: seq<string>)
    ensures Collect(u + [x] + v) == Collect(u) + Collect([x]) + Collect(v)
  {
    CollectAppend(u + [x], v);
    CollectAppend(u, [x]);
  }

  /** What `delete_apf` leaves behind: `notify_filter_change` reads the
      remaining entries, and the list it builds, which replaces the stored
      one, is the old reading without the taken entry's contribution. */
  lemma DeleteRebuilds(items: seq<string>, row: nat)
    requires row < |items|
    ensures Collect(TakeRow(items, row)) == Collect(items[..row]) + Collect(items[row + 1..])
    ensures Collect(items) == Collect(items[..row]) + Collect([items[row]]) + Collect(items[row + 1..])
  {
    CollectAppend(items[..row], items[row + 1..]);
    CollectSplitsAt(items, row);
  }

  lemma CollectSplitsAt(items: seq<string>, row: nat)
    requires row < |items|
    ensures Collect(items) == Collect(items[..row]) + Collect([items[row]]) + Collect(items[row + 1..])
  {
    AroundIndex(items, row);
    CollectAround(items[..row], items[row], items[row + 1..]);
  }

  // ---------------------------------------------------------------------------
  // The zero and pole of the preview

  /** The zero and pole `update_plot` places for coefficient `a`, with `u`
      standing for `e^{iθ}`; `None` is the early return for `a == 0`. */
  function PreviewRoots(a: real, u: Complex): (r: Option<(Complex, Complex)>)
    ensures r.None? <==> a == 0.0
    ensures r.Some? ==> r.value.1 == Scale(a, u) && Scale(a, r.value.0) == u
  {
    if a == 0.0 then None
    else
      assert a * (1.0 / a) == 1.0;
      Some((Scale(1.0 / a, u), Scale(a, u)))
  }

  function NormSq(z: Complex): real {
    z.re * z.re + z.im * z.im
  }

  /** On the unit circle of directions the zero is the pole mirrored in the
      unit circle: `zero · conj(pole) == 1`, so the squared radii multiply to
      1 and the two lie on one ray from the origin. */
  lemma PreviewMirror(a: real, u: Complex)
    requires a != 0.0 && NormSq(u) == 1.0
    ensures var r := PreviewRoots(a, u).value;
            Mul(r.0, Conj(r.1)) == One
            && NormSq(r.0) * NormSq(r.1) == 1.0
            && r.1 == Scale(a * a, r.0)
  {
    var z, p := Scale(1.0 / a, u), Scale(a, u);
    assert PreviewRoots(a, u).value == (z, p);
    MirrorProduct(a, u);
    MirrorRadii(a, u);
    MirrorRay(a, u);
  }

  lemma MirrorProduct(a: real, u: Complex)
    requires a != 0.0 && NormSq(u) == 1.0
    ensures Mul(Scale(1.0 / a, u), Conj(Scale(a, u))) == One
  {
    var z, p := Scale(1.0 / a, u), Scale(a, u);
    assert (1.0 / a) * a == 1.0;
    assert Mul(z, Conj(p)).re == (1.0 / a) * a * NormSq(u);
    assert Mul(z, Conj(p)).im == (1.0 / a) * a * (u.im * u.re - u.re * u.im);
  }

  lemma MirrorRadii(a: real, u: Complex)
    requires a != 0.0 && NormSq(u) == 1.0
    ensures NormSq(Scale(1.0 / a, u)) * NormSq(Scale(a, u)) == 1.0
  {
    var z, p := Scale(1.0 / a, u), Scale(a, u);
    assert (1.0 / a) * a == 1.0;
    assert NormSq(z) == (1.0 / a) * (1.0 / a) * NormSq(u);
    assert NormSq(p) == a * a * NormSq(u);
    assert NormSq(z) * NormSq(p) == ((1.0 / a) * a) * ((1.0 / a) * a);
  }

  lemma MirrorRay(a: real, u: Complex)
    requires a != 0.0
    ensures Scale(a, u) == Scale(a * a, Scale(1.0 / a, u))
  {
    assert a * a * (1.0 / a) == a;
  }
}

=== FILE: cascade_form.dfy ===
/** `generate_cascade_form`: one direct form II section per `(denominator,
    numerator)` pair, all sharing a `total_sections x max_order` state matrix,
    processed one after another so that each section's output is the next
    section's input. */
module CascadeForm {
  import opened Wrappers
  import opened DirectForm

  /** A section as the generator receives it: `(denominator, numerator)`. */
  datatype Section = Section(den: seq<real>, num: seq<real>)

  /** `max(len(d), len(n)) - 1` for one section. */
  function SectionOrder(s: Section): int {
    Max(|s.den|, |s.num|) - 1
  }

  /** The largest section order; `max` of an empty sequence is an error. */
  function MaxOrder(sections: seq<Section>): (m: Option<int>)
    ensures m.None? <==> |sections| == 0
    ensures m.Some? ==> forall i :: 0 <= i < |sections| ==> SectionOrder(sections[i]) <= m.value
    ensures m.Some? ==> exists i :: 0 <= i < |sections| && SectionOrder(sections[i]) == m.value
  {
    if |sections| == 0 then None
    else
      var last := SectionOrder(sections[|sections| - 1]);
      match MaxOrder(sections[..|sections| - 1])
      case None => Some(last)
      case Some(m) => Some(Max(m, last))
  }

  /** What the generator decides: `total_sections`, `max_order`, and per section
      its order, `num{i}` (all of the numerator) and `den{i}` (the denominator
      without a0). */
  datatype Layout = Layout(total: nat, maxOrder: int, sections: seq<Section>)

  function GenerateLayout(sections: seq<Section>): (r: Option<Layout>)
    ensures r.None? <==> |sections| == 0
    ensures r.Some? ==> r.value.total == |sections| && r.value.sections == sections
    ensures r.Some? ==> forall i :: 0 <= i < |sections| ==> SectionOrder(sections[i]) <= r.value.maxOrder
  {
    match MaxOrder(sections)
    case None => None
    case Some(m) => Some(Layout(|sections|, m, sections))
  }

  /** The state matrix has `total_sections` rows of `max_order` entries. */
  predicate Shaped(l: Layout, rows: seq<seq<real>>) {
    |rows| == l.total && forall i :: 0 <= i < |rows| ==> |rows[i]| == Size(l.maxOrder)
  }

  /** `init`: every entry of the state matrix is zero. */
  function InitRows(l: Layout): (rows: seq<seq<real>>)
    ensures Shaped(l, rows)
    ensures forall i, j :: 0 <= i < |rows| && 0 <= j < |rows[i]| ==> rows[i][j] == 0.0
  {
    seq(l.total, _ => seq(Size(l.maxOrder), _ => 0.0))
  }

  /** Row after a section of order `ord` runs: the first `ord` entries shift by
      one, `w` enters at index 0, and the rest of the row stays. */
  function ShiftIn(row: seq<real>, ord: int, w: real): (r: seq<real>)
    requires |row| >= 1
    ensures |r| == |row| && r[0] == w
    ensures forall j :: 1 <= j < |row| ==> r[j] == if j < ord then row[j - 1] else row[j]
  {
    seq(|row|, j requires 0 <= j < |row| => if j == 0 then w else if j < ord then row[j - 1] else row[j])
  }

  /** Loop index `j` of section `s` reads `den{i}[j]` and `num{i}[j + 1]`. */
  predicate SectionReadsInside(s: Section, j: int) {
    j < |Tail(s.den)| && j + 1 < |s.num|
  }

  /** Every access section `s` makes on a row of `width` entries is inside its
      arrays: both loops, `num{i}[0]` and the write of `state[i][0]`. */
  predicate SectionInside(s: Section, width: nat) {
    && (forall j :: 0 <= j < SectionOrder(s) ==> SectionReadsInside(s, j))
    && 0 < |s.num|
    && 0 < width
  }

  /** One section of the emitted `process` on its own row, `None` for an
      out-of-bounds access. */
  function SectionStep(s: Section, row: seq<real>, x: real): (r: Option<(real, seq<real>)>)
    requires SectionOrder(s) <= |row|
    ensures r.Some? <==> SectionInside(s, |row|)
    ensures r.Some? ==> |r.value.1| == |row|
  {
    if SectionInside(s, |row|) then
      var ord := SectionOrder(s);
      if ord <= 0 then
        var w := x;
        Some((s.num[0] * w, ShiftIn(row, ord, w)))
      else
        assert SectionReadsInside(s, ord - 1);
        var w := x - Dot(Tail(s.den), row, ord);
        Some((s.num[0] * w + Dot(s.num[1..], row, ord), ShiftIn(row, ord, w)))
    else None
  }

  /** A section stays inside its arrays exactly when it has a numerator, its
      denominator is as long as the numerator (or absent for a pure gain), and
      the state matrix has a column to write. */
  lemma SectionInsideIff(s: Section, width: nat)
    ensures SectionInside(s, width) <==>
      (|s.num| >= 1 && width >= 1 && (|s.den| == |s.num| || (|s.den| == 0 && |s.num| == 1)))
  {
    var ord := SectionOrder(s);
    if SectionInside(s, width) && ord >= 1 {
      assert SectionReadsInside(s, ord - 1);
    }
    if |s.num| >= 1 && width >= 1 && (|s.den| == |s.num| || (|s.den| == 0 && |s.num| == 1)) {
      forall j | 0 <= j < ord
        ensures SectionReadsInside(s, j)
      {
      }
    }
  }

  /** The first `k` sections of `process`: each section's output feeds the next. */
  function Chain(l: Layout, rows: seq<seq<real>>, x: real, k: nat): (r: Option<(real, seq<seq<real>>)>)
    requires Shaped(l, rows) && k <= l.total && |l.sections| == l.total
    requires forall i :: 0 <= i < l.total ==> SectionOrder(l.sections[i]) <= l.maxOrder
    ensures r.Some? ==> Shaped(l, r.value.1)
    ensures r.Some? ==> forall j :: k <= j < |rows| ==> r.value.1[j] == rows[j]
  {
    if k == 0 then Some((x, rows))
    else
      match Chain(l, rows, x, k - 1)
      case None => None
      case Some(prev) =>
        match SectionStep(l.sections[k - 1], prev.1[k - 1], prev.0)
        case None => None
        case Some(out) => Some((out.0, prev.1[k - 1 := out.1]))
  }

  /** Running one more section after `k - 1` of them. */
  lemma ChainSnoc(l: Layout, rows: seq<seq<real>>, x: real, k: nat)
    requires Shaped(l, rows) && 0 < k <= l.total && |l.sections| == l.total
    requires forall i :: 0 <= i < l.total ==> SectionOrder(l.sections[i]) <= l.maxOrder
    requires Chain(l, rows, x, k - 1).Some?
    ensures var prev := Chain(l, rows, x, k - 1).value;
            var out := SectionStep(l.sections[k - 1], prev.1[k - 1], prev.0);
            out.Some? ==> Chain(l, rows, x, k) == Some((out.value.0, prev.1[k - 1 := out.value.1]))
  {
  }

  /** The emitted `process`: all sections in order; the last output is stored in
      `f->output` and returned. */
  function ProcessCascade(l: Layout, s: FilterStateRows, x: real): (r: Option<(real, FilterStateRows)>)
    requires Shaped(l, s.rows) && |l.sections| == l.total
    requires forall i :: 0 <= i < l.total ==> SectionOrder(l.sections[i]) <= l.maxOrder
    ensures r.Some? ==> r.value.1.output == r.value.0 && Shaped(l, r.value.1.rows)
  {
    match Chain(l, s.rows, x, l.total)
    case None => None
    case Some(out) => Some((out.0, FilterStateRows(out.1, out.0)))
  }

  /** The cascade `_filter_t`: the state matrix and the latest output. */
  datatype FilterStateRows = FilterStateRows(rows: seq<seq<real>>, output: real)

  /** Section `k` reads and writes only row `k`: every other row is as before. */
  lemma SectionTouchesOwnRow(l: Layout, rows: seq<seq<real>>, x: real, k: nat)
    requires Shaped(l, rows) && k < l.total && |l.sections| == l.total
    requires forall i :: 0 <= i < l.total ==> SectionOrder(l.sections[i]) <= l.maxOrder
    requires Chain(l, rows, x, k + 1).Some?
    ensures Chain(l, rows, x, k).Some?
    ensures forall j :: 0 <= j < |rows| && j != k ==>
      Chain(l, rows, x, k + 1).value.1[j] == Chain(l, rows, x, k).value.1[j]
    ensures SectionStep(l.sections[k], Chain(l, rows, x, k).value.1[k], Chain(l, rows, x, k).value.0)
      == Some((Chain(l, rows, x, k + 1).value.0, Chain(l, rows, x, k + 1).value.1[k]))
  {
  }

  /** A cascade of one section computes what the direct form II code for that
      section computes, whenever the latter stays inside its arrays. */
  lemma SingleSectionIsDirectForm(d: seq<real>, n: seq<real>, state: seq<real>, x: real)
    requires |d| == |n| && |d| >= 2 && |state| == |d| - 1
    ensures var l := GenerateLayout([Section(d, n)]).value;
            var df := ProcessAsWritten(GenerateDirectForm2(d, n), FilterState(state, 0.0), x);
            var cf := ProcessCascade(l, FilterStateRows([state], 0.0), x);
            df.Some? && cf.Some? && cf.value.0 == df.value.0 && cf.value.1.rows == [df.value.1.state]
  {
    var s := Section(d, n);
    var l := Layout(1, |d| - 1, [s]);
    SingleLayout(s);
    var step := Step(n, Tail(d), |d| - 1, FilterState(state, 0.0), x);
    DirectFormStep(d, n, state, x);
    SectionStepIsStep(s, state, x);
    OneSectionChain(l, state, x, step.0, step.1.state);
  }

  /** A single section gives a one-row layout of its own order. */
  lemma SingleLayout(s: Section)
    ensures GenerateLayout([s]) == Some(Layout(1, SectionOrder(s), [s]))
  {
  }

  /** The direct form II code for a section of equal-length arrays is one `Step`. */
  lemma DirectFormStep(d: seq<real>, n: seq<real>, state: seq<real>, x: real)
    requires |d| == |n| && |d| >= 2 && |state| == |d| - 1
    ensures ProcessAsWritten(GenerateDirectForm2(d, n), FilterState(state, 0.0), x)
      == Some(Step(n, Tail(d), |d| - 1, FilterState(state, 0.0), x))
  {
    AsWrittenDefinedIff(n, d, FilterState(state, 0.0), x);
  }

  /** The cascade's section code on a full-width row is the same `Step`. */
  lemma SectionStepIsStep(s: Section, state: seq<real>, x: real)
    requires |s.den| == |s.num| && |s.den| >= 2 && |state| == |s.den| - 1
    ensures var step := Step(s.num, Tail(s.den), |s.den| - 1, FilterState(state, 0.0), x);
            SectionStep(s, state, x) == Some((step.0, step.1.state))
  {
    SectionInsideIff(s, |state|);
    var ord := |s.den| - 1;
    var step := Step(s.num, Tail(s.den), ord, FilterState(state, 0.0), x);
    var w := x - Dot(Tail(s.den), state, ord);
    assert SectionOrder(s) == ord && SectionInside(s, |state|);
    assert step.0 == s.num[0] * w + Dot(s.num[1..], state, ord);
    assert ShiftIn(state, ord, w) == step.1.state;
    assert SectionStep(s, state, x).Some?;
    assert SectionStep(s, state, x).value.1 == ShiftIn(state, ord, w);
    assert SectionStep(s, state, x).value.0 == s.num[0] * w + Dot(s.num[1..], state, ord);
  }

  /** A one-section chain returns its section's output and row. */
  lemma OneSectionChain(l: Layout, state: seq<real>, x: real, y: real, row: seq<real>)
    requires l.total == 1 && |l.sections| == 1 && l.maxOrder == SectionOrder(l.sections[0])
    requires |state| == Size(l.maxOrder)
    requires SectionStep(l.sections[0], state, x) == Some((y, row))
    ensures ProcessCascade(l, FilterStateRows([state], 0.0), x) == Some((y, FilterStateRows([row], y)))
  {
    assert Chain(l, [state], x, 0) == Some((x, [state]));
    assert [state][0 := row] == [row];
  }

  /** `num[0]` of a section, the weight of the undelayed path through it. */
  function Lead(s: Section): real {
    if |s.num| == 0 then 0.0 else s.num[0]
  }

  /** The product of the undelayed weights of the first `k` sections. */
  function LeadingProduct(sections: seq<Section>, k: nat): real
    requires k <= |sections|
  {
    if k == 0 then 1.0 else LeadingProduct(sections, k - 1) * Lead(sections[k - 1])
  }

  /** A section on an all-zero row outputs `num[0]` times its input. */
  lemma SectionOnZeroRow(s: Section, row: seq<real>, x: real)
    requires SectionOrder(s) <= |row| && SectionInside(s, |row|) && ZeroRow(row)
    ensures SectionStep(s, row, x).Some? && SectionStep(s, row, x).value.0 == x * Lead(s)
  {
    var ord := SectionOrder(s);
    if ord > 0 {
      assert SectionReadsInside(s, ord - 1);
      DotZero(Tail(s.den), row, ord);
      DotZero(s.num[1..], row, ord);
    }
  }

  predicate ZeroRow(row: seq<real>) {
    forall j :: 0 <= j < |row| ==> row[j] == 0.0
  }

  /** On a zeroed state matrix (as `init` leaves it) the first call's output is
      `x` times the product of every section's `num[0]`, because every delayed
      term is zero. */
  lemma FirstOutputFromZero(l: Layout, rows: seq<seq<real>>, x: real, k: nat)
    requires Shaped(l, rows) && k <= l.total && |l.sections| == l.total
    requires forall i :: 0 <= i < |rows| ==> ZeroRow(rows[i])
    requires forall i :: 0 <= i < l.total ==> SectionOrder(l.sections[i]) <= l.maxOrder
    requires forall i :: 0 <= i < l.total ==> SectionInside(l.sections[i], Size(l.maxOrder))
    ensures Chain(l, rows, x, k).Some?
    ensures Chain(l, rows, x, k).value.0 == x * LeadingProduct(l.sections, k)
  {
    assert ZeroStarted(l, rows);
    var y := Chain(l, rows, x, k);
    assert y.Some? && y.value.0 == Scaled(l.sections, x, k) by {
      ChainIsScaled(l, rows, x, k);
    }
    assert Scaled(l.sections, x, k) == x * LeadingProduct(l.sections, k) by {
      ScaledIsProduct(l.sections, x, k);
    }
  }

  /** A well-formed layout whose rows are all zero, as `init` leaves them. */
  predicate ZeroStarted(l: Layout, rows: seq<seq<real>>) {
    && Shaped(l, rows) && |l.sections| == l.total
    && (forall i :: 0 <= i < |rows| ==> ZeroRow(rows[i]))
    && (forall i :: 0 <= i < l.total ==> SectionOrder(l.sections[i]) <= l.maxOrder)
    && (forall i :: 0 <= i < l.total ==> SectionInside(l.sections[i], Size(l.maxOrder)))
  }

  /** The input scaled by the `num[0]` of the first `k` sections, one after
      the other. */
  function Scaled(sections: seq<Section>, x: real, k: nat): real
    requires k <= |sections|
  {
    if k == 0 then x else Scaled(sections, x, k - 1) * Lead(sections[k - 1])
  }

  /** On a zeroed state matrix every section only scales what reaches it. */
  lemma {:induction false} ChainIsScaled(l: Layout, rows: seq<seq<real>>, x: real, k: nat)
    requires ZeroStarted(l, rows) && k <= l.total
    ensures Chain(l, rows, x, k).Some?
    ensures Chain(l, rows, x, k).value.0 == Scaled(l.sections, x, k)
  {
    if k > 0 {
      ChainIsScaled(l, rows, x, k - 1);
      ZeroRowStep(l, rows, x, k);
    }
  }

  /** Section `k - 1` still sees its zeroed row, so it scales what reaches it
      by its `num[0]`. */
  lemma ZeroRowStep(l: Layout, rows: seq<seq<real>>, x: real, k: nat)
    requires ZeroStarted(l, rows) && 0 < k <= l.total
    requires Chain(l, rows, x, k - 1).Some?
    requires Chain(l, rows, x, k - 1).value.0 == Scaled(l.sections, x, k - 1)
    ensures Chain(l, rows, x, k).Some?
    ensures Chain(l, rows, x, k).value.0 == Scaled(l.sections, x, k)
  {
    var prev := Chain(l, rows, x, k - 1).value;
    assert prev.1[k - 1] == rows[k - 1];
    SectionOnZeroRow(l.sections[k - 1], rows[k - 1], Scaled(l.sections, x, k - 1));
    ChainSnoc(l, rows, x, k);
  }

  /** Scaling one section at a time is scaling by the product. */
  lemma {:induction false} ScaledIsProduct(sections: seq<Section>, x: real, k: nat)
    requires k <= |sections|
    ensures Scaled(sections, x, k) == x * LeadingProduct(sections, k)
  {
    if k > 0 {
      ScaledIsProduct(sections, x, k - 1);
      ProductStep(Scaled(sections, x, k), Scaled(sections, x, k - 1), x,
                  LeadingProduct(sections, k - 1), Lead(sections[k - 1]), LeadingProduct(sections, k));
    }
  }

  /** One more factor on both sides of `out == x * p`. */
  lemma ProductStep(out: real, prev: real, x: real, p: real, c: real, pc: real)
    requires prev == x * p && out == prev * c && pc == p * c
    ensures out == x * pc
  {
  }

  lemma InitRowsZero(l: Layout)
    ensures forall i :: 0 <= i < |InitRows(l)| ==> ZeroRow(InitRows(l)[i])
  {
  }

  lemma {:induction false} DotZero(c: seq<real>, s: seq<real>, n: nat)
    requires n <= |c| && n <= |s|
    requires forall j :: 0 <= j < |s| ==> s[j] == 0.0
    ensures Dot(c, s, n) == 0.0
  {
    if n > 0 {
      DotZero(c, s, n - 1);
    }
  }
}

=== FILE: code_files.dfy ===
/** The string decisions around the exported C files: which paths are
    written, the header guard, the `#include` line and the fixed fields of the
    header comment. The templates' remaining text and the timestamp are not
    modelled. */
module CodeFiles {
  import opened Wrappers
  import opened Text

  /** The names `export_c_code` derives from the chosen file path. */
  datatype ExportPaths = ExportPaths(baseName: string, baseFilename: string, headerPath: string, sourcePath: string)

  /** `base_name = file_path.rsplit('.', 1)[0]`, `base_filename =
      base_name.split('/')[-1]`, and the two output paths. */
  function PathsOf(filePath: string): (p: ExportPaths)
    ensures |p.baseName| <= |filePath| && filePath[..|p.baseName|] == p.baseName
    ensures '.' in filePath ==> |p.baseName| < |filePath| && filePath[|p.baseName|] == '.'
    ensures '.' !in filePath ==> p.baseName == filePath
    ensures '/' !in p.baseFilename && |p.baseFilename| <= |p.baseName|
    ensures p.baseName[|p.baseName| - |p.baseFilename|..] == p.baseFilename
    ensures |p.headerPath| == |p.sourcePath| == |p.baseName| + 2
    ensures p.headerPath[..|p.baseName|] == p.sourcePath[..|p.baseName|] == p.baseName
    ensures p.headerPath[|p.baseName|..] == ".h" && p.sourcePath[|p.baseName|..] == ".c"
  {
    var baseName := BeforeLast(filePath, '.');
    var baseFilename := LastSegment(baseName, '/');
    var h, c := baseName + ".h", baseName + ".c";
    assert h[..|baseName|] == baseName && c[..|baseName|] == baseName;
    ExportPaths(baseName, baseFilename, h, c)
  }

  /** The last `.` of the path is taken out with what follows it, wherever it
      is: in `dir/stem.ext` the stem is the file's own name. */
  lemma PathsOfNamedFile(dir: string, stem: string, ext: string)
    requires '/' !in stem && '.' !in stem && '.' !in ext
    ensures var p := PathsOf(dir + "/" + stem + "." + ext);
            p.baseName == dir + "/" + stem && p.baseFilename == stem
            && p.headerPath == dir + "/" + stem + ".h" && p.sourcePath == dir + "/" + stem + ".c"
  {
    var front := dir + "/" + stem;
    var s := front + "." + ext;
    assert s[|front|] == '.';
    var b := BeforeLast(s, '.');
    NotFromHere(s, '.', |b| + 1, |front|);
    assert s[|front| + 1..] == ext;
    NotFromHere(s, '.', |front| + 1, |b|);
    assert b == front;
    LastSegmentAfterSeparator(dir, stem, '/');
  }

  /** A path whose only `.` is in a directory name loses everything from that
      dot on: `out.d/filt` is written as `out.h` and `out.c`. */
  lemma DotInDirectoryOnly()
    ensures PathsOf("out.d/filt").headerPath == "out.h"
    ensures PathsOf("out.d/filt").baseFilename == "out"
  {
    ExampleStem();
    assert '/' !in "out";
    WholeLastSegment("out", '/');
  }

  /** Text without a separator is its own last segment. */
  lemma WholeLastSegment(s: string, sep: char)
    requires sep !in s
    ensures LastSegment(s, sep) == s
  {
  }

  /** The last `.` of `out.d/filt` is the one after `out`. */
  lemma ExampleStem()
    ensures BeforeLast("out.d/filt", '.') == "out"
  {
    var s := "out.d/filt";
    assert s[3] == '.';
    var b := BeforeLast(s, '.');
    NotFromHere(s, '.', |b| + 1, 3);
    assert s[4..] == "d/filt";
    NotFromHere(s, '.', 4, |b|);
  }

  /** The text after the last separator of `dir + [sep] + stem` is `stem` when
      `stem` holds no separator. */
  lemma LastSegmentAfterSeparator(dir: string, stem: string, sep: char)
    requires sep !in stem
    ensures LastSegment(dir + [sep] + stem, sep) == stem
  {
    var s := dir + [sep] + stem;
    var r := LastSegment(s, sep);
    assert s[|dir|] == sep;
    NotFromHere(s, sep, |s| - |r|, |dir|);
    assert s[|dir| + 1..] == stem;
    NotFromHere(s, sep, |dir| + 1, |s| - |r| - 1);
    assert s[|s| - |stem|..] == stem;
  }

  /** A character found at `j` but absent from `s[i..]` sits before `i`. */
  lemma NotFromHere(s: string, c: char, i: nat, j: nat)
    requires i <= |s| && j < |s| && s[j] == c && c !in s[i..]
    ensures j < i
  {
  }

  // ---------------------------------------------------------------------------
  // Header fields

  /** The fields filled into the header and source templates: the guard
      macro, the header named by `#include`, the order field, and the filter
      type (only the second generator has one). */
  datatype HeaderFields = HeaderFields(guard: string, headerName: string, order: string, filterType: Option<string>)

  predicate NoLowerCase(s: string) {
    forall i :: 0 <= i < |s| ==> !('a' <= s[i] <= 'z')
  }

  /** `_get_files_content` (with `filterType == None`) and `generate_files`
      (with the filter type it is given). */
  function FilesContent(baseFilename: string, filterType: Option<string>): (h: HeaderFields)
    ensures |h.guard| == |baseFilename| + 2 && h.guard[|baseFilename|..] == "_H"
    ensures NoLowerCase(h.guard[..|baseFilename|])
    ensures forall i :: 0 <= i < |baseFilename| && !('a' <= baseFilename[i] <= 'z') ==> h.guard[i] == baseFilename[i]
    ensures forall i :: 0 <= i < |baseFilename| && 'a' <= baseFilename[i] <= 'z' ==>
      h.guard[i] as int == baseFilename[i] as int - 32
    ensures h.guard == Upper(baseFilename) + "_H"
    ensures '/' !in baseFilename ==> h.headerName == baseFilename + ".h"
    ensures h.order == "N/A" && h.filterType == filterType
  {
    var guard := Upper(baseFilename) + "_H";
    assert guard[..|baseFilename|] == Upper(baseFilename);
    var headerName := LastSegment(baseFilename, '/') + ".h";
    assert '/' !in baseFilename ==> LastSegment(baseFilename, '/') == baseFilename;
    HeaderFields(guard, headerName, "N/A", filterType)
  }

  /** Upper-casing twice is upper-casing once, so a name already in capitals
      is its own guard stem. */
  lemma UpperIdempotent(s: string)
    ensures Upper(Upper(s)) == Upper(s)
    ensures NoLowerCase(s) ==> Upper(s) == s
  {
  }

  /** The file actually written as the header is the one the source file
      includes. */
  lemma IncludeNamesWrittenHeader(filePath: string, filterType: Option<string>)
    ensures var p := PathsOf(filePath);
            var n := FilesContent(p.baseFilename, filterType).headerName;
            |n| <= |p.headerPath| && p.headerPath[|p.headerPath| - |n|..] == n
  {
    var p := PathsOf(filePath);
    assert FilesContent(p.baseFilename, filterType).headerName == p.baseFilename + ".h";
    assert p.headerPath == p.baseName + ".h";
    SuffixKeepsExtension(p.baseName, p.baseFilename, ".h");
  }

  lemma SuffixKeepsExtension(s: string, t: string, ext: string)
    requires |t| <= |s| && s[|s| - |t|..] == t
    ensures (s + ext)[|s + ext| - |t + ext|..] == t + ext
  {
    assert s == s[..|s| - |t|] + t;
    assert s + ext == s[..|s| - |t|] + (t + ext);
  }

  /** The sample header produced for `digital_filter` carries the guard
      `DIGITAL_FILTER_H` and includes `digital_filter.h`. */
  lemma SampleHeaderGuard()
    ensures FilesContent("digital_filter", Some("Direct Form II")).guard == "DIGITAL_FILTER_H"
    ensures FilesContent("digital_filter", Some("Direct Form II")).headerName == "digital_filter.h"
  {
    var b := "digital_filter";
    assert '/' !in b;
    var u := Upper(b);
    assert u == "DIGITAL_FILTER";
  }
}

=== FILE: complex_arith.dfy ===
/** Complex numbers as pairs of exact reals, with the handful of ring facts the
    polynomial proofs need. Python's `complex` is modelled by this type, with
    floating point replaced by exact arithmetic. */
module ComplexArith {

  datatype Complex = Complex(re: real, im: real)

  const Zero: Complex := Complex(0.0, 0.0)
  const One: Complex := Complex(1.0, 0.0)

  function Add(a: Complex, b: Complex): Complex { Complex(a.re + b.re, a.im + b.im) }

  function Sub(a: Complex, b: Complex): Complex { Complex(a.re - b.re, a.im - b.im) }

  function Neg(a: Complex): Complex { Complex(-a.re, -a.im) }

  function Mul(a: Complex, b: Complex): Complex {
    Complex(a.re * b.re - a.im * b.im, a.re * b.im + a.im * b.re)
  }

  /** Multiplication by a real scalar (a Python float times a complex). */
  function Scale(k: real, a: Complex): Complex { Complex(k * a.re, k * a.im) }

  function Conj(a: Complex): Complex { Complex(a.re, -a.im) }

  /** The real number `x` seen as a complex number. */
  function OfReal(x: real): Complex { Complex(x, 0.0) }

  lemma MulZeroRight(a: Complex)
    ensures Mul(a, Zero) == Zero
  {
  }

  lemma MulOneRight(a: Complex)
    ensures Mul(a, One) == a
  {
  }

  lemma MulDistribSub(a: Complex, x: Complex, y: Complex)
    ensures Mul(a, Sub(x, y)) == Sub(Mul(a, x), Mul(a, y))
  {
    assert a.re * (x.re - y.re) == a.re * x.re - a.re * y.re;
    assert a.im * (x.im - y.im) == a.im * x.im - a.im * y.im;
    assert a.re * (x.im - y.im) == a.re * x.im - a.re * y.im;
    assert a.im * (x.re - y.re) == a.im * x.re - a.im * y.re;
  }

  /** a·(b·z) == b·(a·z): left-commutativity, the heart of the fact that
      multiplying by two linear factors can be done in either order. */
  lemma MulLeftComm(a: Complex, b: Complex, z: Complex)
    ensures Mul(a, Mul(b, z)) == Mul(b, Mul(a, z))
  {
    var bz := Mul(b, z);
    var az := Mul(a, z);
    assert a.re * (b.re * z.re - b.im * z.im) - a.im * (b.re * z.im + b.im * z.re)
        == b.re * (a.re * z.re - a.im * z.im) - b.im * (a.re * z.im + a.im * z.re);
    assert a.re * (b.re * z.im + b.im * z.re) + a.im * (b.re * z.re - b.im * z.im)
        == b.re * (a.re * z.im + a.im * z.re) + b.im * (a.re * z.re - a.im * z.im);
  }

  /** (x - a·y) - b·(y - a·z) is symmetric in a and b. */
  lemma TwoFactorsCommute(x: Complex, y: Complex, z: Complex, a: Complex, b: Complex)
    ensures Sub(Sub(x, Mul(a, y)), Mul(b, Sub(y, Mul(a, z))))
         == Sub(Sub(x, Mul(b, y)), Mul(a, Sub(y, Mul(b, z))))
  {
    MulDistribSub(b, y, Mul(a, z));
    MulDistribSub(a, y, Mul(b, z));
    MulLeftComm(a, b, z);
  }

  lemma ConjSub(x: Complex, y: Complex)
    ensures Conj(Sub(x, y)) == Sub(Conj(x), Conj(y))
  {
  }

  lemma ConjMul(x: Complex, y: Complex)
    ensures Conj(Mul(x, y)) == Mul(Conj(x), Conj(y))
  {
  }

  lemma ConjInvolutive(x: Complex)
    ensures Conj(Conj(x)) == x
  {
  }
}

=== FILE: delays.dfy ===
/** How many `z^-1` boxes the structure diagrams draw. Both visualisers size a
    direct form II section from the lengths of the (a0-stripped) denominator
    and the numerator and from whether their last coefficients are zero; the
    cascade drawing first cuts each six-entry section into its two parts and
    trims trailing zeros. The coefficient type is left open: it is complex
    for a transfer function and real for a cascade section. */
module Delays {
  import opened Wrappers
  import opened ComplexArith
  import opened FilterModel
  import DirectForm
  import Poly

  /** `s[-1] == 0` for a non-empty list. */
  predicate EndsInZero<T(==)>(s: seq<T>, zero: T) {
    |s| > 0 && s[|s| - 1] == zero
  }

  /** The length of `s` without one trailing zero. */
  function TrimLen<T(==)>(s: seq<T>, zero: T): (n: nat)
    ensures n <= |s| && n + 1 >= |s|
    ensures n < |s| <==> EndsInZero(s, zero)
  {
    if EndsInZero(s, zero) then |s| - 1 else |s|
  }

  /** The delays a section's drawing shows: enough for the longer of the two
      delay lines once at most one trailing zero is dropped from each; none
      for a plain gain. Further trailing zeros are still drawn, so this is not
      always the fewest delays that would do. */
  function DrawnDelays<T(==)>(den: seq<T>, num: seq<T>, zero: T): (n: nat)
    ensures n >= TrimLen(den, zero) && n + 1 >= TrimLen(num, zero)
    ensures n == TrimLen(den, zero) || n + 1 == TrimLen(num, zero) || (n == 0 && |den| == 0)
  {
    var d, m := TrimLen(den, zero), TrimLen(num, zero);
    if d >= m - 1 then d else m - 1
  }

  // ---------------------------------------------------------------------------
  // FilterVisualizer.py

  /** `_calculate_delays` of the older visualiser. `None` is the `IndexError`
      of `den[-1]` on an empty denominator. */
  function CalculateDelays<T(==)>(den: seq<T>, num: seq<T>, zero: T): (r: Option<int>)
    ensures r.None? <==> |den| == 0 && |num| <= 1
    ensures r.Some? ==> var m := DirectForm.Max(|den|, |num| - 1); m - 1 <= r.value <= m
    ensures r.Some? && |den| >= |num| - 1 ==> (r.value == |den| - 1 <==> EndsInZero(den, zero))
    ensures r.Some? && |den| < |num| - 1 ==> (r.value == |num| - 2 <==> EndsInZero(num, zero))
  {
    if |den| >= |num| - 1 then
      if |den| == 0 then None
      else if den[|den| - 1] == zero then Some(|den| - 1)
      else Some(|den|)
    else if num[|num| - 1] == zero then Some(|num| - 2)
    else Some(|num| - 1)
  }

  /** The `n_delays` choice of `_draw_elements`, which separates the case of
      equal delay-line lengths. */
  function DrawElementsDelays<T(==)>(den: seq<T>, num: seq<T>, zero: T): (r: Option<int>)
    ensures r.None? <==> |den| == 0 && |num| <= 1
  {
    if |den| > |num| - 1 then
      if |den| == 0 then None
      else if den[|den| - 1] == zero then Some(|den| - 1)
      else Some(|den|)
    else if |den| == |num| - 1 then
      if |den| == 0 then None
      else if den[|den| - 1] == zero && num[|num| - 1] == zero then Some(|den| - 1)
      else Some(|den|)
    else if num[|num| - 1] == zero then Some(|num| - 2)
    else Some(|num| - 1)
  }

  /** Whenever `_draw_elements` does not fail, its count is the reference
      count `DrawnDelays`. */
  lemma DrawElementsIsDrawnDelays<T>(den: seq<T>, num: seq<T>, zero: T)
    requires DrawElementsDelays(den, num, zero).Some?
    ensures DrawElementsDelays(den, num, zero).value == DrawnDelays(den, num, zero)
  {
  }

  /** All of `_draw_elements` that can fail: the `n_delays` choice and
      `numerator_coeffs[0]` on the main path. The other accesses are guarded
      by their loops. */
  function DrawElements<T(==)>(den: seq<T>, num: seq<T>, zero: T): (r: Option<int>)
    ensures r.None? <==> |num| == 0 || (|den| == 0 && |num| == 1)
    ensures r.Some? ==> r == DrawElementsDelays(den, num, zero)
  {
    if |num| == 0 then None else DrawElementsDelays(den, num, zero)
  }

  /** A transfer function always has a numerator, so the direct form drawing
      fails only where its `n_delays` choice does. */
  lemma DrawElementsOnFilter(f: Filter)
    ensures var tf := TransferFunction(f);
            DrawElements(DirectForm.Tail(tf.1), tf.0, Zero) == DrawElementsDelays(DirectForm.Tail(tf.1), tf.0, Zero)
  {
  }

  /** Equal delay-line lengths, a denominator ending in zero and a numerator
      that does not. */
  predicate TieCase<T(==)>(den: seq<T>, num: seq<T>, zero: T) {
    |den| == |num| - 1 && EndsInZero(den, zero) && !EndsInZero(num, zero)
  }

  /** `_calculate_delays` and `_draw_elements` agree exactly outside the tie
      case; in it the former counts one delay fewer. */
  lemma CalculateVersusDraw<T>(den: seq<T>, num: seq<T>, zero: T)
    ensures CalculateDelays(den, num, zero).Some? <==> DrawElementsDelays(den, num, zero).Some?
    ensures CalculateDelays(den, num, zero).Some? ==>
      (CalculateDelays(den, num, zero) == DrawElementsDelays(den, num, zero) <==> !TieCase(den, num, zero))
    ensures TieCase(den, num, zero) ==>
      CalculateDelays(den, num, zero).value + 1 == DrawElementsDelays(den, num, zero).value
  {
  }

  /** `draw_direct_form_2`: drop `a0` from the denominator, keep the numerator,
      and size the diagram with `_calculate_delays`. */
  function DirectFormDelays(f: Filter): (r: Option<int>)
    ensures r.None? <==> |f.zeros| == 0 && |f.poles| == 0
    ensures r.Some? ==> var m := DirectForm.Max(|f.poles|, |f.zeros|); m - 1 <= r.value <= m
  {
    var tf := TransferFunction(f);
    CalculateDelays(DirectForm.Tail(tf.1), tf.0, Zero)
  }

  /** A pure gain (no zeros, no poles) makes the direct form drawing fail. */
  lemma PureGainHasNoDiagram(g: real)
    ensures DirectFormDelays(Filter([], [], g, [])) == None
    ensures DrawnDelays(DirectForm.Tail(TransferFunction(Filter([], [], g, [])).1),
                         TransferFunction(Filter([], [], g, [])).0, Zero) == 0
  {
  }

  /** One non-zero zero, a pole at 0 and a non-zero gain: the plot is sized
      for no delay while the section draws one, and one is needed. */
  lemma TieCaseUndercounts(f: Filter)
    requires |f.zeros| == 1 && |f.poles| == 1
    requires f.zeros[0] != Zero && f.poles[0] == Zero && f.gain != 0.0
    ensures DirectFormDelays(f) == Some(0)
    ensures var tf := TransferFunction(f);
            DrawElementsDelays(DirectForm.Tail(tf.1), tf.0, Zero) == Some(1)
            && DrawnDelays(DirectForm.Tail(tf.1), tf.0, Zero) == 1
  {
    TieDenominator(f);
    TieNumerator(f);
    var tf := TransferFunction(f);
    TieCounts(DirectForm.Tail(tf.1), tf.0);
  }

  lemma TieDenominator(f: Filter)
    requires |f.zeros| == 1 && |f.poles| == 1 && f.poles[0] == Zero
    ensures var den := DirectForm.Tail(TransferFunction(f).1); |den| == 1 && den[0] == Zero
  {
    var p := f.poles[0];
    assert f.poles == [p];
    Poly.ExpandSingle(p);
    var a := TransferFunction(f).1;
    assert a == [One, Neg(p)];
    assert a[1] == Zero;
  }

  lemma TieNumerator(f: Filter)
    requires |f.zeros| == 1 && |f.poles| == 1 && f.zeros[0] != Zero && f.gain != 0.0
    ensures var num := TransferFunction(f).0; |num| == 2 && num[1] != Zero
  {
    SingleRootTransferFunction(f);
    var b := TransferFunction(f).0;
    assert b[1] == Scale(f.gain, Neg(f.zeros[0]));
    NonZeroScale(f.gain, Neg(f.zeros[0]));
  }

  lemma TieCounts(den: seq<Complex>, num: seq<Complex>)
    requires |den| == 1 && den[0] == Zero && |num| == 2 && num[1] != Zero
    ensures CalculateDelays(den, num, Zero) == Some(0)
    ensures DrawElementsDelays(den, num, Zero) == Some(1)
    ensures DrawnDelays(den, num, Zero) == 1
  {
  }

  lemma NonZeroScale(g: real, z: Complex)
    requires z != Zero && g != 0.0
    ensures Scale(g, z) != Zero
  {
    if z.re != 0.0 {
      assert g * z.re != 0.0;
    } else {
      assert g * z.im != 0.0;
    }
  }

  /** The delay count the corrected sizing gives for a filter: total, and one
      per pole or zero of the higher order once a trailing zero coefficient is
      dropped. */
  function DirectFormDelaysCorrected(f: Filter): (n: nat)
    ensures n <= DirectForm.Max(|f.poles|, |f.zeros|)
    ensures DirectForm.Max(|f.poles|, |f.zeros|) <= n + 1
  {
    var tf := TransferFunction(f);
    DrawnDelays(DirectForm.Tail(tf.1), tf.0, Zero)
  }

  /** The corrected sizing agrees with the drawing of the section for every
      filter the drawing handles. */
  lemma CorrectedSizingMatchesDrawing(f: Filter)
    ensures var tf := TransferFunction(f);
            var d := DrawElementsDelays(DirectForm.Tail(tf.1), tf.0, Zero);
            d.Some? ==> d.value == DirectFormDelaysCorrected(f)
  {
    var tf := TransferFunction(f);
    if DrawElementsDelays(DirectForm.Tail(tf.1), tf.0, Zero).Some? {
      DrawElementsIsDrawnDelays(DirectForm.Tail(tf.1), tf.0, Zero);
    }
  }

  // ---------------------------------------------------------------------------
  // filter_visualizer.py

  /** The triple `(n, trimmed, den_dominant)` of the newer `_calculate_delays`. */
  datatype DelayInfo = DelayInfo(n: int, trimmed: bool, denDominant: bool)

  function CalculateDelayInfo<T(==)>(den: seq<T>, num: seq<T>, zero: T): (r: Option<DelayInfo>)
    ensures r.None? <==> |den| == 0 && |num| <= 1
    ensures r.Some? ==> (r.value.denDominant <==> |den| >= |num| - 1)
    ensures r.Some? ==> (r.value.trimmed <==> EndsInZero(if r.value.denDominant then den else num, zero))
    ensures r.Some? ==>
      (r.value.n + (if r.value.trimmed then 1 else 0) == if r.value.denDominant then |den| else |num| - 1)
  {
    if |den| >= |num| - 1 then
      if |den| == 0 then None
      else if den[|den| - 1] == zero then Some(DelayInfo(|den| - 1, true, true))
      else Some(DelayInfo(|den|, false, true))
    else if num[|num| - 1] == zero then Some(DelayInfo(|num| - 2, true, false))
    else Some(DelayInfo(|num| - 1, false, false))
  }

  /** The newer visualiser's count is the older one's. */
  lemma InfoCountIsCalculateDelays<T>(den: seq<T>, num: seq<T>, zero: T)
    ensures CalculateDelayInfo(den, num, zero).Some? <==> CalculateDelays(den, num, zero).Some?
    ensures CalculateDelayInfo(den, num, zero).Some? ==>
      CalculateDelayInfo(den, num, zero).value.n == CalculateDelays(den, num, zero).value
  {
  }

  /** The `n_delays` choice of `_draw_direct_form_2_section`. */
  function DrawSectionDelays<T(==)>(den: seq<T>, num: seq<T>, zero: T): (r: Option<int>)
    ensures r.None? <==> |den| == 0 && |num| <= 1
  {
    if |den| >= |num| - 1 then
      if |den| == 0 then None
      else if den[|den| - 1] == zero then Some(|den| - 1)
      else Some(|den|)
    else if num[|num| - 1] == zero then Some(|num| - 2)
    else Some(|num| - 1)
  }

  /** The section drawing and the sizing agree on every input, failure
      included. */
  lemma DrawSectionMatchesInfo<T>(den: seq<T>, num: seq<T>, zero: T)
    ensures DrawSectionDelays(den, num, zero).Some? <==> CalculateDelayInfo(den, num, zero).Some?
    ensures DrawSectionDelays(den, num, zero).Some? ==>
      DrawSectionDelays(den, num, zero).value == CalculateDelayInfo(den, num, zero).value.n
  {
  }

  /** All of `_draw_direct_form_2_section` that can fail: the `n_delays`
      choice, `den[-1]` at the last feedback junction, which every call
      reaches, and `num[0]` on the main path. */
  function DrawSection<T(==)>(den: seq<T>, num: seq<T>, zero: T): (r: Option<int>)
    ensures r.None? <==> |den| == 0 || |num| == 0
    ensures r.Some? ==> r == DrawSectionDelays(den, num, zero)
  {
    if |den| == 0 || |num| == 0 then None else DrawSectionDelays(den, num, zero)
  }

  /** `create_direct_form_2` fails wherever the sizing does, and also on the
      inputs the sizing accepts but the section drawing does not: an empty
      denominator with a numerator of two or more entries, or an empty
      numerator. */
  lemma SectionFailsBeyondSizing<T>(den: seq<T>, num: seq<T>, zero: T)
    ensures CalculateDelayInfo(den, num, zero).None? ==> DrawSection(den, num, zero).None?
    ensures CalculateDelayInfo(den, num, zero).Some? && DrawSection(den, num, zero).None? <==>
      (|den| == 0 && |num| >= 2) || (|den| > 0 && |num| == 0)
  {
  }

  /** An FIR section is sized for one delay but fails to draw. */
  lemma FirSectionFails()
    ensures CalculateDelayInfo([], [1.0, 0.3], 0.0) == Some(DelayInfo(1, false, false))
    ensures DrawSection([], [1.0, 0.3], 0.0) == None
  {
  }

  // ---------------------------------------------------------------------------
  // Cascade sections in FilterVisualizer.py

  /** One guarded `if part[-1] == 0: part = part[:-1]`; `None` when `part` is empty. */
  function TrimOnce(part: seq<real>): (r: Option<seq<real>>)
    ensures r.Some? <==> |part| > 0
    ensures r.Some? ==> r.value == part[..TrimLen(part, 0.0)]
  {
    if |part| == 0 then None
    else if part[|part| - 1] == 0.0 then Some(part[..|part| - 1])
    else Some(part)
  }

  /** Python's `s[lo:]` and `s[:hi]` for a non-negative bound. */
  function From<T>(s: seq<T>, lo: nat): (r: seq<T>)
    ensures |r| == if lo <= |s| then |s| - lo else 0
  {
    if lo <= |s| then s[lo..] else []
  }

  function UpTo<T>(s: seq<T>, hi: nat): (r: seq<T>)
    ensures |r| == if hi <= |s| then hi else |s|
    ensures r == s[..|r|]
  {
    if hi <= |s| then s[..hi] else s
  }

  /** How many zeros `s` ends with. */
  function TrailingZeros(s: seq<real>): (k: nat)
    ensures k <= |s|
    ensures forall i :: |s| - k <= i < |s| ==> s[i] == 0.0
    ensures k < |s| ==> s[|s| - k - 1] != 0.0
  {
    if |s| == 0 || s[|s| - 1] != 0.0 then 0 else TrailingZeros(s[..|s| - 1]) + 1
  }

  function Min(a: nat, b: nat): nat {
    if a <= b then a else b
  }

  /** The loop body of `draw_cascade_form`: numerator `section[:3]`,
      denominator `section[4:]` (so `a0` at index 3 is dropped), then two
      trims of the denominator and two of the numerator, in that order. */
  function SplitSection(section: seq<real>): (r: Option<(seq<real>, seq<real>)>)
  {
    var num, den := UpTo(section, 3), From(section, 4);
    match TrimOnce(den)
    case None => None
    case Some(den1) =>
      match TrimOnce(den1)
      case None => None
      case Some(den2) =>
        match TrimOnce(num)
        case None => None
        case Some(num1) =>
          match TrimOnce(num1)
          case None => None
          case Some(num2) => Some((num2, den2))
  }

  /** The split fails only on a section too short to have a denominator left
      to test; a six-entry section always splits. Each part is what it was cut
      from with its trailing zeros removed, but never more than two. */
  lemma SplitSectionSpec(section: seq<real>)
    ensures SplitSection(section).Some? <==> |section| >= 6 || (|section| == 5 && section[4] != 0.0)
    ensures SplitSection(section).Some? ==>
      var (num, den) := SplitSection(section).value;
      var n0, d0 := UpTo(section, 3), From(section, 4);
      && |num| == |n0| - Min(2, TrailingZeros(n0)) && num == n0[..|num|]
      && |den| == |d0| - Min(2, TrailingZeros(d0)) && den == d0[..|den|]
  {
    var n0, d0 := UpTo(section, 3), From(section, 4);
    if |d0| > 0 {
      TrimTwice(d0);
    }
    if |n0| > 0 && |d0| > 0 && TrimOnce(TrimOnce(d0).value).Some? {
      TrimTwice(n0);
    }
  }

  /** Two guarded trims drop `min(2, trailing zeros)` entries, when both can run. */
  lemma TrimTwice(part: seq<real>)
    requires |part| > 0
    ensures TrimOnce(TrimOnce(part).value).Some? <==> !(|part| == 1 && part[0] == 0.0)
    ensures TrimOnce(TrimOnce(part).value).Some? ==>
      var r := TrimOnce(TrimOnce(part).value).value;
      |r| == |part| - Min(2, TrailingZeros(part)) && r == part[..|r|]
  {
    var p1 := TrimOnce(part).value;
    if |part| - 1 >= 1 && part[|part| - 1] == 0.0 {
      assert p1 == part[..|part| - 1];
      assert TrailingZeros(part) == TrailingZeros(p1) + 1;
    }
  }

  /** `_draw_elements` on one split section: fails when the section has
      become a pure gain, and otherwise draws at most the two delays the
      plot is sized for. */
  function CascadeSectionDelays(section: seq<real>): (r: Option<int>)
  {
    match SplitSection(section)
    case None => None
    case Some((num, den)) => DrawElementsDelays(den, num, 0.0)
  }

  lemma CascadeSectionBounds(section: seq<real>)
    requires |section| == 6
    ensures CascadeSectionDelays(section).None? <==>
      section[1] == 0.0 && section[2] == 0.0 && section[4] == 0.0 && section[5] == 0.0
    ensures CascadeSectionDelays(section).Some? ==> 0 <= CascadeSectionDelays(section).value <= 2
  {
    SplitSectionSpec(section);
    var n0, d0 := UpTo(section, 3), From(section, 4);
    assert n0 == [section[0], section[1], section[2]];
    assert d0 == [section[4], section[5]];
  }

  /** The corrected count for a section is total and also at most two. */
  lemma CascadeSectionNeeded(section: seq<real>)
    requires |section| == 6
    ensures SplitSection(section).Some?
    ensures var (num, den) := SplitSection(section).value; DrawnDelays(den, num, 0.0) <= 2
  {
    SplitSectionSpec(section);
  }
}

=== FILE: direct_form.dfy ===
/** The direct form II realization the C exporters emit: the order and the two
    coefficient arrays chosen from a transfer function `(b, a)`, and what the
    emitted `init` and `process` routines compute on the delay line. C `float`
    arithmetic is modelled by exact reals. */
module DirectForm {
  import opened Wrappers

  /** The decisions `_generate_code_parts` / `generate_direct_form_2` make: the
      delay-line length `order`, the `_num` array and the `_den` array. */
  datatype Realization = Realization(order: int, num: seq<real>, den: seq<real>)

  function Max(a: int, b: int): int {
    if a >= b then a else b
  }

  /** Python's `s[1:]`, which is empty for an empty list. */
  function Tail<T>(s: seq<T>): (r: seq<T>)
    ensures |s| == 0 ==> r == []
    ensures |s| > 0 ==> r == s[1..]
  {
    if |s| == 0 then [] else s[1..]
  }

  /** `_generate_code_parts` for the transfer function `(b, a)`: the order is one
      less than the longer list, `_num` is all of `b`, `_den` is `a` without a0. */
  function GenerateCodeParts(b: seq<real>, a: seq<real>): (r: Realization)
    ensures r.order + 1 == Max(|a|, |b|) && r.order >= -1
    ensures r.num == b
    ensures |r.den| == Max(|a| - 1, 0)
    ensures forall i :: 0 <= i < |r.den| ==> r.den[i] == a[i + 1]
  {
    Realization(Max(|a|, |b|) - 1, b, Tail(a))
  }

  /** `generate_direct_form_2(name, denominator, numerator)`: the same decisions,
      with the denominator passed first. */
  function GenerateDirectForm2(den: seq<real>, num: seq<real>): (r: Realization)
    ensures r == GenerateCodeParts(num, den)
  {
    Realization(if |den| >= |num| then |den| - 1 else |num| - 1, num, if |den| == 0 then [] else den[1..])
  }

  /** The `_filter_t` struct: the delay line and the latest output. */
  datatype FilterState = FilterState(state: seq<real>, output: real)

  /** How many entries `float state[order]` holds. */
  function Size(order: int): nat {
    if order < 0 then 0 else order
  }

  /** `init`: every delay-line entry and the output are zero. */
  function Init(order: int): (s: FilterState)
    ensures |s.state| == Size(order) && s.output == 0.0
    ensures forall i :: 0 <= i < |s.state| ==> s.state[i] == 0.0
  {
    FilterState(seq(Size(order), _ => 0.0), 0.0)
  }

  /** The sum over `i < n` of `c[i] * s[i]`. */
  function Dot(c: seq<real>, s: seq<real>, n: nat): real
    requires n <= |c| && n <= |s|
  {
    if n == 0 then 0.0 else Dot(c, s, n - 1) + c[n - 1] * s[n - 1]
  }

  /** One `process` call on an order-`n` delay line whose coefficient arrays
      hold every entry the loops read: the feedback sum gives the new state,
      the feed-forward sum gives the output, the line shifts by one and the new
      state enters at the front. Order 0 keeps no state at all. */
  function Step(num: seq<real>, den: seq<real>, n: nat, s: FilterState, x: real): (r: (real, FilterState))
    requires |num| >= n + 1 && |den| >= n && |s.state| == n
    ensures |r.1.state| == n && r.1.output == r.0
    ensures r.0 == num[0] * (x - Dot(den, s.state, n)) + Dot(num[1..], s.state, n)
    ensures n >= 1 ==> r.1.state[0] == x - Dot(den, s.state, n)
    ensures forall i :: 1 <= i < n ==> r.1.state[i] == s.state[i - 1]
  {
    var w := x - Dot(den, s.state, n);
    var y := num[0] * w + Dot(num[1..], s.state, n);
    (y, FilterState(if n == 0 then [] else [w] + s.state[..n - 1], y))
  }

  /** The emitted `process` routine, loop by loop, for a realization whose
      arrays are long enough: it computes exactly one `Step`. */
  method Process(num: seq<real>, den: seq<real>, n: nat, s: FilterState, x: real) returns (y: real, next: FilterState)
    requires |num| >= n + 1 && |den| >= n && |s.state| == n && n >= 1
    ensures (y, next) == Step(num, den, n, s, x)
    ensures next.output == y && |next.state| == n
    ensures forall i :: 1 <= i < n ==> next.state[i] == s.state[i - 1]
  {
    var newState := FeedbackLoop(den, s.state, n, x);
    var output := OutputLoop(num, s.state, n, newState);
    var st := ShiftLoop(s.state, n, newState);
    y := output;
    next := FilterState(st, output);
    assert Step(num, den, n, s, x).1 == next;
  }

  /** The first emitted loop: `new_state = input - Σ _den[i]·state[i]`. */
  method FeedbackLoop(den: seq<real>, state: seq<real>, n: nat, x: real) returns (w: real)
    requires |den| >= n && |state| >= n
    ensures w == x - Dot(den, state, n)
  {
    w := x;
    var i := 0;
    while i < n
      invariant 0 <= i <= n
      invariant w == x - Dot(den, state, i)
    {
      w := w - den[i] * state[i];
      i := i + 1;
    }
  }

  /** The second emitted loop: `output = _num[0]·new_state + Σ _num[i + 1]·state[i]`. */
  method OutputLoop(num: seq<real>, state: seq<real>, n: nat, w: real) returns (y: real)
    requires |num| >= n + 1 && |state| >= n
    ensures y == num[0] * w + Dot(num[1..], state, n)
  {
    y := num[0] * w;
    var i := 0;
    while i < n
      invariant 0 <= i <= n
      invariant y == num[0] * w + Dot(num[1..], state, i)
    {
      y := y + num[i + 1] * state[i];
      i := i + 1;
    }
  }

  /** The third emitted loop and the write of `state[0]`: the delay line moves
      down by one and `w` enters at the front. */
  method ShiftLoop(state: seq<real>, n: nat, w: real) returns (st: seq<real>)
    requires |state| == n && n >= 1
    ensures st == [w] + state[..n - 1]
  {
    st := state;
    var i := n - 1;
    while i > 0
      invariant 0 <= i <= n - 1
      invariant |st| == n
      invariant forall j :: 0 <= j <= i ==> st[j] == state[j]
      invariant forall j :: i < j < n ==> st[j] == state[j - 1]
    {
      st := st[i := st[i - 1]];
      i := i - 1;
    }
    st := st[0 := w];
  }

  // ---------------------------------------------------------------------------
  // The emitted code as written

  /** Loop index `i` of the feedback and output loops reads `_den[i]` and `_num[i + 1]`. */
  predicate LoopReadsInside(r: Realization, i: int) {
    i < |r.den| && i + 1 < |r.num|
  }

  /** Every array access `process` makes is inside its array: both loops, the
      read of `_num[0]` and the write of `state[0]`. */
  predicate AccessesInside(r: Realization) {
    && (forall i :: 0 <= i < r.order ==> LoopReadsInside(r, i))
    && 0 < |r.num|
    && 0 < Size(r.order)
  }

  /** The emitted `process`, with any out-of-bounds access as `None`. */
  function ProcessAsWritten(r: Realization, s: FilterState, x: real): (res: Option<(real, FilterState)>)
    requires |s.state| == Size(r.order)
    ensures res.Some? ==> r.order >= 1 && |res.value.1.state| == r.order && res.value.1.output == res.value.0
  {
    if AccessesInside(r) then
      assert r.order <= |r.den| && r.order + 1 <= |r.num| by {
        assert LoopReadsInside(r, r.order - 1);
      }
      Some(Step(r.num, r.den, r.order, s, x))
    else None
  }

  /** The emitted routine stays inside its arrays exactly when numerator and
      denominator have the same length, and that length is at least two. */
  lemma AsWrittenDefinedIff(b: seq<real>, a: seq<real>, s: FilterState, x: real)
    requires |s.state| == Size(GenerateCodeParts(b, a).order)
    ensures ProcessAsWritten(GenerateCodeParts(b, a), s, x).Some? <==> (|a| == |b| && |a| >= 2)
  {
    var r := GenerateCodeParts(b, a);
    if AccessesInside(r) {
      assert LoopReadsInside(r, r.order - 1);
    }
    if |a| == |b| && |a| >= 2 {
      forall i | 0 <= i < r.order
        ensures LoopReadsInside(r, i)
      {
      }
    }
  }

  /** A pole with a gain-only numerator, `b = [g]`, `a = [1, -p]`: order 1, and
      `process` reads `_num[1]`, past the one-element array. */
  lemma MismatchedLengthsReadPastEnd(g: real, p: real, s: FilterState, x: real)
    requires |s.state| == 1
    ensures GenerateCodeParts([g], [1.0, -p]).order == 1
    ensures ProcessAsWritten(GenerateCodeParts([g], [1.0, -p]), s, x).None?
  {
    assert !LoopReadsInside(GenerateCodeParts([g], [1.0, -p]), 0);
  }

  /** A pure gain, `b = [g]`, `a = [1]`: order 0, and `process` writes `state[0]`
      of a zero-length delay line. */
  lemma OrderZeroWritesPastEnd(g: real, x: real)
    ensures GenerateCodeParts([g], [1.0]).order == 0
    ensures ProcessAsWritten(GenerateCodeParts([g], [1.0]), Init(0), x).None?
  {
  }

  // ---------------------------------------------------------------------------
  // Corrected realization: missing coefficients are zero

  /** `s` followed by zeros up to length `n`. */
  function Pad(s: seq<real>, n: nat): (r: seq<real>)
    requires |s| <= n
    ensures |r| == n && r[..|s|] == s
    ensures forall i :: |s| <= i < n ==> r[i] == 0.0
  {
    s + seq(n - |s|, _ => 0.0)
  }

  /** The realization with both arrays padded to the order the code declares;
      an empty transfer function gets order 0. */
  function GenerateCorrected(b: seq<real>, a: seq<real>): (r: Realization)
    ensures r.order >= 0 && r.order + 1 == Max(Max(|a|, |b|), 1)
    ensures |r.num| == r.order + 1 && |r.den| == r.order
    ensures r.num[..|b|] == b && r.den[..|Tail(a)|] == Tail(a)
  {
    var n := Max(Max(|a|, |b|), 1) - 1;
    Realization(n, Pad(b, n + 1), Pad(Tail(a), n))
  }

  /** `process` for the corrected realization: always defined. */
  function ProcessCorrected(r: Realization, s: FilterState, x: real): (res: (real, FilterState))
    requires r.order >= 0 && |r.num| == r.order + 1 && |r.den| == r.order && |s.state| == r.order
    ensures |res.1.state| == r.order && res.1.output == res.0
  {
    Step(r.num, r.den, r.order, s, x)
  }

  /** Wherever the emitted code is defined it computes what the corrected
      realization computes. */
  lemma AsWrittenAgreesWithCorrected(b: seq<real>, a: seq<real>, s: FilterState, x: real)
    requires |a| == |b| && |a| >= 2 && |s.state| == |a| - 1
    ensures GenerateCorrected(b, a) == GenerateCodeParts(b, a)
    ensures ProcessAsWritten(GenerateCodeParts(b, a), s, x) == Some(ProcessCorrected(GenerateCorrected(b, a), s, x))
  {
    var r := GenerateCodeParts(b, a);
    var c := GenerateCorrected(b, a);
    assert c.num == c.num[..|b|] == b;
    assert c.den == c.den[..|Tail(a)|] == Tail(a);
    AsWrittenDefinedIff(b, a, s, x);
  }

  // ---------------------------------------------------------------------------
  // The difference equation

  /** `w[j]`, taken as zero before the first sample. */
  function Past(ws: seq<real>, j: int): real {
    if 0 <= j < |ws| then ws[j] else 0.0
  }

  /** The last `n` values of `ws`, newest first, zeros once `ws` runs out. */
  function Window(ws: seq<real>, n: nat): (v: seq<real>)
    ensures |v| == n
    ensures forall i :: 0 <= i < n ==> v[i] == Past(ws, |ws| - 1 - i)
  {
    seq(n, i => Past(ws, |ws| - 1 - i))
  }

  /** The next internal value `w[k] = x[k] - sum_{j=1..n} a_j * w[k-j]` after
      the values `ws` (with `den[j - 1]` holding `a_j`). */
  function NextW(den: seq<real>, n: nat, ws: seq<real>, x: real): real
    requires |den| >= n
  {
    x - Dot(den, Window(ws, n), n)
  }

  /** The output `y[k] = b_0 * w[k] + sum_{j=1..n} b_j * w[k-j]` once `w[k]` has
      followed the values `ws`. */
  function OutputAt(num: seq<real>, n: nat, ws: seq<real>, w: real): real
    requires |num| >= n + 1
  {
    num[0] * w + Dot(num[1..], Window(ws, n), n)
  }

  /** The direct form II internal signal for the inputs `xs`. */
  function WSignal(den: seq<real>, n: nat, xs: seq<real>): (ws: seq<real>)
    requires |den| >= n
    ensures |ws| == |xs|
  {
    if |xs| == 0 then []
    else
      var prev := WSignal(den, n, xs[..|xs| - 1]);
      prev + [NextW(den, n, prev, xs[|xs| - 1])]
  }

  /** The direct form II output signal for the inputs `xs`. */
  function YSignal(num: seq<real>, den: seq<real>, n: nat, xs: seq<real>): (ys: seq<real>)
    requires |num| >= n + 1 && |den| >= n
    ensures |ys| == |xs|
  {
    var ws := WSignal(den, n, xs);
    seq(|xs|, k requires 0 <= k < |xs| => OutputAt(num, n, ws[..k], ws[k]))
  }

  /** Feeding the samples `xs` one `process` call at a time: the outputs and the
      final state. */
  function Run(num: seq<real>, den: seq<real>, n: nat, s: FilterState, xs: seq<real>): (r: (seq<real>, FilterState))
    requires |num| >= n + 1 && |den| >= n && |s.state| == n
    ensures |r.0| == |xs| && |r.1.state| == n
  {
    if |xs| == 0 then ([], s)
    else
      var prev := Run(num, den, n, s, xs[..|xs| - 1]);
      var step := Step(num, den, n, prev.1, xs[|xs| - 1]);
      (prev.0 + [step.0], step.1)
  }

  /** Pushing a new value into the window shifts the old values down by one. */
  lemma WindowPush(ws: seq<real>, w: real, n: nat)
    requires n >= 1
    ensures Window(ws + [w], n) == [w] + Window(ws, n)[..n - 1]
  {
    var lhs, rhs := Window(ws + [w], n), [w] + Window(ws, n)[..n - 1];
    forall i | 0 <= i < n
      ensures lhs[i] == rhs[i]
    {
      if i > 0 {
        assert rhs[i] == Window(ws, n)[i - 1];
      }
    }
  }

  /** A step on a delay line holding the window of `ws` computes the next `w`
      and output, and leaves the window of `ws` extended by that `w`. */
  lemma StepOnWindow(num: seq<real>, den: seq<real>, n: nat, ws: seq<real>, s: FilterState, x: real)
    requires |num| >= n + 1 && |den| >= n && s.state == Window(ws, n)
    ensures Step(num, den, n, s, x).0 == OutputAt(num, n, ws, NextW(den, n, ws, x))
    ensures Step(num, den, n, s, x).1.state == Window(ws + [NextW(den, n, ws, x)], n)
  {
    var w := NextW(den, n, ws, x);
    assert x - Dot(den, s.state, n) == w;
    assert Step(num, den, n, s, x).0 == num[0] * w + Dot(num[1..], s.state, n);
    if n >= 1 {
      WindowPush(ws, w, n);
    }
  }

  /** One more sample appends one more output and leaves the earlier ones alone. */
  lemma YSignalSnoc(num: seq<real>, den: seq<real>, n: nat, xs: seq<real>)
    requires |num| >= n + 1 && |den| >= n && |xs| > 0
    ensures YSignal(num, den, n, xs)
      == YSignal(num, den, n, xs[..|xs| - 1])
         + [OutputAt(num, n, WSignal(den, n, xs[..|xs| - 1]), NextW(den, n, WSignal(den, n, xs[..|xs| - 1]), xs[|xs| - 1]))]
  {
    var L := |xs|;
    var front := xs[..L - 1];
    var ws := WSignal(den, n, xs);
    var prevWs := WSignal(den, n, front);
    assert ws[..L - 1] == prevWs;
    var ys := YSignal(num, den, n, xs);
    var prevYs := YSignal(num, den, n, front);
    forall k | 0 <= k < L - 1
      ensures ys[k] == prevYs[k]
    {
      assert ws[..k] == prevWs[..k];
    }
    assert ys == prevYs + [ys[L - 1]];
  }

  /** Started from `init`, the delay line always holds the last `n` values of
      `w`, newest first, and the outputs are exactly the direct form II
      difference equation. */
  lemma {:induction false} RunFollowsDifferenceEquation(num: seq<real>, den: seq<real>, n: nat, xs: seq<real>)
    requires |num| >= n + 1 && |den| >= n
    ensures Run(num, den, n, Init(n), xs).1.state == Window(WSignal(den, n, xs), n)
    ensures Run(num, den, n, Init(n), xs).0 == YSignal(num, den, n, xs)
  {
    if |xs| == 0 {
      assert Init(n).state == Window([], n);
    } else {
      var front := xs[..|xs| - 1];
      RunFollowsDifferenceEquation(num, den, n, front);
      var prev := Run(num, den, n, Init(n), front);
      StepOnWindow(num, den, n, WSignal(den, n, front), prev.1, xs[|xs| - 1]);
      YSignalSnoc(num, den, n, xs);
    }
  }

  /** The sample values `b = [0.5, 0.5]`, `a = [1, -0.5]`: an impulse gives 0.5
      and then 0.75. */
  lemma ImpulseResponseExample()
    ensures var r := GenerateCodeParts([0.5, 0.5], [1.0, -0.5]);
            r.order == 1 && Run(r.num, r.den, 1, Init(1), [1.0, 0.0]).0 == [0.5, 0.75]
  {
    var r := GenerateCodeParts([0.5, 0.5], [1.0, -0.5]);
    assert r.den == [-0.5];
    var first := Run(r.num, r.den, 1, Init(1), [1.0]);
    assert [1.0, 0.0][..1] == [1.0];
    assert [1.0][..0] == [];
    assert first.0 == [0.5] && first.1.state == [1.0];
  }
}

=== FILE: export_steps.dfy ===
/** The fixed-shape C that `generate_direct_form_ii_code` and
    `generate_cascade_code` emit: a first-order direct form II step that only
    ever reads `a[1]`, `b[0]` and `b[1]`, and a chain of transposed biquad
    sections over `b[NUM_SECTIONS][3]`, `a[NUM_SECTIONS][3]` and
    `w[NUM_SECTIONS][2]`. */
module ExportSteps {
  import opened Wrappers
  import DirectForm

  // ---------------------------------------------------------------------------
  // Direct form II

  /** `filter_init` for the direct form: `w` has `len(b)` zero entries. */
  function InitW(b: seq<real>): (w: seq<real>)
    ensures |w| == |b| && forall i :: 0 <= i < |w| ==> w[i] == 0.0
  {
    seq(|b|, _ => 0.0)
  }

  /** `filter_process` of the direct form: `w[0] = x - a[1]*w[1]`,
      `y = b[0]*w[0] + b[1]*w[1]`, `w[1] = w[0]`. `None` when `a[1]` or `b[1]`
      (and with it `w[1]`) is past the end of its array. */
  function Df2Step(b: seq<real>, a: seq<real>, w: seq<real>, x: real): (r: Option<(real, seq<real>)>)
    requires |w| == |b|
    ensures r.Some? <==> |a| >= 2 && |b| >= 2
    ensures r.Some? ==> |r.value.1| == |w| && r.value.1[0] == r.value.1[1]
    ensures r.Some? ==> forall i :: 2 <= i < |w| ==> r.value.1[i] == w[i]
  {
    if |a| < 2 || |b| < 2 then None
    else
      var w0 := x - a[1] * w[1];
      var y := b[0] * w0 + b[1] * w[1];
      Some((y, w[0 := w0][1 := w0]))
  }

  /** The exported step is the general order-1 direct form II step on `b[0..2]`
      and `a[1]`, with `w[1]` as its delay line: coefficients beyond index 1
      are never used. */
  lemma Df2StepIsOrderOne(b: seq<real>, a: seq<real>, w: seq<real>, x: real)
    requires |w| == |b| && |a| >= 2 && |b| >= 2
    ensures var r := Df2Step(b, a, w, x).value;
            var s := DirectForm.Step(b[..2], [a[1]], 1, DirectForm.FilterState([w[1]], 0.0), x);
            r.0 == s.0 && [r.1[1]] == s.1.state
  {
    var st := DirectForm.FilterState([w[1]], 0.0);
    assert DirectForm.Dot([a[1]], st.state, 1) == a[1] * w[1];
    assert b[..2][1..] == [b[1]];
    assert DirectForm.Dot(b[..2][1..], st.state, 1) == b[1] * w[1];
  }

  /** Feeding samples to the direct form step, one call each. */
  function Df2Run(b: seq<real>, a: seq<real>, w: seq<real>, xs: seq<real>): (r: Option<(seq<real>, seq<real>)>)
    requires |w| == |b|
    ensures r.Some? ==> |r.value.0| == |xs| && |r.value.1| == |w|
  {
    if |xs| == 0 then Some(([], w))
    else
      match Df2Run(b, a, w, xs[..|xs| - 1])
      case None => None
      case Some(prev) =>
        match Df2Step(b, a, prev.1, xs[|xs| - 1])
        case None => None
        case Some(step) => Some((prev.0 + [step.0], step.1))
  }

  /** The coefficients the file itself uses, `b = [1, -1]`, `a = [1, -0.5]`:
      from `filter_init`, the inputs 1 then 0 give 1 then -0.5. */
  lemma Df2Example()
    ensures Df2Run([1.0, -1.0], [1.0, -0.5], InitW([1.0, -1.0]), [1.0, 0.0]) == Some(([1.0, -0.5], [0.5, 0.5]))
  {
    var b, a := [1.0, -1.0], [1.0, -0.5];
    var w := InitW(b);
    assert w == [0.0, 0.0];
    assert w[0 := 1.0][1 := 1.0] == [1.0, 1.0];
    assert [1.0, 1.0][0 := 0.5][1 := 0.5] == [0.5, 0.5];
    assert [1.0, 0.0][..1] == [1.0];
    assert [1.0][..0] == [];
    var s1 := Df2Step(b, a, w, 1.0);
    assert s1.value.0 == 1.0;
    assert s1.value.1 == [1.0, 1.0];
    var s2 := Df2Step(b, a, [1.0, 1.0], 0.0);
    assert s2.value.0 == -0.5;
    assert s2.value.1 == [0.5, 0.5];
    assert s1 == Some((1.0, [1.0, 1.0]));
    assert s2 == Some((-0.5, [0.5, 0.5]));
    var xs1: seq<real> := [1.0];
    assert xs1[..0] == [];
    assert Df2Run(b, a, w, xs1[..0]) == Some(([], w));
    assert ([] + [1.0]) == [1.0];
    assert [1.0] + [-0.5] == [1.0, -0.5];
    assert Df2Run(b, a, w, xs1) == Some(([1.0], [1.0, 1.0]));
  }

  // ---------------------------------------------------------------------------
  // Cascade of transposed biquads

  /** One entry of `coefficients["sections"]`. */
  datatype Biquad = Biquad(b: seq<real>, a: seq<real>)

  /** One row of `float b[NUM_SECTIONS][3]`: a brace list of at most three
      values, zero-filled by C; more than three initialisers do not fit. */
  function Row3(s: seq<real>): (r: Option<seq<real>>)
    ensures r.Some? <==> |s| <= 3
    ensures r.Some? ==> |r.value| == 3 && r.value[..|s|] == s
    ensures r.Some? ==> forall i :: |s| <= i < 3 ==> r.value[i] == 0.0
  {
    if |s| > 3 then None else Some(s + seq(3 - |s|, _ => 0.0))
  }

  /** The coefficient arrays: `NUM_SECTIONS = len(sections)` rows, row `i`
      holding section `i`'s `b` (or `a`) values in order. */
  datatype Arrays = Arrays(numSections: nat, b: seq<seq<real>>, a: seq<seq<real>>)

  predicate WellShaped(arr: Arrays) {
    && |arr.b| == arr.numSections && |arr.a| == arr.numSections
    && (forall i :: 0 <= i < arr.numSections ==> |arr.b[i]| == 3)
    && (forall i :: 0 <= i < arr.numSections ==> |arr.a[i]| == 3)
  }

  function Rows(sections: seq<Biquad>, useB: bool): (r: Option<seq<seq<real>>>)
    ensures r.Some? <==> forall i :: 0 <= i < |sections| ==> |(if useB then sections[i].b else sections[i].a)| <= 3
    ensures r.Some? ==> |r.value| == |sections|
    ensures r.Some? ==> forall i :: 0 <= i < |sections| ==>
      Row3(if useB then sections[i].b else sections[i].a) == Some(r.value[i])
  {
    if |sections| == 0 then Some([])
    else
      var last := sections[|sections| - 1];
      match Rows(sections[..|sections| - 1], useB)
      case None => None
      case Some(front) =>
        match Row3(if useB then last.b else last.a)
        case None => None
        case Some(row) => Some(front + [row])
  }

  function GenerateArrays(sections: seq<Biquad>): (r: Option<Arrays>)
    ensures r.Some? ==> r.value.numSections == |sections| && WellShaped(r.value)
    ensures r.Some? <==> forall i :: 0 <= i < |sections| ==> |sections[i].b| <= 3 && |sections[i].a| <= 3
    ensures r.Some? ==> forall i :: 0 <= i < |sections| ==>
      r.value.b[i][..|sections[i].b|] == sections[i].b && r.value.a[i][..|sections[i].a|] == sections[i].a
  {
    match (Rows(sections, true), Rows(sections, false))
    case (Some(bs), Some(as_)) => Some(Arrays(|sections|, bs, as_))
    case _ => None
  }

  /** One transposed biquad: `y = b0*x + w0`, `w0 = b1*x - a1*y + w1`,
      `w1 = b2*x - a2*y`. */
  function Biquad3(b: seq<real>, a: seq<real>, w: seq<real>, x: real): (r: (real, seq<real>))
    requires |b| == 3 && |a| == 3 && |w| == 2
    ensures |r.1| == 2
  {
    var y := b[0] * x + w[0];
    (y, [b[1] * x - a[1] * y + w[1], b[2] * x - a[2] * y])
  }

  /** The first `k` iterations of the section loop: the input of each section
      is the output of the one before. */
  function BiquadChain(arr: Arrays, w: seq<seq<real>>, x: real, k: nat): (r: (real, seq<seq<real>>))
    requires WellShaped(arr) && k <= arr.numSections
    requires |w| == arr.numSections && forall i :: 0 <= i < |w| ==> |w[i]| == 2
    ensures |r.1| == |w| && forall i :: 0 <= i < |w| ==> |r.1[i]| == 2
    ensures forall i :: k <= i < |w| ==> r.1[i] == w[i]
  {
    if k == 0 then (x, w)
    else
      var prev := BiquadChain(arr, w, x, k - 1);
      var out := Biquad3(arr.b[k - 1], arr.a[k - 1], prev.1[k - 1], prev.0);
      (out.0, prev.1[k - 1 := out.1])
  }

  /** `filter_process` of the cascade, as its loop runs: section `i` reads its
      input from `x`, updates only row `i` of `w`, and leaves its output in `x`. */
  method CascadeProcess(arr: Arrays, w: seq<seq<real>>, input: real) returns (y: real, next: seq<seq<real>>)
    requires WellShaped(arr)
    requires |w| == arr.numSections && forall i :: 0 <= i < |w| ==> |w[i]| == 2
    ensures (y, next) == BiquadChain(arr, w, input, arr.numSections)
  {
    var x := input;
    next := w;
    var i := 0;
    while i < arr.numSections
      invariant 0 <= i <= arr.numSections
      invariant (x, next) == BiquadChain(arr, w, input, i)
    {
      var out := Biquad3(arr.b[i], arr.a[i], next[i], x);
      next := next[i := out.1];
      x := out.0;
      i := i + 1;
    }
    y := x;
  }

  /** Section `k` changes row `k` only. */
  lemma BiquadTouchesOwnRow(arr: Arrays, w: seq<seq<real>>, x: real, k: nat)
    requires WellShaped(arr) && k < arr.numSections
    requires |w| == arr.numSections && forall i :: 0 <= i < |w| ==> |w[i]| == 2
    ensures forall j :: 0 <= j < |w| && j != k ==>
      BiquadChain(arr, w, x, k + 1).1[j] == BiquadChain(arr, w, x, k).1[j]
  {
  }

  /** The product of the `b[i][0]` of the first `k` rows. */
  function B0Product(arr: Arrays, k: nat): real
    requires WellShaped(arr) && k <= arr.numSections
  {
    if k == 0 then 1.0 else B0Product(arr, k - 1) * arr.b[k - 1][0]
  }

  /** The arrays are well shaped and `w` is the all-zero state of
      `filter_init`, one row of two cells per section. */
  predicate ZeroStart(arr: Arrays, w: seq<seq<real>>) {
    && WellShaped(arr)
    && |w| == arr.numSections
    && forall i :: 0 <= i < |w| ==> w[i] == [0.0, 0.0]
  }

  /** From the all-zero `w` that `filter_init` leaves, the first output is the
      input times the product of every section's `b[i][0]`. */
  lemma FirstCascadeOutput(arr: Arrays, w: seq<seq<real>>, x: real, k: nat)
    requires ZeroStart(arr, w) && k <= arr.numSections
    ensures BiquadChain(arr, w, x, k).0 == x * B0Product(arr, k)
  {
    ChainIsScaled(arr, w, x, k);
    ScaledIsProduct(arr, x, k);
  }

  /** The input scaled by the `b[0]` of the first `k` sections, one after
      the other. */
  function Scaled(arr: Arrays, x: real, k: nat): real
    requires WellShaped(arr) && k <= arr.numSections
  {
    if k == 0 then x else Scaled(arr, x, k - 1) * arr.b[k - 1][0]
  }

  /** From the zero state every section only scales what reaches it. */
  lemma {:induction false} ChainIsScaled(arr: Arrays, w: seq<seq<real>>, x: real, k: nat)
    requires ZeroStart(arr, w) && k <= arr.numSections
    ensures BiquadChain(arr, w, x, k).0 == Scaled(arr, x, k)
  {
    if k > 0 {
      ChainIsScaled(arr, w, x, k - 1);
      ChainScales(arr, w, x, k);
    }
  }

  /** Scaling one section at a time is scaling by the product. */
  lemma {:induction false} ScaledIsProduct(arr: Arrays, x: real, k: nat)
    requires WellShaped(arr) && k <= arr.numSections
    ensures Scaled(arr, x, k) == x * B0Product(arr, k)
  {
    if k > 0 {
      ScaledIsProduct(arr, x, k - 1);
      ScaleStep(Scaled(arr, x, k), Scaled(arr, x, k - 1), x,
        B0Product(arr, k - 1), arr.b[k - 1][0], B0Product(arr, k));
    }
  }

  /** One more factor on both sides of `out == x * p`. */
  lemma ScaleStep(out: real, prev: real, x: real, p: real, c: real, pc: real)
    requires prev == x * p && out == prev * c && pc == p * c
    ensures out == x * pc
  {
  }

  /** With its row still zero, section `k - 1` multiplies its input by its
      `b[0]`. */
  lemma ChainScales(arr: Arrays, w: seq<seq<real>>, x: real, k: nat)
    requires ZeroStart(arr, w) && 0 < k <= arr.numSections
    ensures BiquadChain(arr, w, x, k).0 == BiquadChain(arr, w, x, k - 1).0 * arr.b[k - 1][0]
  {
    var prev := BiquadChain(arr, w, x, k - 1);
    ChainLast(arr, w, x, k);
    ZeroStateScales(arr.b[k - 1], arr.a[k - 1], prev.1[k - 1], prev.0);
  }

  /** The chain's output after `k` sections is section `k - 1`'s output on
      what the first `k - 1` sections hand it. */
  lemma ChainLast(arr: Arrays, w: seq<seq<real>>, x: real, k: nat)
    requires ZeroStart(arr, w) && 0 < k <= arr.numSections
    ensures var prev := BiquadChain(arr, w, x, k - 1);
            && prev.1[k - 1] == [0.0, 0.0]
            && BiquadChain(arr, w, x, k).0 == Biquad3(arr.b[k - 1], arr.a[k - 1], prev.1[k - 1], prev.0).0
  {
  }

  /** From a zero state a biquad's output is its input times `b[0]`. */
  lemma ZeroStateScales(b: seq<real>, a: seq<real>, w: seq<real>, x: real)
    requires |b| == 3 && |a| == 3 && w == [0.0, 0.0]
    ensures Biquad3(b, a, w, x).0 == x * b[0]
  {
  }

  // ---------------------------------------------------------------------------
  // A single biquad obeys its difference equation

  /** A value of a signal `k` samples back, zero before the start. */
  function Back(s: seq<real>, k: nat): real {
    if k <= |s| && k >= 1 then s[|s| - k] else 0.0
  }

  /** One biquad section fed sample by sample from the state `w`. */
  function BiquadRun(b: seq<real>, a: seq<real>, w: seq<real>, xs: seq<real>): (r: (seq<real>, seq<real>))
    requires |b| == 3 && |a| == 3 && |w| == 2
    ensures |r.0| == |xs| && |r.1| == 2
  {
    if |xs| == 0 then ([], w)
    else
      var prev := BiquadRun(b, a, w, xs[..|xs| - 1]);
      var out := Biquad3(b, a, prev.1, xs[|xs| - 1]);
      (prev.0 + [out.0], out.1)
  }

  /** What the two state cells hold after the inputs `xs` produced the outputs `ys`. */
  predicate StateMatches(b: seq<real>, a: seq<real>, w: seq<real>, xs: seq<real>, ys: seq<real>)
    requires |b| == 3 && |a| == 3 && |w| == 2
  {
    && w[0] == b[1] * Back(xs, 1) - a[1] * Back(ys, 1) + b[2] * Back(xs, 2) - a[2] * Back(ys, 2)
    && w[1] == b[2] * Back(xs, 1) - a[2] * Back(ys, 1)
  }

  /** The newest output is `b0 x[n] + b1 x[n-1] + b2 x[n-2] - a1 y[n-1] - a2 y[n-2]`. */
  predicate LastOutputFollows(b: seq<real>, a: seq<real>, xs: seq<real>, ys: seq<real>)
    requires |b| == 3 && |a| == 3 && |xs| == |ys| > 0
  {
    var px, py := xs[..|xs| - 1], ys[..|ys| - 1];
    ys[|ys| - 1] == b[0] * xs[|xs| - 1] + b[1] * Back(px, 1) + b[2] * Back(px, 2)
                    - a[1] * Back(py, 1) - a[2] * Back(py, 2)
  }

  /** From `filter_init`, every output of a section satisfies
      `y[n] = b0 x[n] + b1 x[n-1] + b2 x[n-2] - a1 y[n-1] - a2 y[n-2]`. */
  lemma {:induction false} BiquadDifferenceEquation(b: seq<real>, a: seq<real>, xs: seq<real>)
    requires |b| == 3 && |a| == 3
    ensures StateMatches(b, a, BiquadRun(b, a, [0.0, 0.0], xs).1, xs, BiquadRun(b, a, [0.0, 0.0], xs).0)
    ensures |xs| > 0 ==> LastOutputFollows(b, a, xs, BiquadRun(b, a, [0.0, 0.0], xs).0)
  {
    if |xs| > 0 {
      var front, x := xs[..|xs| - 1], xs[|xs| - 1];
      assert xs == front + [x];
      BiquadDifferenceEquation(b, a, front);
      var prev := BiquadRun(b, a, [0.0, 0.0], front);
      var out := Biquad3(b, a, prev.1, x);
      RunSnoc(b, a, [0.0, 0.0], front, x);
      StepKeepsMatch(b, a, prev.1, front, prev.0, x);
      StepFollows(b, a, prev.1, front, prev.0, x);
    }
  }

  /** One step from a state that matches the history keeps it matching. */
  lemma StepKeepsMatch(b: seq<real>, a: seq<real>, w: seq<real>, xs: seq<real>, ys: seq<real>, x: real)
    requires |b| == 3 && |a| == 3 && |w| == 2
    requires StateMatches(b, a, w, xs, ys)
    ensures var out := Biquad3(b, a, w, x);
            StateMatches(b, a, out.1, xs + [x], ys + [out.0])
  {
    BiquadStepFollows(b, a, w, xs, ys, x);
  }

  /** One step from a state that matches the history outputs what the
      difference equation gives. */
  lemma StepFollows(b: seq<real>, a: seq<real>, w: seq<real>, xs: seq<real>, ys: seq<real>, x: real)
    requires |b| == 3 && |a| == 3 && |w| == 2 && |xs| == |ys|
    requires StateMatches(b, a, w, xs, ys)
    ensures var out := Biquad3(b, a, w, x);
            LastOutputFollows(b, a, xs + [x], ys + [out.0])
  {
    var out := Biquad3(b, a, w, x);
    BiquadStepFollows(b, a, w, xs, ys, x);
    FollowsFromStep(b, a, xs, ys, x, out.0);
  }

  /** One more input runs one more step after the earlier ones. */
  lemma RunSnoc(b: seq<real>, a: seq<real>, w: seq<real>, xs: seq<real>, x: real)
    requires |b| == 3 && |a| == 3 && |w| == 2
    ensures var prev := BiquadRun(b, a, w, xs);
            var out := Biquad3(b, a, prev.1, x);
            BiquadRun(b, a, w, xs + [x]) == (prev.0 + [out.0], out.1)
  {
    assert (xs + [x])[..|xs|] == xs;
  }

  /** An output given by the difference equation makes the extended signals
      satisfy `LastOutputFollows`. */
  lemma FollowsFromStep(b: seq<real>, a: seq<real>, xs: seq<real>, ys: seq<real>, x: real, y: real)
    requires |b| == 3 && |a| == 3 && |xs| == |ys|
    requires y == b[0] * x + b[1] * Back(xs, 1) + b[2] * Back(xs, 2) - a[1] * Back(ys, 1) - a[2] * Back(ys, 2)
    ensures LastOutputFollows(b, a, xs + [x], ys + [y])
  {
    assert (xs + [x])[..|xs|] == xs;
    assert (ys + [y])[..|ys|] == ys;
  }

  /** One step from a state that matches the history keeps it matching, and
      its output is the difference equation's. */
  lemma BiquadStepFollows(b: seq<real>, a: seq<real>, w: seq<real>, xs: seq<real>, ys: seq<real>, x: real)
    requires |b| == 3 && |a| == 3 && |w| == 2
    requires StateMatches(b, a, w, xs, ys)
    ensures var out := Biquad3(b, a, w, x);
            && StateMatches(b, a, out.1, xs + [x], ys + [out.0])
            && out.0 == b[0] * x + b[1] * Back(xs, 1) + b[2] * Back(xs, 2) - a[1] * Back(ys, 1) - a[2] * Back(ys, 2)
  {
    var out := Biquad3(b, a, w, x);
    BackSnoc(xs, x);
    BackSnoc(ys, out.0);
  }

  /** Appending a sample moves every older sample one step further back. */
  lemma BackSnoc(s: seq<real>, v: real)
    ensures Back(s + [v], 1) == v && Back(s + [v], 2) == Back(s, 1)
  {
  }
}

=== FILE: filter_model.dfy ===
/** `Filter`: the zero/pole/gain description of the designed filter, its
    transfer-function coefficients, the saved-file field mapping, and the
    subscriber fan-out that tells plots and lists about every change. */
module FilterModel {
  import opened ComplexArith
  import opened Poly
  import opened ZPlane

  /** A registered callback; callbacks are opaque, so only their identity matters. */
  datatype Callback = Callback(id: nat)

  datatype Filter = Filter(zeros: seq<Complex>, poles: seq<Complex>, gain: real, subscribers: seq<Callback>)

  /** One invocation `callback(filter)`, recording the filter as the callback sees it. */
  datatype Call = Call(callback: Callback, arg: Filter)

  function NewFilter(): (f: Filter)
    ensures f.zeros == [] && f.poles == [] && f.gain == 1.0 && f.subscribers == []
  {
    Filter([], [], 1.0, [])
  }

  /** `subscribe`: registration order is kept. */
  function Subscribe(f: Filter, cb: Callback): (g: Filter)
    ensures g.subscribers == f.subscribers + [cb]
    ensures g.zeros == f.zeros && g.poles == f.poles && g.gain == f.gain
  {
    f.(subscribers := f.subscribers + [cb])
  }

  /** The calls `notify_subscribers` makes for the callbacks `subs`, each
      passed the same filter `f`. */
  function Notify(subs: seq<Callback>, f: Filter): (calls: seq<Call>)
    ensures |calls| == |subs|
    ensures forall i :: 0 <= i < |subs| ==> calls[i] == Call(subs[i], f)
  {
    if |subs| == 0 then []
    else Notify(subs[..|subs| - 1], f) + [Call(subs[|subs| - 1], f)]
  }

  /** `notify_subscribers`: every registered callback exactly once, in
      registration order, with the filter itself. */
  function NotifySubscribers(f: Filter): (calls: seq<Call>)
    ensures |calls| == |f.subscribers|
    ensures forall i :: 0 <= i < |calls| ==> calls[i].callback == f.subscribers[i] && calls[i].arg == f
  {
    Notify(f.subscribers, f)
  }

  // ---------------------------------------------------------------------------
  // Transfer function

  function ScaleAll(k: real, p: seq<Complex>): (q: seq<Complex>)
    ensures |q| == |p|
    ensures forall i :: 0 <= i < |p| ==> q[i] == Scale(k, p[i])
  {
    seq(|p|, i requires 0 <= i < |p| => Scale(k, p[i]))
  }

  /** `get_transfer_function`: the numerator is the monic polynomial with the
      zeros as roots scaled by `gain`, or `[gain]` without zeros; the
      denominator is the monic polynomial of the poles, or `[1.0]` without poles. */
  function TransferFunction(f: Filter): (ba: (seq<Complex>, seq<Complex>))
    ensures |f.zeros| == 0 ==> ba.0 == [OfReal(f.gain)]
    ensures |f.poles| == 0 ==> ba.1 == [One]
    ensures |ba.0| == |f.zeros| + 1 && ba.0[0] == OfReal(f.gain)
    ensures |ba.1| == |f.poles| + 1 && ba.1[0] == One
  {
    var b := if |f.zeros| == 0 then [OfReal(f.gain)] else ScaleAll(f.gain, Expand(f.zeros));
    var a := if |f.poles| == 0 then [One] else Expand(f.poles);
    (b, a)
  }

  /** One zero `z` gives the numerator `[gain, -gain·z]`, one pole `p` the
      denominator `[1, -p]`. */
  lemma SingleRootTransferFunction(f: Filter)
    requires |f.zeros| == 1 && |f.poles| == 1
    ensures TransferFunction(f).0 == [OfReal(f.gain), Scale(f.gain, Neg(f.zeros[0]))]
    ensures TransferFunction(f).1 == [One, Neg(f.poles[0])]
  {
    var z, g := f.zeros[0], f.gain;
    assert f.zeros == [z];
    assert f.poles == [f.poles[0]];
    ExpandSingle(z);
    ExpandSingle(f.poles[0]);
    ScaleAllPair(g, One, Neg(z));
  }

  lemma ScaleAllPair(k: real, a: Complex, b: Complex)
    ensures ScaleAll(k, [a, b]) == [Scale(k, a), Scale(k, b)]
    ensures Scale(k, One) == OfReal(k)
  {
  }

  /** The coefficients do not depend on the order the roots are listed in. */
  lemma TransferFunctionOrderFree(f: Filter, g: Filter)
    requires multiset(f.zeros) == multiset(g.zeros) && multiset(f.poles) == multiset(g.poles)
    requires f.gain == g.gain
    ensures TransferFunction(f) == TransferFunction(g)
  {
    ExpandPermutation(f.zeros, g.zeros);
    ExpandPermutation(f.poles, g.poles);
  }

  /** Conjugate-closed zeros and poles give real coefficients on both sides. */
  lemma RealCoefficients(f: Filter)
    requires ConjugateClosed(f.zeros) && ConjugateClosed(f.poles)
    ensures forall k :: 0 <= k < |TransferFunction(f).0| ==> TransferFunction(f).0[k].im == 0.0
    ensures forall k :: 0 <= k < |TransferFunction(f).1| ==> TransferFunction(f).1[k].im == 0.0
  {
    ConjugateClosedExpandsReal(f.zeros);
    ConjugateClosedExpandsReal(f.poles);
  }

  // ---------------------------------------------------------------------------
  // Saved files

  /** The data of a `.dsp` file: `(re, im)` pairs in list order and the gain. */
  datatype Document = Document(zeros: seq<(real, real)>, poles: seq<(real, real)>, gain: real)

  function ToPairs(zs: seq<Complex>): (ps: seq<(real, real)>)
    ensures |ps| == |zs|
    ensures forall i :: 0 <= i < |zs| ==> ps[i] == (zs[i].re, zs[i].im)
  {
    seq(|zs|, i requires 0 <= i < |zs| => (zs[i].re, zs[i].im))
  }

  function FromPairs(ps: seq<(real, real)>): (zs: seq<Complex>)
    ensures |zs| == |ps|
    ensures forall i :: 0 <= i < |ps| ==> zs[i] == Complex(ps[i].0, ps[i].1)
  {
    seq(|ps|, i requires 0 <= i < |ps| => Complex(ps[i].0, ps[i].1))
  }

  /** `save_to_file`, without the file itself. */
  function Save(f: Filter): (d: Document)
    ensures |d.zeros| == |f.zeros| && |d.poles| == |f.poles| && d.gain == f.gain
  {
    Document(ToPairs(f.zeros), ToPairs(f.poles), f.gain)
  }

  /** `load_from_file` replaces the three fields, keeps the subscribers, and
      then notifies them once, with the loaded filter. */
  function Load(f: Filter, d: Document): (r: (Filter, seq<Call>))
    ensures r.0.subscribers == f.subscribers && r.0.gain == d.gain
    ensures |r.0.zeros| == |d.zeros| && |r.0.poles| == |d.poles|
    ensures r.1 == NotifySubscribers(r.0)
  {
    var g := f.(zeros := FromPairs(d.zeros), poles := FromPairs(d.poles), gain := d.gain);
    (g, NotifySubscribers(g))
  }

  /** Saving and loading gives back the same zeros, poles and gain, and the
      subscribers of the loading filter each see that filter once. */
  lemma SaveLoadRoundTrip(f: Filter, into: Filter)
    ensures Load(into, Save(f)).0 == f.(subscribers := into.subscribers)
    ensures |Load(into, Save(f)).1| == |into.subscribers|
  {
    var g := Load(into, Save(f)).0;
    assert g.zeros == f.zeros;
    assert g.poles == f.poles;
  }

  /** Loading a saved file and saving it again writes the same data. */
  lemma LoadSaveRoundTrip(into: Filter, d: Document)
    ensures Save(Load(into, d).0) == d
  {
    var g := Load(into, d).0;
    assert ToPairs(g.zeros) == d.zeros;
    assert ToPairs(g.poles) == d.poles;
  }

  // ---------------------------------------------------------------------------
  // From the z-plane editor

  /** `update_from_zplane`: every element's position in list order, phantoms
      included, then one notification. */
  function UpdateFromZPlane(f: Filter, zeros: seq<Element>, poles: seq<Element>): (r: (Filter, seq<Call>))
    ensures |r.0.zeros| == |zeros| && |r.0.poles| == |poles|
    ensures forall i :: 0 <= i < |zeros| ==> r.0.zeros[i] == zeros[i].position
    ensures forall i :: 0 <= i < |poles| ==> r.0.poles[i] == poles[i].position
    ensures r.0.gain == f.gain && r.0.subscribers == f.subscribers
    ensures r.1 == NotifySubscribers(r.0)
  {
    var g := f.(zeros := Positions(zeros), poles := Positions(poles));
    (g, NotifySubscribers(g))
  }

  /** The positions of a paired list are closed under conjugation. */
  lemma {:induction false} PairedPositionsClosed(elems: seq<Element>)
    requires PairedLayout(elems)
    ensures ConjugateClosed(Positions(elems))
    decreases |elems|
  {
    if |elems| > 0 {
      var n := |elems|;
      var front := elems[..n - 2];
      PairedFront(elems);
      PairedPositionsClosed(front);
      var x := elems[n - 2].position;
      assert Positions(elems) == Positions(front) + [x, Conj(x)] by {
        assert WellPlaced(elems, n - 1);
        assert elems == front + [elems[n - 2], elems[n - 1]];
        PositionsSnoc(front, elems[n - 2], elems[n - 1]);
      }
      ConjPairClosed(Positions(front), x);
    }
  }

  /** Dropping the last pair keeps the layout. */
  lemma PairedFront(elems: seq<Element>)
    requires PairedLayout(elems) && |elems| > 0
    ensures |elems| >= 2 && PairedLayout(elems[..|elems| - 2])
  {
    var front := elems[..|elems| - 2];
    forall i | 0 <= i < |front|
      ensures WellPlaced(front, i)
    {
      assert WellPlaced(elems, i);
      if i % 2 != 0 {
        assert front[i - 1] == elems[i - 1];
      }
    }
  }

  lemma PositionsSnoc(front: seq<Element>, a: Element, b: Element)
    ensures Positions(front + [a, b]) == Positions(front) + [a.position, b.position]
  {
  }

  /** Appending a value and its conjugate keeps a list conjugate-closed. */
  lemma ConjPairClosed(ps: seq<Complex>, x: Complex)
    requires ConjugateClosed(ps)
    ensures ConjugateClosed(ps + [x, Conj(x)])
  {
    var qs := ps + [x, Conj(x)];
    assert ConjAll(qs) == ConjAll(ps) + [Conj(x), Conj(Conj(x))];
    ConjInvolutive(x);
    assert multiset(ConjAll(qs)) == multiset(ConjAll(ps)) + multiset{Conj(x), x};
    assert multiset(qs) == multiset(ps) + multiset{x, Conj(x)};
  }

  /** An editor whose lists are in the paired layout feeds a filter with real
      transfer-function coefficients. Adding, drag steps, undo/redo, the toggle
      and the corrected release keep that layout; the release as written does
      not, and `AsWrittenReleaseFeedsComplexFilter` shows the consequence. */
  lemma EditorFilterIsReal(f: Filter, zeros: seq<Element>, poles: seq<Element>)
    requires PairedLayout(zeros) && PairedLayout(poles)
    ensures var tf := TransferFunction(UpdateFromZPlane(f, zeros, poles).0);
            (forall k :: 0 <= k < |tf.0| ==> tf.0[k].im == 0.0)
            && (forall k :: 0 <= k < |tf.1| ==> tf.1[k].im == 0.0)
  {
    var g := UpdateFromZPlane(f, zeros, poles).0;
    assert g.zeros == Positions(zeros);
    assert g.poles == Positions(poles);
    PairedPositionsClosed(zeros);
    PairedPositionsClosed(poles);
    RealCoefficients(g);
  }

  /** The release as written can feed a filter whose numerator is not real: one
      zero placed at `p` and released at `q` leaves its phantom at conj(p), so
      the numerator ends in gain·q·conj(p), which `StaleProduct` evaluates for
      a zero placed at i and released at 1 + i. */
  lemma AsWrittenReleaseFeedsComplexFilter(f: Filter, poles: seq<Element>, p: Complex, q: Complex)
    ensures var zeros := ReleaseAsWritten(AddElement([], p), 0, q);
            zeros.Some?
            && TransferFunction(UpdateFromZPlane(f, zeros.value, poles).0).0[2] == Scale(f.gain, Mul(q, Conj(p)))
  {
    var zeros := ReleaseAsWritten(AddElement([], p), 0, q).value;
    ReleasedPositions(p, q);
    var g := UpdateFromZPlane(f, zeros, poles).0;
    assert g.zeros == [q, Conj(p)] && g.gain == f.gain by {
      assert g.zeros == Positions(zeros);
    }
    TwoZeroNumerator(g);
  }

  /** The constant coefficient for a zero at 1 + i and a stale phantom at -i is
      gain·(1 - i), not real for a non-zero gain. */
  lemma StaleProduct(gain: real)
    ensures Scale(gain, Mul(Complex(1.0, 1.0), Conj(Complex(0.0, 1.0)))) == Complex(gain, -gain)
  {
    assert Mul(Complex(1.0, 1.0), Conj(Complex(0.0, 1.0))) == Complex(1.0, -1.0);
    assert Scale(gain, Complex(1.0, -1.0)) == Complex(gain * 1.0, gain * -1.0);
  }

  /** With two zeros, the numerator ends in the gain times their product. */
  lemma TwoZeroNumerator(g: Filter)
    requires |g.zeros| == 2
    ensures TransferFunction(g).0[2] == Scale(g.gain, Mul(g.zeros[0], g.zeros[1]))
  {
    assert TransferFunction(g).0 == ScaleAll(g.gain, Expand(g.zeros));
    assert g.zeros == [g.zeros[0], g.zeros[1]];
    ExpandPair(g.zeros[0], g.zeros[1]);
  }

  /** The positions the as-written release leaves: the moved zero and its stale phantom. */
  lemma ReleasedPositions(p: Complex, q: Complex)
    ensures var zeros := ReleaseAsWritten(AddElement([], p), 0, q);
            zeros.Some? && Positions(zeros.value) == [q, Conj(p)]
  {
    var zeros := ReleaseAsWritten(AddElement([], p), 0, q).value;
    assert |zeros| == 2;
    assert zeros[0].position == q;
    assert zeros[1].position == Conj(p);
  }

  /** `np.poly([a, b])` ends in the product of the two roots. */
  lemma ExpandPair(a: Complex, b: Complex)
    ensures Expand([a, b])[2] == Mul(a, b)
  {
    var front := Expand([a]);
    assert Expand([a, b]) == MulLinear(front, b) by {
      assert [a, b] == [a] + [b];
      ExpandSnoc([a], b);
    }
    assert Coef(front, 2) == Zero && Coef(front, 1) == Neg(a) by {
      ExpandSingle(a);
    }
    CoefMulLinear(front, b, 2);
    NegatedProduct(a, b);
  }

  lemma NegatedProduct(a: Complex, b: Complex)
    ensures Sub(Zero, Mul(b, Neg(a))) == Mul(a, b)
  {
  }
}

=== FILE: pi_ticks.dfy ===
/** The π tick labels of the phase plot. `format_pi_ticks` first rounds the
    tick position to a whole number `k` of quarter-π steps; from there on the
    label is integer arithmetic: special texts for 0 and ±π, a whole multiple
    of π, or a fraction reduced by `gcd(|k|, 4)`. */
module PiTicks {
  import opened Wrappers
  import opened Text

  /** Euclid's algorithm, as `math.gcd` computes it for non-negative arguments. */
  function Gcd(a: nat, b: nat): (g: nat)
    ensures b > 0 ==> g > 0
    decreases b
  {
    if b == 0 then a else Gcd(b, a % b)
  }

  function Abs(k: int): nat {
    if k < 0 then -k else k
  }

  /** `gcd(|k|, 4)` for a `k` that is not a multiple of 4: 2 for even `k`, 1 for odd. */
  lemma GcdWithFour(k: int)
    requires k % 4 != 0
    ensures Gcd(Abs(k), 4) == if k % 2 == 0 then 2 else 1
  {
    var m := Abs(k);
    AbsResidues(k);
    var r := m % 4;
    assert Gcd(m, 4) == Gcd(4, r);
    if r == 1 {
      assert Gcd(4, 1) == Gcd(1, 0) == 1;
    } else if r == 2 {
      assert Gcd(4, 2) == Gcd(2, 0) == 2;
    } else {
      assert Gcd(4, 3) == Gcd(3, 1) == Gcd(1, 0) == 1;
    }
  }

  /** `|k|` has the parity of `k` and is a multiple of 4 exactly when `k` is;
      its residue mod 4 is even exactly when `k` is even. */
  lemma AbsResidues(k: int)
    ensures Abs(k) % 2 == k % 2
    ensures Abs(k) % 4 == 0 <==> k % 4 == 0
    ensures Abs(k) % 4 % 2 == k % 2
  {
    var q, r := k / 4, k % 4;
    Residue(k, q, r);
    if k < 0 {
      if r == 0 {
        Residue(-k, -q, 0);
      } else {
        Residue(-k, -q - 1, 4 - r);
      }
    }
  }

  /** `n == 4q + r` with `0 <= r < 4` fixes `n % 4` and `n % 2`. */
  lemma Residue(n: int, q: int, r: int)
    requires n == 4 * q + r && 0 <= r < 4
    ensures n / 4 == q && n % 4 == r && n % 2 == r % 2
  {
    Quotient(n, q, r);
  }

  lemma Quotient(n: int, q: int, r: int)
    requires n == 4 * q + r && 0 <= r < 4
    ensures n / 4 == q
  {
    var d := n / 4 - q;
    assert 4 * d == r - n % 4;
  }

  /** The label for `round(x / π * 4) == k`. The `/` on `int` is exact here
      (the divisor divides `k`), so Python's `//` and Dafny's `/` agree. */
  function PiLabel(k: int): (s: string)
    ensures |s| >= 1
  {
    if k == 0 then "0"
    else if k == 4 then "π"
    else if k == -4 then "-π"
    else if k % 4 == 0 then IntToString(k / 4) + "π"
    else
      var g := Gcd(Abs(k), 4);
      FractionLabel(k / g, 4 / g)
  }

  /** The reduced fraction `n/d` of π, as the last branch writes it. */
  function FractionLabel(n: int, d: int): string {
    if d == 1 then IntToString(n) + "π"
    else if n == 1 then "π/" + IntToString(d)
    else if n == -1 then "-π/" + IntToString(d)
    else IntToString(n) + "π/" + IntToString(d)
  }

  /** Outside the multiples of 4 the reduced denominator is 2 or 4, so the
      whole-number branch of the fraction case is never taken. */
  lemma ReducedFraction(k: int)
    requires k % 4 != 0
    ensures var g := Gcd(Abs(k), 4);
            g > 0 && (4 / g == 2 || 4 / g == 4) && k % g == 0
  {
    GcdWithFour(k);
  }

  // ---------------------------------------------------------------------------
  // The shape of a label

  /** The reduced coefficient and denominator of the quarter count `m > 0`. */
  function QuarterParts(m: nat): (cd: (nat, nat))
    requires m > 0
    ensures cd.0 >= 1 && (cd.1 == 1 || cd.1 == 2 || cd.1 == 4)
    ensures cd.0 * 4 == m * cd.1
  {
    if m % 4 == 0 then (m / 4, 1)
    else
      GcdWithFour(m);
      var g := Gcd(m, 4);
      ReducedParts(m, g);
      (m / g, 4 / g)
  }

  /** Dividing `m` and 4 by their common divisor keeps the ratio. */
  lemma ReducedParts(m: nat, g: nat)
    requires m > 0 && (g == 1 || (g == 2 && m % 2 == 0))
    ensures g > 0 && m / g >= 1 && (m / g) * 4 == m * (4 / g)
  {
    if g == 2 {
      assert m == 2 * (m / 2);
    }
  }

  /** A label without its sign: the coefficient unless it is 1, `π`, and
      `/d` unless `d` is 1. */
  function MagnitudeText(coef: nat, den: nat): string {
    (if coef == 1 then "" else NatToString(coef)) + "π" + (if den == 1 then "" else "/" + NatToString(den))
  }

  lemma IntToStringNeg(n: int)
    requires n < 0
    ensures IntToString(n) == "-" + NatToString(-n)
  {
  }

  /** Every label but "0" is an optional minus sign and the magnitude text of
      the reduced quarter count. */
  lemma LabelShape(k: int)
    requires k != 0
    ensures var cd := QuarterParts(Abs(k));
            PiLabel(k) == (if k < 0 then "-" else "") + MagnitudeText(cd.0, cd.1)
  {
    if k % 4 == 0 {
      WholeLabelShape(k);
    } else {
      FractionLabelShape(k);
    }
  }

  lemma WholeLabelShape(k: int)
    requires k != 0 && k % 4 == 0
    ensures var cd := QuarterParts(Abs(k));
            PiLabel(k) == (if k < 0 then "-" else "") + MagnitudeText(cd.0, cd.1)
  {
    var q := k / 4;
    Residue(k, q, 0);
    if k > 0 {
      Residue(Abs(k), q, 0);
      assert QuarterParts(Abs(k)) == (q, 1);
    } else {
      Residue(Abs(k), -q, 0);
      assert QuarterParts(Abs(k)) == (-q, 1);
      if k < -4 {
        IntToStringNeg(q);
      }
    }
  }

  lemma FractionLabelShape(k: int)
    requires k % 4 != 0
    ensures var cd := QuarterParts(Abs(k));
            PiLabel(k) == (if k < 0 then "-" else "") + MagnitudeText(cd.0, cd.1)
  {
    var m := Abs(k);
    GcdWithFour(k);
    GcdWithFour(m);
    if k % 2 == 0 {
      HalfLabelShape(k);
    } else {
      assert PiLabel(k) == FractionLabel(k, 4);
      assert QuarterParts(m) == (m, 4);
      if k < 0 {
        FractionNegative(m, 4);
      } else {
        FractionPositive(m, 4);
      }
    }
  }

  /** An even count off the multiples of 4 is a count of halves. */
  lemma HalfLabelShape(k: int)
    requires k % 4 != 0 && k % 2 == 0
    ensures var cd := QuarterParts(Abs(k));
            PiLabel(k) == (if k < 0 then "-" else "") + MagnitudeText(cd.0, cd.1)
  {
    var m := Abs(k);
    GcdWithFour(k);
    GcdWithFour(m);
    assert PiLabel(k) == FractionLabel(k / 2, 2);
    assert QuarterParts(m) == (m / 2, 2);
    if k < 0 {
      assert k / 2 == -((m / 2) as int);
      FractionNegative(m / 2, 2);
    } else {
      FractionPositive(m / 2, 2);
    }
  }

  lemma FractionPositive(c: nat, d: nat)
    requires c >= 1 && (d == 2 || d == 4)
    ensures FractionLabel(c, d) == MagnitudeText(c, d)
  {
  }

  lemma FractionNegative(c: nat, d: nat)
    requires c >= 1 && (d == 2 || d == 4)
    ensures FractionLabel(-(c as int), d) == "-" + MagnitudeText(c, d)
  {
    if c != 1 {
      IntToStringNeg(-(c as int));
    }
  }

  /** The label of `-k` is the label of `k` with a leading minus sign. */
  lemma PiLabelOdd(k: int)
    requires k > 0
    ensures PiLabel(-k) == "-" + PiLabel(k)
  {
    PositiveLabel(k);
    NegativeLabel(k);
  }

  lemma PositiveLabel(k: nat)
    requires k > 0
    ensures var cd := QuarterParts(k);
            PiLabel(k) == MagnitudeText(cd.0, cd.1)
  {
    LabelShape(k);
    assert Abs(k) == k;
  }

  lemma NegativeLabel(k: nat)
    requires k > 0
    ensures var cd := QuarterParts(k);
            PiLabel(-(k as int)) == "-" + MagnitudeText(cd.0, cd.1)
  {
    LabelShape(-(k as int));
    assert Abs(-(k as int)) == k;
  }

  // ---------------------------------------------------------------------------
  // Reading a label back

  /** The coefficient text before `π`: empty means 1. */
  function ParseCoef(s: string): Option<nat> {
    if s == "" then Some(1)
    else if AllDigits(s) then Some(DigitsValue(s))
    else None
  }

  /** The text after `π`: empty, `/2` or `/4`. */
  function ParseDen(s: string): Option<nat> {
    if s == "" then Some(1)
    else if s == "/2" then Some(2)
    else if s == "/4" then Some(4)
    else None
  }

  /** The quarter-π count a label stands for, if it is one of the label forms. */
  function ParsePiLabel(s: string): (r: Option<int>)
  {
    if s == "0" then Some(0)
    else
      var neg := |s| > 0 && s[0] == '-';
      match ParseMagnitude(if neg then s[1..] else s)
      case Some(m) => Some(if neg then -m else m)
      case None => None
  }

  /** The quarter-π count of a label without its sign. */
  function ParseMagnitude(body: string): Option<int> {
    var parts := Split(body, 'π');
    if |parts| != 2 then None
    else
      match (ParseCoef(parts[0]), ParseDen(parts[1]))
      case (Some(c), Some(d)) => Some(c * 4 / d)
      case _ => None
  }

  lemma NoPiInDigits(s: string)
    requires AllDigits(s)
    ensures 'π' !in s
  {
    forall i | 0 <= i < |s| ensures s[i] != 'π' {
      assert IsDigit(s[i]);
    }
  }

  lemma DenText(den: nat)
    requires den == 1 || den == 2 || den == 4
    ensures var r := if den == 1 then "" else "/" + NatToString(den);
            'π' !in r && ParseDen(r) == Some(den)
  {
    if den == 2 {
      assert NatToString(2) == "2";
      assert "/" + NatToString(2) == "/2";
    } else if den == 4 {
      assert NatToString(4) == "4";
      assert "/" + NatToString(4) == "/4";
    }
  }

  /** The magnitude text splits at `π` into its two parts, and they read back. */
  lemma MagnitudeReads(coef: nat, den: nat)
    requires coef >= 1 && (den == 1 || den == 2 || den == 4)
    ensures var t := MagnitudeText(coef, den);
            |t| >= 1 && t[0] != '-' && t != "0"
    ensures var parts := Split(MagnitudeText(coef, den), 'π');
            |parts| == 2 && ParseCoef(parts[0]) == Some(coef) && ParseDen(parts[1]) == Some(den)
  {
    var c := if coef == 1 then "" else NatToString(coef);
    var r := if den == 1 then "" else "/" + NatToString(den);
    var t := MagnitudeText(coef, den);
    if coef != 1 {
      NoPiInDigits(c);
      assert t[0] == c[0] && IsDigit(c[0]);
    } else {
      assert t[0] == 'π';
    }
    DenText(den);
    assert t[|c|] == 'π';
    assert Join([c, r], 'π') == t;
    SplitJoin([c, r], 'π');
  }

  /** Every label reads back as the quarter count it was made from: distinct
      ticks never share a label. */
  lemma ParsePiLabelRoundTrip(k: int)
    ensures ParsePiLabel(PiLabel(k)) == Some(k)
  {
    if k != 0 {
      var cd := QuarterParts(Abs(k));
      LabelShape(k);
      MagnitudeReads(cd.0, cd.1);
      SignedReads(k < 0, MagnitudeText(cd.0, cd.1), cd.0, cd.1);
      QuarterValue(Abs(k));
    }
  }

  /** The reduced parts still denote `m` quarters. */
  lemma QuarterValue(m: nat)
    requires m > 0
    ensures QuarterParts(m).0 * 4 / QuarterParts(m).1 == m
  {
    var cd := QuarterParts(m);
    if cd.1 == 1 {
    } else if cd.1 == 2 {
      assert cd.0 * 4 == m * 2;
    } else {
      assert cd.0 * 4 == m * 4;
    }
  }

  /** A magnitude text that reads back, with or without a minus sign before it. */
  lemma SignedReads(neg: bool, t: string, coef: nat, den: nat)
    requires |t| >= 1 && t[0] != '-' && t != "0" && den > 0
    requires var parts := Split(t, 'π');
             |parts| == 2 && ParseCoef(parts[0]) == Some(coef) && ParseDen(parts[1]) == Some(den)
    ensures var m: int := coef * 4 / den;
            ParsePiLabel((if neg then "-" else "") + t) == Some(if neg then -m else m)
  {
    var m: int := coef * 4 / den;
    assert ParseMagnitude(t) == Some(m);
    if neg {
      MinusReads(t, m);
    } else {
      PlainReads(t, m);
      assert "" + t == t;
    }
  }

  /** A magnitude text without a sign reads as itself. */
  lemma PlainReads(t: string, m: int)
    requires |t| >= 1 && t[0] != '-' && t != "0" && ParseMagnitude(t) == Some(m)
    ensures ParsePiLabel(t) == Some(m)
  {
  }

  /** A minus sign before a magnitude text negates what it reads as. */
  lemma MinusReads(t: string, m: int)
    requires |t| >= 1 && ParseMagnitude(t) == Some(m)
    ensures ParsePiLabel("-" + t) == Some(-m)
  {
    var s := "-" + t;
    assert s[0] == '-' && s != "0" && s[1..] == t;
  }

  /** The labels the source singles out. */
  lemma SpecialLabels()
    ensures PiLabel(0) == "0" && PiLabel(4) == "π" && PiLabel(-4) == "-π"
    ensures PiLabel(8) == "2π" && PiLabel(2) == "π/2" && PiLabel(-1) == "-π/4" && PiLabel(3) == "3π/4"
  {
    GcdWithFour(2);
    GcdWithFour(-1);
    GcdWithFour(3);
    assert NatToString(2) == "2";
    assert NatToString(3) == "3";
    assert NatToString(4) == "4";
  }
}

=== FILE: poly.dfy ===
/** Expansion of a list of roots into the coefficients of the monic polynomial
    having exactly those roots: `np.poly`, which starts from `[1]` and convolves
    with `[1, -r]` once per root, highest power first. */
module Poly {
  import opened ComplexArith

  /** Coefficient `k` of `p`, with zero outside the stored range. */
  function Coef(p: seq<Complex>, k: int): Complex {
    if 0 <= k < |p| then p[k] else Zero
  }

  /** Full convolution of `p` with the two-term kernel `[1, -r]`. */
  function MulLinear(p: seq<Complex>, r: Complex): (q: seq<Complex>)
    ensures |q| == |p| + 1
  {
    seq(|p| + 1, k => Sub(Coef(p, k), Mul(r, Coef(p, k - 1))))
  }

  lemma MulLinearAt(p: seq<Complex>, r: Complex, k: int)
    requires 0 <= k <= |p|
    ensures MulLinear(p, r)[k] == Sub(Coef(p, k), Mul(r, Coef(p, k - 1)))
  {
  }

  /** `np.poly(roots)`: monic, one coefficient more than there are roots. */
  function Expand(roots: seq<Complex>): (p: seq<Complex>)
    ensures |p| == |roots| + 1
    ensures p[0] == One
  {
    if |roots| == 0 then [One]
    else
      var prefix := Expand(roots[..|roots| - 1]);
      MulZeroRight(roots[|roots| - 1]);
      MulLinear(prefix, roots[|roots| - 1])
  }

  /** Coefficient-wise conjugation. */
  function ConjAll(p: seq<Complex>): (q: seq<Complex>)
    ensures |q| == |p|
    ensures forall k :: 0 <= k < |p| ==> q[k] == Conj(p[k])
  {
    seq(|p|, k requires 0 <= k < |p| => Conj(p[k]))
  }

  /** The root multiset is closed under conjugation: every non-real root comes
      with its conjugate, with the same multiplicity. */
  ghost predicate ConjugateClosed(roots: seq<Complex>) {
    multiset(ConjAll(roots)) == multiset(roots)
  }

  lemma MulLinearOfOne(r: Complex)
    ensures MulLinear([One], r) == [One, Neg(r)]
  {
    MulZeroRight(r);
    MulOneRight(r);
  }

  /** Expanding a single root r gives z - r. */
  lemma ExpandSingle(r: Complex)
    ensures Expand([r]) == [One, Neg(r)]
  {
    assert [r][..0] == [];
    MulLinearOfOne(r);
  }

  lemma CoefMulLinear(p: seq<Complex>, r: Complex, k: int)
    ensures Coef(MulLinear(p, r), k) == Sub(Coef(p, k), Mul(r, Coef(p, k - 1)))
  {
    if 0 <= k <= |p| {
      MulLinearAt(p, r, k);
    } else {
      MulZeroRight(r);
    }
  }

  lemma MulLinearAtFrom(q: seq<Complex>, b: Complex, k: int, hi: Complex, lo: Complex)
    requires 0 <= k <= |q|
    requires Coef(q, k) == hi && Coef(q, k - 1) == lo
    ensures MulLinear(q, b)[k] == Sub(hi, Mul(b, lo))
  {
    MulLinearAt(q, b, k);
  }

  lemma MulLinearTwiceAt(p: seq<Complex>, a: Complex, b: Complex, k: int)
    requires 0 <= k < |p| + 2
    ensures MulLinear(MulLinear(p, a), b)[k]
         == Sub(Sub(Coef(p, k), Mul(a, Coef(p, k - 1))), Mul(b, Sub(Coef(p, k - 1), Mul(a, Coef(p, k - 2)))))
  {
    CoefMulLinear(p, a, k);
    CoefMulLinear(p, a, k - 1);
    MulLinearAtFrom(MulLinear(p, a), b, k,
                    Sub(Coef(p, k), Mul(a, Coef(p, k - 1))),
                    Sub(Coef(p, k - 1), Mul(a, Coef(p, k - 2))));
  }

  /** Multiplying by (z - a) then (z - b) equals multiplying by (z - b) then (z - a). */
  lemma MulLinearCommute(p: seq<Complex>, a: Complex, b: Complex)
    ensures MulLinear(MulLinear(p, a), b) == MulLinear(MulLinear(p, b), a)
  {
    var ab := MulLinear(MulLinear(p, a), b);
    var ba := MulLinear(MulLinear(p, b), a);
    forall k | 0 <= k < |ab|
      ensures ab[k] == ba[k]
    {
      MulLinearTwiceAt(p, a, b, k);
      MulLinearTwiceAt(p, b, a, k);
      TwoFactorsCommute(Coef(p, k), Coef(p, k - 1), Coef(p, k - 2), a, b);
    }
  }

  /** One more root multiplies by one more linear factor. */
  lemma ExpandSnoc(rs: seq<Complex>, r: Complex)
    ensures Expand(rs + [r]) == MulLinear(Expand(rs), r)
  {
    assert (rs + [r])[..|rs|] == rs;
  }

  /** A root can be moved from anywhere in the list to the last place. */
  lemma {:induction false} ExpandMoveToEnd(xs: seq<Complex>, x: Complex, ys: seq<Complex>)
    ensures Expand(xs + [x] + ys) == MulLinear(Expand(xs + ys), x)
    decreases |ys|
  {
    if |ys| == 0 {
      assert (xs + [x] + ys)[..|xs + [x] + ys| - 1] == xs;
      assert xs + ys == xs;
    } else {
      var init, y := ys[..|ys| - 1], ys[|ys| - 1];
      assert (xs + [x] + ys)[..|xs + [x] + ys| - 1] == xs + [x] + init;
      assert (xs + ys)[..|xs + ys| - 1] == xs + init;
      ExpandMoveToEnd(xs, x, init);
      MulLinearCommute(Expand(xs + init), x, y);
    }
  }

  /** Expansion depends only on the multiset of roots, not on their order. */
  lemma {:induction false} ExpandPermutation(r1: seq<Complex>, r2: seq<Complex>)
    requires multiset(r1) == multiset(r2)
    ensures Expand(r1) == Expand(r2)
    decreases |r1|
  {
    if |r1| > 0 {
      var n := |r1|;
      var x := r1[n - 1];
      assert r1 == r1[..n - 1] + [x];
      assert x in multiset(r2);
      var j :| 0 <= j < |r2| && r2[j] == x;
      var xs, ys := r2[..j], r2[j + 1..];
      assert r2 == xs + [x] + ys;
      DropMatched(r1[..n - 1], x, xs, ys);
      ExpandPermutation(r1[..n - 1], xs + ys);
      ExpandMoveToEnd(xs, x, ys);
    } else {
      assert |multiset(r2)| == 0;
    }
  }

  /** Taking the same root off both sides keeps the multisets equal. */
  lemma DropMatched(front: seq<Complex>, x: Complex, xs: seq<Complex>, ys: seq<Complex>)
    requires multiset(front + [x]) == multiset(xs + [x] + ys)
    ensures multiset(front) == multiset(xs + ys)
  {
    calc {
      multiset(front) + multiset{x};
      multiset(front + [x]);
      multiset(xs + [x] + ys);
      multiset(xs + ys) + multiset{x};
    }
    assert multiset(front) == multiset(front) + multiset{x} - multiset{x};
    assert multiset(xs + ys) == multiset(xs + ys) + multiset{x} - multiset{x};
  }

  lemma ConjAllMulLinear(p: seq<Complex>, r: Complex)
    ensures ConjAll(MulLinear(p, r)) == MulLinear(ConjAll(p), Conj(r))
  {
    var lhs := ConjAll(MulLinear(p, r));
    var rhs := MulLinear(ConjAll(p), Conj(r));
    forall k | 0 <= k < |lhs|
      ensures lhs[k] == rhs[k]
    {
      ConjMulLinearAt(p, r, k);
    }
  }

  lemma ConjMulLinearAt(p: seq<Complex>, r: Complex, k: nat)
    requires k < |p| + 1
    ensures Conj(MulLinear(p, r)[k]) == MulLinear(ConjAll(p), Conj(r))[k]
  {
    MulLinearAt(p, r, k);
    MulLinearAt(ConjAll(p), Conj(r), k);
    assert Coef(ConjAll(p), k) == Conj(Coef(p, k));
    assert Coef(ConjAll(p), k - 1) == Conj(Coef(p, k - 1));
    ConjSub(Coef(p, k), Mul(r, Coef(p, k - 1)));
    ConjMul(r, Coef(p, k - 1));
  }

  /** Conjugating the coefficients equals expanding the conjugated roots. */
  lemma {:induction false} ExpandConj(roots: seq<Complex>)
    ensures ConjAll(Expand(roots)) == Expand(ConjAll(roots))
    decreases |roots|
  {
    if |roots| == 0 {
      assert ConjAll([One]) == [One];
    } else {
      var n := |roots|;
      ExpandConj(roots[..n - 1]);
      ConjAllMulLinear(Expand(roots[..n - 1]), roots[n - 1]);
      var init, last := roots[..n - 1], roots[n - 1];
      assert roots == init + [last];
      ConjAllSnoc(init, last);
      ExpandSnoc(init, last);
      ExpandSnoc(ConjAll(init), Conj(last));
    }
  }

  /** A conjugate-closed root set expands to a polynomial with real coefficients. */
  lemma ConjugateClosedExpandsReal(roots: seq<Complex>)
    requires ConjugateClosed(roots)
    ensures forall k :: 0 <= k < |Expand(roots)| ==> Expand(roots)[k].im == 0.0
  {
    var p := Expand(roots);
    ExpandConj(roots);
    ExpandPermutation(ConjAll(roots), roots);
    ConjFixedIsReal(p);
  }

  /** Conjugating one more root appends its conjugate. */
  lemma ConjAllSnoc(init: seq<Complex>, last: Complex)
    ensures ConjAll(init + [last]) == ConjAll(init) + [Conj(last)]
  {
  }

  /** Coefficients that conjugation leaves alone are real. */
  lemma ConjFixedIsReal(p: seq<Complex>)
    requires ConjAll(p) == p
    ensures forall k :: 0 <= k < |p| ==> p[k].im == 0.0
  {
    forall k | 0 <= k < |p|
      ensures p[k].im == 0.0
    {
      assert ConjAll(p)[k] == Conj(p[k]);
    }
  }
}

=== FILE: text.dfy ===
/** The Python string operations the modelled code relies on, on `seq<char>`:
    `str.split` on one character, `str.strip`, `str.upper` (ASCII letters),
    `str(int)`, `float(text)` for plain decimal literals and `f"{x:.3f}"` for
    values that are whole thousandths. */
module Text {
  import opened Wrappers

  // ---------------------------------------------------------------------------
  // Searching and splitting

  /** Position of the first `c` in `s`. */
  function IndexOf(s: string, c: char): (i: nat)
    requires c in s
    ensures i < |s| && s[i] == c
    ensures c !in s[..i]
  {
    if s[0] == c then 0 else 1 + IndexOf(s[1..], c)
  }

  /** Glue `parts` together with one `sep` between neighbours (`sep.join(parts)`). */
  function Join(parts: seq<string>, sep: char): string
    decreases |parts|
  {
    if |parts| == 0 then ""
    else if |parts| == 1 then parts[0]
    else parts[0] + [sep] + Join(parts[1..], sep)
  }

  /** `s.split(sep)`: always at least one part, no part contains `sep`, and the
      parts joined with `sep` give back `s`. */
  function Split(s: string, sep: char): (parts: seq<string>)
    ensures |parts| >= 1
    ensures forall i :: 0 <= i < |parts| ==> sep !in parts[i]
    ensures Join(parts, sep) == s
    decreases |s|
  {
    if sep !in s then [s]
    else
      var i := IndexOf(s, sep);
      var rest := Split(s[i + 1..], sep);
      assert s == s[..i] + [sep] + s[i + 1..];
      [s[..i]] + rest
  }

  /** Splitting undoes joining when no part contains the separator. */
  lemma {:induction false} SplitJoin(parts: seq<string>, sep: char)
    requires |parts| >= 1
    requires forall i :: 0 <= i < |parts| ==> sep !in parts[i]
    ensures Split(Join(parts, sep), sep) == parts
    decreases |parts|
  {
    if |parts| == 1 {
      assert Join(parts, sep) == parts[0];
    } else {
      var s := Join(parts, sep);
      JoinCutsAtFirst(parts, sep);
      SplitJoin(parts[1..], sep);
      assert Split(s, sep) == [parts[0]] + Split(Join(parts[1..], sep), sep);
    }
  }

  /** The first separator in a join is the one after the first part. */
  lemma JoinCutsAtFirst(parts: seq<string>, sep: char)
    requires |parts| >= 2 && sep !in parts[0]
    ensures var s := Join(parts, sep);
            && sep in s
            && IndexOf(s, sep) == |parts[0]|
            && s[..|parts[0]|] == parts[0]
            && s[|parts[0]| + 1..] == Join(parts[1..], sep)
  {
    var s := Join(parts, sep);
    assert s == parts[0] + [sep] + Join(parts[1..], sep);
    assert s[|parts[0]|] == sep;
    assert s[..|parts[0]|] == parts[0];
  }

  /** `s.split(sep)[-1]`: the text after the last `sep` (all of `s` if there is none). */
  function LastSegment(s: string, sep: char): (r: string)
    ensures sep !in r
    ensures |r| <= |s| && s[|s| - |r|..] == r
    ensures r == s || s[|s| - |r| - 1] == sep
  {
    var parts := Split(s, sep);
    LastPartIsSuffix(parts, sep);
    parts[|parts| - 1]
  }

  lemma {:induction false} LastPartIsSuffix(parts: seq<string>, sep: char)
    requires |parts| >= 1
    ensures var s, r := Join(parts, sep), parts[|parts| - 1];
            |r| <= |s| && s[|s| - |r|..] == r && (|parts| == 1 || (|r| < |s| && s[|s| - |r| - 1] == sep))
    decreases |parts|
  {
    if |parts| > 1 {
      LastPartIsSuffix(parts[1..], sep);
      assert parts[1..][|parts[1..]| - 1] == parts[|parts| - 1];
      var tail := Join(parts[1..], sep);
      assert Join(parts, sep) == (parts[0] + [sep]) + tail;
    }
  }

  /** Position of the last `c` in `s`, if any. */
  function LastIndexOf(s: string, c: char): (r: Option<nat>)
    ensures r.None? <==> c !in s
    ensures r.Some? ==> r.value < |s| && s[r.value] == c && c !in s[r.value + 1..]
  {
    if |s| == 0 then None
    else if s[|s| - 1] == c then Some(|s| - 1)
    else
      var r := LastIndexOf(s[..|s| - 1], c);
      assert s == s[..|s| - 1] + [s[|s| - 1]];
      if r.Some? then
        assert s[r.value + 1..] == s[..|s| - 1][r.value + 1..] + [s[|s| - 1]];
        r
      else r
  }

  /** `s.rsplit(sep, 1)[0]`: everything before the last `sep`, or all of `s`. */
  function BeforeLast(s: string, sep: char): (r: string)
    ensures |r| <= |s| && s[..|r|] == r
    ensures sep in s ==> |r| < |s| && s[|r|] == sep && sep !in s[|r| + 1..]
    ensures sep !in s ==> r == s
  {
    match LastIndexOf(s, sep)
    case None => s
    case Some(i) => s[..i]
  }

  // ---------------------------------------------------------------------------
  // Whitespace and case

  /** The characters `str.strip()` removes, those for which `str.isspace()`
      holds: tab to carriage return, the four information separators, space,
      next line, no-break space, and the Unicode space and separator
      characters. */
  predicate IsSpace(c: char) {
    || '\U{09}' <= c <= '\U{0D}'
    || '\U{1C}' <= c <= '\U{20}'
    || c == '\U{85}' || c == '\U{A0}' || c == '\U{1680}'
    || '\U{2000}' <= c <= '\U{200A}'
    || c == '\U{2028}' || c == '\U{2029}' || c == '\U{202F}' || c == '\U{205F}' || c == '\U{3000}'
  }

  function StripLeft(s: string): (r: string)
    ensures |r| <= |s| && s[|s| - |r|..] == r
    ensures |r| == 0 || !IsSpace(r[0])
    ensures forall i :: 0 <= i < |s| - |r| ==> IsSpace(s[i])
  {
    if |s| > 0 && IsSpace(s[0]) then StripLeft(s[1..]) else s
  }

  function StripRight(s: string): (r: string)
    ensures |r| <= |s| && s[..|r|] == r
    ensures |r| == 0 || !IsSpace(r[|r| - 1])
    ensures forall i :: |r| <= i < |s| ==> IsSpace(s[i])
  {
    if |s| > 0 && IsSpace(s[|s| - 1]) then StripRight(s[..|s| - 1]) else s
  }

  /** `s.strip()`: the longest infix of `s` that neither starts nor ends with
      whitespace, so everything cut off on either side is whitespace. */
  function Strip(s: string): (r: string)
    ensures |r| == 0 || (!IsSpace(r[0]) && !IsSpace(r[|r| - 1]))
    ensures exists i, j :: 0 <= i <= j <= |s| && r == s[i..j] && AllSpace(s[..i]) && AllSpace(s[j..])
  {
    var left := StripLeft(s);
    var r := StripRight(left);
    StripCuts(s, left, r);
    r
  }

  /** A suffix `left` of `s` after whitespace, and a prefix `r` of `left`
      before whitespace: `r` is the infix of `s` between the two cuts. */
  lemma StripCuts(s: string, left: string, r: string)
    requires |left| <= |s| && s[|s| - |left|..] == left
    requires forall k :: 0 <= k < |s| - |left| ==> IsSpace(s[k])
    requires |r| <= |left| && left[..|r|] == r
    requires forall k :: |r| <= k < |left| ==> IsSpace(left[k])
    ensures var i := |s| - |left|;
            var j := i + |r|;
            0 <= i <= j <= |s| && r == s[i..j] && AllSpace(s[..i]) && AllSpace(s[j..])
  {
    var i := |s| - |left|;
    var j := i + |r|;
    assert r == s[i..j] by {
      SliceOfSuffix(s, i, |r|);
    }
    assert AllSpace(s[..i]) by {
      forall k | 0 <= k < i
        ensures IsSpace(s[..i][k])
      {
        assert s[..i][k] == s[k];
      }
    }
    assert AllSpace(s[j..]) by {
      forall k | 0 <= k < |s| - j
        ensures IsSpace(s[j..][k])
      {
        assert s[j..][k] == left[|r| + k];
      }
    }
  }

  lemma SliceOfSuffix(s: string, i: nat, n: nat)
    requires i + n <= |s|
    ensures s[i..][..n] == s[i..i + n]
  {
  }

  predicate AllSpace(s: string) {
    forall k :: 0 <= k < |s| ==> IsSpace(s[k])
  }

  /** Text that neither starts nor ends with whitespace is left alone by `strip`. */
  lemma StripUnpadded(s: string)
    requires |s| == 0 || (!IsSpace(s[0]) && !IsSpace(s[|s| - 1]))
    ensures Strip(s) == s
  {
  }

  /** `s.upper()` restricted to ASCII: lower-case letters become upper case. */
  function Upper(s: string): (r: string)
    ensures |r| == |s|
    ensures forall i :: 0 <= i < |s| ==>
      if 'a' <= s[i] <= 'z' then r[i] as int == s[i] as int - 32 else r[i] == s[i]
  {
    seq(|s|, i requires 0 <= i < |s| =>
      if 'a' <= s[i] <= 'z' then (s[i] as int - 32) as char else s[i])
  }

  // ---------------------------------------------------------------------------
  // Integers

  predicate IsDigit(c: char) { '0' <= c <= '9' }

  predicate AllDigits(s: string) { forall i :: 0 <= i < |s| ==> IsDigit(s[i]) }

  function DigitChar(d: nat): (c: char)
    requires d < 10
    ensures IsDigit(c)
  {
    ('0' as int + d) as char
  }

  function DigitValue(c: char): nat
    requires IsDigit(c)
  {
    c as int - '0' as int
  }

  /** The number a string of decimal digits denotes (empty string: 0). */
  function DigitsValue(s: string): nat
    requires AllDigits(s)
  {
    if |s| == 0 then 0 else DigitsValue(s[..|s| - 1]) * 10 + DigitValue(s[|s| - 1])
  }

  /** `str(n)` for a natural number. */
  function NatToString(n: nat): (s: string)
    ensures |s| >= 1 && AllDigits(s)
    ensures DigitsValue(s) == n
  {
    if n < 10 then [DigitChar(n)]
    else
      var s := NatToString(n / 10) + [DigitChar(n % 10)];
      assert s[..|s| - 1] == NatToString(n / 10);
      s
  }

  /** `str(i)` for any integer: a minus sign before negative values. */
  function IntToString(i: int): (s: string)
    ensures |s| >= 1
    ensures i < 0 ==> s[0] == '-' && s[1..] == NatToString(-i)
    ensures i >= 0 ==> s == NatToString(i)
  {
    if i < 0 then "-" + NatToString(-i) else NatToString(i)
  }

  /** `int(s)` for an optional minus sign followed by decimal digits. */
  function ParseInt(s: string): Option<int> {
    if |s| > 0 && s[0] == '-' then
      if |s| > 1 && AllDigits(s[1..]) then Some(-(DigitsValue(s[1..]) as int)) else None
    else if |s| > 0 && AllDigits(s) then Some(DigitsValue(s))
    else None
  }

  lemma ParseIntToString(i: int)
    ensures ParseInt(IntToString(i)) == Some(i)
  {
    if i >= 0 {
      assert IntToString(i)[0] != '-' by { assert IsDigit(NatToString(i)[0]); }
    }
  }

  // ---------------------------------------------------------------------------
  // Decimal literals

  function Pow10(n: nat): (p: nat)
    ensures p >= 1
  {
    if n == 0 then 1 else 10 * Pow10(n - 1)
  }

  /** The value of `whole.frac` written in decimal. */
  function PointedValue(whole: string, frac: string): real
    requires AllDigits(whole) && AllDigits(frac)
  {
    DigitsValue(whole) as real + DigitsValue(frac) as real / Pow10(|frac|) as real
  }

  /** A decimal literal without sign: digits, or digits '.' digits with at least one digit. */
  function ParseUnsignedDecimal(s: string): Option<real> {
    if '.' in s then
      var i := IndexOf(s, '.');
      var whole, frac := s[..i], s[i + 1..];
      if AllDigits(whole) && AllDigits(frac) && |whole| + |frac| > 0 then
        Some(PointedValue(whole, frac))
      else None
    else if |s| > 0 && AllDigits(s) then Some(DigitsValue(s) as real)
    else None
  }

  /** `float(s)` for plain decimal literals with an optional sign; anything else
      is the `ValueError` case. */
  function ParseDecimal(s: string): Option<real> {
    if |s| > 0 && (s[0] == '-' || s[0] == '+') then
      match ParseUnsignedDecimal(s[1..])
      case Some(v) => Some(if s[0] == '-' then -v else v)
      case None => None
    else ParseUnsignedDecimal(s)
  }

  /** Three digits, zero padded, of a value below 1000. */
  function ThreeDigits(r: nat): (s: string)
    requires r < 1000
    ensures |s| == 3 && AllDigits(s)
    ensures DigitsValue(s) == r
  {
    var s := [DigitChar(r / 100), DigitChar(r / 10 % 10), DigitChar(r % 10)];
    assert s[..2][..1] == [DigitChar(r / 100)];
    assert s[..2] == [DigitChar(r / 100), DigitChar(r / 10 % 10)];
    assert DigitsValue(s[..2][..1]) == r / 100 by {
      assert s[..2][..1][..0] == [];
    }
    assert DigitsValue(s[..2]) == (r / 100) * 10 + r / 10 % 10;
    assert DigitsValue(s) == ((r / 100) * 10 + r / 10 % 10) * 10 + r % 10;
    Decimal3(r);
    s
  }

  /** A value below 1000 is its hundreds, tens and units digits read back. */
  lemma Decimal3(r: nat)
    requires r < 1000
    ensures ((r / 100) * 10 + r / 10 % 10) * 10 + r % 10 == r
  {
    var q := r / 10;
    assert r == 10 * q + r % 10;
    assert q == 10 * (q / 10) + q % 10;
    assert q / 10 == r / 100;
  }

  /** `f"{x:.3f}"` for `x == k / 1000`. */
  function Fixed3(k: int): (s: string)
  {
    if k < 0 then "-" + UnsignedFixed3(-k) else UnsignedFixed3(k)
  }

  /** A three-decimal rendering neither contains a separator used around it nor
      starts or ends with whitespace. */
  lemma Fixed3Shape(k: int)
    ensures ',' !in Fixed3(k) && ':' !in Fixed3(k)
    ensures |Fixed3(k)| > 0 && !IsSpace(Fixed3(k)[0]) && !IsSpace(Fixed3(k)[|Fixed3(k)| - 1])
  {
    if k < 0 {
      UnsignedFixed3Shape(-k);
      MinusShape(UnsignedFixed3(-k));
    } else {
      UnsignedFixed3Shape(k);
    }
  }

  /** Digits, a point and digits: no separator, a digit at both ends. */
  lemma UnsignedFixed3Shape(m: nat)
    ensures var u := UnsignedFixed3(m);
            ',' !in u && ':' !in u && |u| > 0 && IsDigit(u[0]) && IsDigit(u[|u| - 1])
  {
    var w, f := NatToString(m / 1000), ThreeDigits(m % 1000);
    var u := UnsignedFixed3(m);
    assert u == w + "." + f;
    forall i | 0 <= i < |u|
      ensures u[i] != ',' && u[i] != ':'
    {
      if i < |w| { assert u[i] == w[i]; }
      else if i > |w| { assert u[i] == f[i - 1 - |w|]; }
    }
    assert u[|u| - 1] == f[2];
    assert u[0] == w[0];
  }

  /** A minus sign in front adds no separator and keeps the last digit last. */
  lemma MinusShape(u: string)
    requires ',' !in u && ':' !in u && |u| > 0 && IsDigit(u[|u| - 1])
    ensures var s := "-" + u;
            ',' !in s && ':' !in s && !IsSpace(s[0]) && IsDigit(s[|s| - 1])
  {
    var s := "-" + u;
    forall i | 0 <= i < |s|
      ensures s[i] != ',' && s[i] != ':'
    {
      if i > 0 { assert s[i] == u[i - 1]; }
    }
    assert s[|s| - 1] == u[|u| - 1];
  }

  lemma PointPosition(w: string, f: string)
    requires AllDigits(w)
    ensures '.' in w + "." + f
    ensures IndexOf(w + "." + f, '.') == |w|
  {
    var u := w + "." + f;
    assert u[|w|] == '.';
    assert '.' !in w by {
      forall j | 0 <= j < |w| ensures w[j] != '.' { assert IsDigit(w[j]); }
    }
    assert u[..|w|] == w;
  }

  /** Digits, a point and digits read back as whole part plus scaled fraction. */
  lemma ParsePointed(w: string, f: string)
    requires AllDigits(w) && AllDigits(f) && |w| >= 1
    ensures ParseUnsignedDecimal(w + "." + f) == Some(PointedValue(w, f))
  {
    var u := w + "." + f;
    PointPosition(w, f);
    assert u[..|w|] == w;
    assert u[|w| + 1..] == f;
  }

  lemma ThousandthsValue(m: nat)
    ensures PointedValue(NatToString(m / 1000), ThreeDigits(m % 1000)) == m as real / 1000.0
  {
    assert Pow10(3) == 1000;
    var q, r := m / 1000, m % 1000;
    assert m == q * 1000 + r;
    assert q as real + r as real / 1000.0 == (q * 1000 + r) as real / 1000.0;
  }

  /** Reading back a three-decimal rendering gives the value it was made from. */
  lemma ParseFixed3(k: int)
    ensures ParseDecimal(Fixed3(k)) == Some(k as real / 1000.0)
  {
    if k < 0 {
      ParseFixed3Negative(-k);
      NegatedThousandths(k);
    } else {
      ParseFixed3NonNegative(k);
    }
  }

  lemma ParseFixed3Negative(m: nat)
    requires m > 0
    ensures ParseDecimal(Fixed3(-(m as int))) == Some(-(m as real / 1000.0))
  {
    assert Fixed3(-(m as int)) == "-" + UnsignedFixed3(m);
    NegativeFixed3Reads(m);
  }

  lemma ParseFixed3NonNegative(k: int)
    requires k >= 0
    ensures ParseDecimal(Fixed3(k)) == Some(k as real / 1000.0)
  {
    UnsignedFixed3Reads(k);
    ParseUnsigned(UnsignedFixed3(k), k as real / 1000.0);
  }

  lemma NegativeFixed3Reads(m: nat)
    ensures ParseDecimal("-" + UnsignedFixed3(m)) == Some(-(m as real / 1000.0))
  {
    UnsignedFixed3Reads(m);
    ParseNegated(UnsignedFixed3(m), m as real / 1000.0);
  }

  lemma NegatedThousandths(k: int)
    requires k < 0
    ensures -((-k) as real / 1000.0) == k as real / 1000.0
  {
  }

  /** The unsigned part of a three-decimal rendering. */
  function UnsignedFixed3(m: nat): string {
    NatToString(m / 1000) + "." + ThreeDigits(m % 1000)
  }

  lemma UnsignedFixed3Reads(m: nat)
    ensures |UnsignedFixed3(m)| > 0 && IsDigit(UnsignedFixed3(m)[0])
    ensures ParseUnsignedDecimal(UnsignedFixed3(m)) == Some(m as real / 1000.0)
  {
    var w, f := NatToString(m / 1000), ThreeDigits(m % 1000);
    ParsePointed(w, f);
    ThousandthsValue(m);
    assert UnsignedFixed3(m)[0] == w[0];
  }

  /** A literal that starts with a digit reads the same with no sign. */
  lemma ParseUnsigned(u: string, v: real)
    requires |u| > 0 && IsDigit(u[0]) && ParseUnsignedDecimal(u) == Some(v)
    ensures ParseDecimal(u) == Some(v)
  {
  }

  /** Behind a `-` a literal that starts with a digit reads negated. */
  lemma ParseNegated(u: string, v: real)
    requires ParseUnsignedDecimal(u) == Some(v)
    ensures ParseDecimal("-" + u) == Some(-v)
  {
    assert ("-" + u)[1..] == u;
  }
}

=== FILE: wrappers.dfy ===
/** Failure-carrying wrapper used wherever the modelled code raises an exception
    (an IndexError, a ValueError) or where emitted C would access memory out of bounds. */
module Wrappers {

  datatype Option<+T> = None | Some(value: T)
}

=== FILE: zplane.dfy ===
/** The z-plane editor's element lists: every placed zero or pole is followed by
    a "phantom" twin at the conjugate position that points back at it through
    `parentIndex`. Dragging either twin keeps the pair conjugate; this module
    also holds the affine screen <-> complex mapping and the guideline labels. */
module ZPlane {
  import opened ComplexArith
  import opened Wrappers

  /** `ZPlaneElement`: a position, whether it is a phantom, and the index of its
      parent in the same list (`-1` for non-phantoms). */
  datatype Element = Element(position: Complex, isPhantom: bool, parentIndex: int)

  /** The shape `add_element` builds: entries come in pairs, an ordinary element
      at an even index followed by its phantom, which points back at it and sits
      at the conjugate position. */
  ghost predicate PairedLayout(elems: seq<Element>) {
    |elems| % 2 == 0 && forall i :: 0 <= i < |elems| ==> WellPlaced(elems, i)
  }

  /** Entry `i` is where the paired layout wants it. */
  ghost predicate WellPlaced(elems: seq<Element>, i: nat)
    requires i < |elems|
  {
    if i % 2 == 0 then !elems[i].isPhantom && elems[i].parentIndex == -1
    else elems[i].isPhantom && elems[i].parentIndex == i - 1
         && elems[i].position == Conj(elems[i - 1].position)
  }

  /** Every phantom's parent exists and sits at the conjugate of the phantom's position. */
  ghost predicate ConjugateSynced(elems: seq<Element>) {
    forall j :: 0 <= j < |elems| && elems[j].isPhantom ==>
      0 <= elems[j].parentIndex < |elems|
      && elems[elems[j].parentIndex].position == Conj(elems[j].position)
  }

  lemma PairedLayoutIsSynced(elems: seq<Element>)
    requires PairedLayout(elems)
    ensures ConjugateSynced(elems)
  {
    forall j | 0 <= j < |elems| && elems[j].isPhantom
      ensures 0 <= elems[j].parentIndex < |elems|
      ensures elems[elems[j].parentIndex].position == Conj(elems[j].position)
    {
      assert WellPlaced(elems, j);
      ConjInvolutive(elems[j - 1].position);
    }
  }

  /** `add_element(position, kind)`: appends the element and then its phantom twin. */
  function AddElement(elems: seq<Element>, p: Complex): (r: seq<Element>)
    ensures |r| == |elems| + 2 && r[..|elems|] == elems
    ensures r[|elems|].position == p && !r[|elems|].isPhantom
    ensures PairedLayout(elems) ==> PairedLayout(r)
  {
    AddKeepsLayout(elems, p);
    elems + [Element(p, false, -1), Element(Conj(p), true, |elems|)]
  }

  lemma AddKeepsLayout(elems: seq<Element>, p: Complex)
    ensures PairedLayout(elems) ==>
      PairedLayout(elems + [Element(p, false, -1), Element(Conj(p), true, |elems|)])
  {
    var r := elems + [Element(p, false, -1), Element(Conj(p), true, |elems|)];
    if PairedLayout(elems) {
      forall i | 0 <= i < |r|
        ensures WellPlaced(r, i)
      {
        if i < |elems| {
          assert WellPlaced(elems, i);
          assert r[i] == elems[i];
          if i % 2 != 0 {
            assert r[i - 1] == elems[i - 1];
          }
        } else if i == |elems| {
          assert i % 2 == 0;
        } else {
          assert i % 2 == 1;
        }
      }
    }
  }

  /** Python's `elements[i]` lookup: negative indices count from the end, anything
      else out of range is an `IndexError`. */
  function PyIndex(n: nat, i: int): (r: Option<nat>)
    ensures r.Some? <==> -(n as int) <= i < n
    ensures r.Some? ==> r.value < n && (r.value == i || r.value == n + i)
  {
    if 0 <= i < n then Some(i) else if -(n as int) <= i < 0 then Some(n + i) else None
  }

  /** The first phantom at or after `from` whose parent is `parent`. */
  function FirstPhantomOf(elems: seq<Element>, parent: int, from: nat): (r: Option<nat>)
    ensures r.Some? ==>
      (from <= r.value < |elems| && elems[r.value].isPhantom && elems[r.value].parentIndex == parent)
    ensures r.Some? ==> forall j :: from <= j < r.value ==>
      !(elems[j].isPhantom && elems[j].parentIndex == parent)
    ensures r.None? ==> forall j :: from <= j < |elems| ==>
      !(elems[j].isPhantom && elems[j].parentIndex == parent)
    decreases |elems| - from
  {
    if from >= |elems| then None
    else if elems[from].isPhantom && elems[from].parentIndex == parent then Some(from)
    else FirstPhantomOf(elems, parent, from + 1)
  }

  function SetPosition(elems: seq<Element>, i: nat, p: Complex): (r: seq<Element>)
    requires i < |elems|
    ensures |r| == |elems| && r[i].position == p
  {
    elems[i := elems[i].(position := p)]
  }

  /** One drag step (`mouseMoveEvent` with an item held) moving element `idx` to
      `p`. A phantom moves itself and puts its parent at the conjugate; an ordinary
      element moves itself and puts its first phantom at the conjugate. `None` is
      the `IndexError` of a phantom whose parent index is out of range. */
  function DragTo(elems: seq<Element>, idx: nat, p: Complex): (r: Option<seq<Element>>)
    requires idx < |elems|
    ensures r.Some? ==> |r.value| == |elems| && r.value[idx].position == p
    ensures r.Some? ==> forall j :: 0 <= j < |elems| ==>
      r.value[j].isPhantom == elems[j].isPhantom && r.value[j].parentIndex == elems[j].parentIndex
  {
    if elems[idx].isPhantom then
      match PyIndex(|elems|, elems[idx].parentIndex)
      case None => None
      case Some(parent) => Some(SetPosition(SetPosition(elems, parent, Conj(p)), idx, p))
    else
      var moved := SetPosition(elems, idx, p);
      match FirstPhantomOf(moved, idx, 0)
      case None => Some(moved)
      case Some(twin) => Some(SetPosition(moved, twin, Conj(p)))
  }

  /** A drag step of either twin keeps every pair conjugate. */
  lemma DragKeepsLayout(elems: seq<Element>, idx: nat, p: Complex)
    requires PairedLayout(elems) && idx < |elems|
    ensures DragTo(elems, idx, p).Some?
    ensures PairedLayout(DragTo(elems, idx, p).value)
  {
    if idx % 2 == 0 {
      DragFirstKeepsLayout(elems, idx, p);
    } else {
      DragSecondKeepsLayout(elems, idx, p);
    }
  }

  /** Dragging the first of a pair moves its twin to the conjugate. */
  lemma DragFirstKeepsLayout(elems: seq<Element>, idx: nat, p: Complex)
    requires PairedLayout(elems) && idx < |elems| && idx % 2 == 0
    ensures DragTo(elems, idx, p).Some?
    ensures PairedLayout(DragTo(elems, idx, p).value)
  {
    var r := DragTo(elems, idx, p);
    assert WellPlaced(elems, idx);
    var moved := SetPosition(elems, idx, p);
    PairedPrefixFacts(elems, idx, p);
    var s := SetPosition(moved, idx + 1, Conj(p));
    assert r == Some(s);
    assert WellPlaced(elems, idx + 1);
    forall i | 0 <= i < |s|
      ensures WellPlaced(s, i)
    {
      assert WellPlaced(elems, i);
      if i != idx && i != idx + 1 {
        assert s[i] == elems[i];
        if i % 2 != 0 {
          assert s[i - 1] == elems[i - 1];
        }
      }
    }
  }

  /** Dragging the second of a pair moves its parent to the conjugate. */
  lemma DragSecondKeepsLayout(elems: seq<Element>, idx: nat, p: Complex)
    requires PairedLayout(elems) && idx < |elems| && idx % 2 == 1
    ensures DragTo(elems, idx, p).Some?
    ensures PairedLayout(DragTo(elems, idx, p).value)
  {
    var r := DragTo(elems, idx, p);
    assert WellPlaced(elems, idx);
    assert PyIndex(|elems|, elems[idx].parentIndex) == Some(idx - 1);
    var s := SetPosition(SetPosition(elems, idx - 1, Conj(p)), idx, p);
    assert r == Some(s);
    assert WellPlaced(elems, idx - 1);
    ConjInvolutive(p);
    forall i | 0 <= i < |s|
      ensures WellPlaced(s, i)
    {
      assert WellPlaced(elems, i);
      if i != idx && i != idx - 1 {
        assert s[i] == elems[i];
        if i % 2 != 0 {
          assert s[i - 1] == elems[i - 1];
        }
      }
    }
  }

  lemma DragKeepsLayoutWhenPaired(elems: seq<Element>, idx: nat, p: Complex)
    requires idx < |elems|
    ensures PairedLayout(elems) ==> DragTo(elems, idx, p).Some? && PairedLayout(DragTo(elems, idx, p).value)
  {
    if PairedLayout(elems) {
      DragKeepsLayout(elems, idx, p);
    }
  }

  /** Moving the ordinary element of one pair leaves the flags and parent links,
      and every other pair, as they were, so its twin is still found at `idx + 1`. */
  lemma PairedPrefixFacts(elems: seq<Element>, idx: nat, q: Complex)
    requires PairedLayout(elems) && idx < |elems| && idx % 2 == 0
    ensures FirstPhantomOf(SetPosition(elems, idx, q), idx, 0) == Some(idx + 1)
  {
    var moved := SetPosition(elems, idx, q);
    assert WellPlaced(elems, idx + 1);
    assert moved[idx + 1] == elems[idx + 1];
    forall j | 0 <= j < idx + 1
      ensures !(moved[j].isPhantom && moved[j].parentIndex == idx)
    {
      assert WellPlaced(elems, j);
      if j != idx {
        assert moved[j] == elems[j];
      }
    }
    FirstPhantomAt(moved, idx, 0, idx + 1);
  }

  /** `FirstPhantomOf` finds `k` when `k` matches and nothing in `[from, k)` does. */
  lemma {:induction false} FirstPhantomAt(elems: seq<Element>, parent: int, from: nat, k: nat)
    requires from <= k < |elems|
    requires elems[k].isPhantom && elems[k].parentIndex == parent
    requires forall j :: from <= j < k ==> !(elems[j].isPhantom && elems[j].parentIndex == parent)
    ensures FirstPhantomOf(elems, parent, from) == Some(k)
    decreases k - from
  {
    if from < k {
      FirstPhantomAt(elems, parent, from + 1, k);
    }
  }

  /** `mouseReleaseEvent` with an item held, as written: a phantom behaves as in a
      drag step, but an ordinary element only moves itself. */
  function ReleaseAsWritten(elems: seq<Element>, idx: nat, p: Complex): (r: Option<seq<Element>>)
    requires idx < |elems|
    ensures !elems[idx].isPhantom ==> r == Some(SetPosition(elems, idx, p))
    ensures elems[idx].isPhantom ==> r == DragTo(elems, idx, p)
  {
    if elems[idx].isPhantom then
      match PyIndex(|elems|, elems[idx].parentIndex)
      case None => None
      case Some(parent) => Some(SetPosition(SetPosition(elems, parent, Conj(p)), idx, p))
    else Some(SetPosition(elems, idx, p))
  }

  /** Releasing an ordinary element away from its last drag position leaves its
      phantom behind: one zero placed at i, released at 1 + i, keeps its phantom at -i. */
  lemma ReleaseLeavesPhantomBehind()
    ensures var elems := AddElement([], Complex(0.0, 1.0));
            var r := ReleaseAsWritten(elems, 0, Complex(1.0, 1.0));
            PairedLayout(elems) && r.Some? && !ConjugateSynced(r.value)
  {
    var elems := AddElement([], Complex(0.0, 1.0));
    var r := ReleaseAsWritten(elems, 0, Complex(1.0, 1.0)).value;
    assert r[1].isPhantom && r[1].parentIndex == 0;
    assert r[0].position != Conj(r[1].position);
  }

  /** Release with the phantom re-synchronised, exactly as a drag step does it. */
  function Release(elems: seq<Element>, idx: nat, p: Complex): (r: Option<seq<Element>>)
    requires idx < |elems|
    ensures r.Some? ==> |r.value| == |elems| && r.value[idx].position == p
    ensures PairedLayout(elems) ==> r.Some? && PairedLayout(r.value)
  {
    DragKeepsLayoutWhenPaired(elems, idx, p);
    DragTo(elems, idx, p)
  }

  /** The positions of a list of elements, phantoms included, in list order. */
  function Positions(elems: seq<Element>): (r: seq<Complex>)
    ensures |r| == |elems|
    ensures forall i :: 0 <= i < |elems| ==> r[i] == elems[i].position
  {
    seq(|elems|, i requires 0 <= i < |elems| => elems[i].position)
  }

  // ---------------------------------------------------------------------------
  // Screen mapping

  datatype Point = Point(x: real, y: real)

  /** The widget's pixel size; the unit circle has radius `0.4 * min(width, height)`. */
  datatype Viewport = Viewport(width: nat, height: nat)

  function Radius(v: Viewport): real {
    (if v.width <= v.height then v.width else v.height) as real * 0.4
  }

  /** `complex_to_point`: origin at the widget centre, imaginary axis pointing up. */
  function ComplexToPoint(v: Viewport, z: Complex): Point {
    Point(v.width as real / 2.0 + z.re * Radius(v), v.height as real / 2.0 - z.im * Radius(v))
  }

  /** `point_to_complex`; `None` is the division by a zero radius of an empty widget. */
  function PointToComplex(v: Viewport, p: Point): (r: Option<Complex>)
    ensures r.Some? <==> Radius(v) != 0.0
  {
    if Radius(v) == 0.0 then None
    else Some(Complex((p.x - v.width as real / 2.0) / Radius(v),
                      -(p.y - v.height as real / 2.0) / Radius(v)))
  }

  lemma PointToComplexToPoint(v: Viewport, z: Complex)
    requires v.width > 0 && v.height > 0
    ensures PointToComplex(v, ComplexToPoint(v, z)) == Some(z)
  {
    var r := Radius(v);
    assert r > 0.0;
    var pt := ComplexToPoint(v, z);
    assert pt.x - v.width as real / 2.0 == z.re * r;
    assert pt.y - v.height as real / 2.0 == -(z.im * r);
    assert (z.re * r) / r == z.re;
    assert -(-(z.im * r)) / r == z.im;
  }

  lemma ComplexToPointToComplex(v: Viewport, p: Point)
    requires v.width > 0 && v.height > 0
    ensures PointToComplex(v, p).Some?
    ensures ComplexToPoint(v, PointToComplex(v, p).value) == p
  {
    var r := Radius(v);
    assert r > 0.0;
    var dx, dy := p.x - v.width as real / 2.0, p.y - v.height as real / 2.0;
    assert (dx / r) * r == dx;
    assert (-dy / r) * r == -dy;
  }

  /** A widget with no area has no usable mapping at all. */
  lemma EmptyViewportHasNoMapping(v: Viewport, p: Point)
    requires v.width == 0 || v.height == 0
    ensures PointToComplex(v, p) == None
  {
  }

  // ---------------------------------------------------------------------------
  // Guideline labels

  /** The label `angle_to_pi_str` draws: one of the named multiples of π/4, or the
      numeric `"%.2fπ"` fallback (kept as the ratio it would print). */
  datatype AngleLabel = Named(text: string) | Fallback(ratio: real)

  function AngleToPiStr(angle: int): AngleLabel {
    var rad := angle as real / 180.0;
    if rad == 0.0 then Named("0")
    else if rad == 1.0 then Named("π")
    else if rad == 2.0 then Named("2π")
    else if rad == 0.5 then Named("π/2")
    else if rad == 1.5 then Named("3π/2")
    else if rad == 0.25 then Named("π/4")
    else if rad == 0.75 then Named("3π/4")
    else if rad == 1.25 then Named("5π/4")
    else if rad == 1.75 then Named("7π/4")
    else Fallback(rad)
  }

  /** A whole-degree angle gets a named label exactly when it is a multiple of
      45° between 0° and 360°. */
  lemma NamedLabelExactly(angle: int)
    ensures AngleToPiStr(angle).Named? <==> (0 <= angle <= 360 && angle % 45 == 0)
  {
    var rad := angle as real / 180.0;
    assert angle as real == rad * 180.0;
    if 0 <= angle <= 360 && angle % 45 == 0 {
      var q := angle / 45;
      assert angle == 45 * q && 0 <= q <= 8;
      assert rad == q as real / 4.0;
    }
  }

  /** Every guideline labelled by `draw_guidelines` (angles 0, 15, …, 345 that are
      multiples of 45) gets a named label. */
  lemma GuidelineLabelsAreNamed(step: nat)
    requires step < 24 && (step * 15) % 45 == 0
    ensures AngleToPiStr(step * 15).Named?
  {
    NamedLabelExactly(step * 15);
  }
}

=== FILE: zplane_history.dfy ===
/** The z-plane editor as a state record: the two element lists, the conjugate
    check box, and the undo/redo history of snapshots with its cursor. Every
    editing gesture that ends (a release, a toggle) saves a snapshot; undo and
    redo move the cursor and copy a snapshot back. */
module ZPlaneHistory {
  import opened ComplexArith
  import opened Wrappers
  import opened ZPlane

  datatype Kind = ZeroKind | PoleKind

  /** One history entry: copies of both lists and the conjugate flag. */
  datatype Snapshot = Snapshot(zeros: seq<Element>, poles: seq<Element>, conjugateEnabled: bool)

  datatype Editor = Editor(
    zeros: seq<Element>,
    poles: seq<Element>,
    conjugateMode: bool,
    history: seq<Snapshot>,
    historyIndex: int)

  /** The cursor points at an existing snapshot. */
  predicate Valid(e: Editor) {
    0 <= e.historyIndex < |e.history|
  }

  /** What `save_state` would record for the editor as it is now. */
  function StateOf(e: Editor): Snapshot {
    Snapshot(e.zeros, e.poles, e.conjugateMode)
  }

  /** The editor shows exactly the snapshot under the cursor. */
  predicate Synced(e: Editor) {
    Valid(e) && StateOf(e) == e.history[e.historyIndex]
  }

  predicate CanUndo(e: Editor) {
    e.historyIndex > 0
  }

  predicate CanRedo(e: Editor) {
    e.historyIndex < |e.history| - 1
  }

  function ListOf(e: Editor, kind: Kind): seq<Element> {
    if kind == ZeroKind then e.zeros else e.poles
  }

  function WithList(e: Editor, kind: Kind, elems: seq<Element>): (r: Editor)
    ensures ListOf(r, kind) == elems
    ensures kind == ZeroKind ==> r.poles == e.poles
    ensures kind == PoleKind ==> r.zeros == e.zeros
    ensures r.history == e.history && r.historyIndex == e.historyIndex
    ensures r.conjugateMode == e.conjugateMode
  {
    if kind == ZeroKind then e.(zeros := elems) else e.(poles := elems)
  }

  /** Python's `s[:k]` for any integer `k`: a negative bound counts from the end. */
  function PyPrefix<T>(s: seq<T>, k: int): (r: seq<T>)
    ensures 0 <= k <= |s| ==> r == s[..k]
    ensures k > |s| ==> r == s
    ensures k < 0 ==> |r| == if |s| + k < 0 then 0 else |s| + k
    ensures |r| <= |s| && r == s[..|r|]
  {
    if k >= 0 then (if k <= |s| then s[..k] else s)
    else if |s| + k < 0 then []
    else s[..|s| + k]
  }

  /** `save_state`: drop everything after the cursor, append the current state,
      advance the cursor. */
  function SaveState(e: Editor): (r: Editor)
    ensures r.zeros == e.zeros && r.poles == e.poles && r.conjugateMode == e.conjugateMode
    ensures r.historyIndex == e.historyIndex + 1
    ensures -1 <= e.historyIndex < |e.history| ==>
      && |r.history| == e.historyIndex + 2
      && r.history[..e.historyIndex + 1] == e.history[..e.historyIndex + 1]
      && r.history[e.historyIndex + 1] == StateOf(e)
      && Synced(r) && CanUndo(r) == (e.historyIndex >= 0) && !CanRedo(r)
  {
    var kept := PyPrefix(e.history, e.historyIndex + 1);
    e.(history := kept + [StateOf(e)], historyIndex := e.historyIndex + 1)
  }

  /** The constructor: empty lists, conjugates shown, one saved snapshot. */
  function NewEditor(): (r: Editor)
    ensures Synced(r) && !CanUndo(r) && !CanRedo(r)
    ensures r.history == [Snapshot([], [], true)]
  {
    SaveState(Editor([], [], true, [], -1))
  }

  /** Copy snapshot `i` back into the editor and move the cursor there. */
  function Restore(e: Editor, i: nat): (r: Editor)
    requires i < |e.history|
    ensures Synced(r) && r.historyIndex == i && r.history == e.history
  {
    var s := e.history[i];
    e.(zeros := s.zeros, poles := s.poles, conjugateMode := s.conjugateEnabled, historyIndex := i)
  }

  function Undo(e: Editor): (r: Editor)
    requires Valid(e)
    ensures Valid(r) && r.history == e.history
    ensures CanUndo(e) ==> r.historyIndex == e.historyIndex - 1 && Synced(r)
    ensures !CanUndo(e) ==> r == e
  {
    if e.historyIndex > 0 then Restore(e, e.historyIndex - 1) else e
  }

  function Redo(e: Editor): (r: Editor)
    requires Valid(e)
    ensures Valid(r) && r.history == e.history
    ensures CanRedo(e) ==> r.historyIndex == e.historyIndex + 1 && Synced(r)
    ensures !CanRedo(e) ==> r == e
  {
    if e.historyIndex < |e.history| - 1 then Restore(e, e.historyIndex + 1) else e
  }

  /** Undo then redo brings back the snapshot under the original cursor; an
      editor that was showing its snapshot comes back unchanged. */
  lemma UndoThenRedo(e: Editor)
    requires Valid(e) && CanUndo(e)
    ensures Redo(Undo(e)).historyIndex == e.historyIndex
    ensures StateOf(Redo(Undo(e))) == e.history[e.historyIndex]
    ensures Synced(e) ==> Redo(Undo(e)) == e
  {
  }

  lemma RedoThenUndo(e: Editor)
    requires Valid(e) && CanRedo(e)
    ensures Undo(Redo(e)).historyIndex == e.historyIndex
    ensures StateOf(Undo(Redo(e))) == e.history[e.historyIndex]
    ensures Synced(e) ==> Undo(Redo(e)) == e
  {
  }

  /** Whatever was edited since the last save, saving and undoing returns to
      the state that was saved, and redo brings the edit back. */
  lemma SaveThenUndo(e: Editor, edited: Editor)
    requires Synced(e)
    requires edited.history == e.history && edited.historyIndex == e.historyIndex
    ensures StateOf(Undo(SaveState(edited))) == StateOf(e)
    ensures StateOf(Redo(Undo(SaveState(edited)))) == StateOf(edited)
  {
    var s := SaveState(edited);
    assert s.history[e.historyIndex] == e.history[e.historyIndex];
  }

  // ---------------------------------------------------------------------------
  // Gestures

  /** A mouse-move step with element `idx` of list `kind` held; not saved. */
  function DragStep(e: Editor, kind: Kind, idx: nat, p: Complex): (r: Option<Editor>)
    requires idx < |ListOf(e, kind)|
    ensures r.Some? <==> DragTo(ListOf(e, kind), idx, p).Some?
    ensures r.Some? ==> r.value == WithList(e, kind, DragTo(ListOf(e, kind), idx, p).value)
  {
    match DragTo(ListOf(e, kind), idx, p)
    case None => None
    case Some(l) => Some(WithList(e, kind, l))
  }

  /** `mouseReleaseEvent` with element `idx` of list `kind` held, as written:
      `ReleaseAsWritten` on that list, then save. An ordinary element moves
      alone; a phantom also moves its parent. */
  function ReleaseItemAsWritten(e: Editor, kind: Kind, idx: nat, p: Complex): (r: Option<Editor>)
    requires idx < |ListOf(e, kind)|
    ensures !ListOf(e, kind)[idx].isPhantom ==>
      r.Some? && ListOf(r.value, kind) == SetPosition(ListOf(e, kind), idx, p)
    ensures r.Some? ==> |ListOf(r.value, kind)| == |ListOf(e, kind)| && ListOf(r.value, kind)[idx].position == p
    ensures r.Some? && kind == ZeroKind ==> r.value.poles == e.poles
    ensures r.Some? && kind == PoleKind ==> r.value.zeros == e.zeros
    ensures -1 <= e.historyIndex < |e.history| && r.Some? ==> Synced(r.value)
  {
    match ReleaseAsWritten(ListOf(e, kind), idx, p)
    case None => None
    case Some(l) => Some(SaveState(WithList(e, kind, l)))
  }

  /** The corrected release: the held element goes to `p` with its twin
      re-synchronised, as a drag step does it, then save. On a phantom it is
      the release as written. */
  function ReleaseItemCorrected(e: Editor, kind: Kind, idx: nat, p: Complex): (r: Option<Editor>)
    requires idx < |ListOf(e, kind)|
    ensures r.Some? ==> |ListOf(r.value, kind)| == |ListOf(e, kind)| && ListOf(r.value, kind)[idx].position == p
    ensures r.Some? && kind == ZeroKind ==> r.value.poles == e.poles
    ensures r.Some? && kind == PoleKind ==> r.value.zeros == e.zeros
    ensures -1 <= e.historyIndex < |e.history| && r.Some? ==> Synced(r.value)
    ensures ListOf(e, kind)[idx].isPhantom ==> r == ReleaseItemAsWritten(e, kind, idx, p)
  {
    match Release(ListOf(e, kind), idx, p)
    case None => None
    case Some(l) => Some(SaveState(WithList(e, kind, l)))
  }

  /** Releasing a new element dragged from the toolbar: `add_element`, then save. */
  function ReleaseNew(e: Editor, kind: Kind, p: Complex): (r: Editor)
    ensures ListOf(r, kind) == AddElement(ListOf(e, kind), p)
    ensures kind == ZeroKind ==> r.poles == e.poles
    ensures kind == PoleKind ==> r.zeros == e.zeros
    ensures -1 <= e.historyIndex < |e.history| ==> Synced(r)
  {
    SaveState(WithList(e, kind, AddElement(ListOf(e, kind), p)))
  }

  /** `toggle_conjugate_mode`: take the check box state, then save. */
  function ToggleConjugate(e: Editor, checked: bool): (r: Editor)
    ensures r.conjugateMode == checked && r.zeros == e.zeros && r.poles == e.poles
    ensures -1 <= e.historyIndex < |e.history| ==> Synced(r)
  {
    SaveState(e.(conjugateMode := checked))
  }

  // ---------------------------------------------------------------------------
  // The pairing invariant over the whole editor

  ghost predicate SnapshotPaired(s: Snapshot) {
    PairedLayout(s.zeros) && PairedLayout(s.poles)
  }

  /** Both lists and every stored snapshot have the paired layout. */
  ghost predicate Good(e: Editor) {
    && Valid(e)
    && PairedLayout(e.zeros) && PairedLayout(e.poles)
    && forall i :: 0 <= i < |e.history| ==> SnapshotPaired(e.history[i])
  }

  lemma NewEditorGood()
    ensures Good(NewEditor())
  {
    var e := NewEditor();
    assert e.history[0] == Snapshot([], [], true);
    assert SnapshotPaired(e.history[0]);
  }

  lemma SaveStateGood(e: Editor)
    requires Good(e)
    ensures Good(SaveState(e))
  {
    var r := SaveState(e);
    forall i | 0 <= i < |r.history|
      ensures SnapshotPaired(r.history[i])
    {
      if i <= e.historyIndex {
        assert r.history[i] == r.history[..e.historyIndex + 1][i];
      }
    }
  }

  lemma UndoRedoGood(e: Editor)
    requires Good(e)
    ensures Good(Undo(e)) && Good(Redo(e))
  {
    if CanUndo(e) {
      assert SnapshotPaired(e.history[e.historyIndex - 1]);
    }
    if CanRedo(e) {
      assert SnapshotPaired(e.history[e.historyIndex + 1]);
    }
  }

  lemma DragStepGood(e: Editor, kind: Kind, idx: nat, p: Complex)
    requires Good(e) && idx < |ListOf(e, kind)|
    ensures DragStep(e, kind, idx, p).Some?
    ensures Good(DragStep(e, kind, idx, p).value)
  {
    DragKeepsLayout(ListOf(e, kind), idx, p);
  }

  lemma ReleaseItemCorrectedGood(e: Editor, kind: Kind, idx: nat, p: Complex)
    requires Good(e) && idx < |ListOf(e, kind)|
    ensures ReleaseItemCorrected(e, kind, idx, p).Some?
    ensures Good(ReleaseItemCorrected(e, kind, idx, p).value)
  {
    var l := Release(ListOf(e, kind), idx, p).value;
    SaveStateGood(WithList(e, kind, l));
  }

  /** The release as written does not keep `Good`: one zero added at `i` and
      released at `1 + i` leaves an editor whose zeros are out of pairing. */
  lemma ReleaseItemAsWrittenBreaksPairing()
    ensures var e := ReleaseNew(NewEditor(), ZeroKind, Complex(0.0, 1.0));
            var r := ReleaseItemAsWritten(e, ZeroKind, 0, Complex(1.0, 1.0));
            Good(e) && r.Some? && !Good(r.value)
  {
    NewEditorGood();
    ReleaseNewGood(NewEditor(), ZeroKind, Complex(0.0, 1.0));
    var e := ReleaseNew(NewEditor(), ZeroKind, Complex(0.0, 1.0));
    assert e.zeros == AddElement([], Complex(0.0, 1.0));
    ReleaseLeavesPhantomBehind();
    var l := ReleaseAsWritten(e.zeros, 0, Complex(1.0, 1.0)).value;
    assert ReleaseItemAsWritten(e, ZeroKind, 0, Complex(1.0, 1.0)).value.zeros == l;
    if PairedLayout(l) {
      PairedLayoutIsSynced(l);
    }
  }

  lemma ReleaseNewGood(e: Editor, kind: Kind, p: Complex)
    requires Good(e)
    ensures Good(ReleaseNew(e, kind, p))
  {
    SaveStateGood(WithList(e, kind, AddElement(ListOf(e, kind), p)));
  }

  lemma ToggleConjugateGood(e: Editor, checked: bool)
    requires Good(e)
    ensures Good(ToggleConjugate(e, checked))
  {
    SaveStateGood(e.(conjugateMode := checked));
  }
}
